=== FILE: README.md ===
# dbiowrap in Dafny

A model of the core of **dbiowrap**, a TypeScript wrapper for the discord.bio
API. It covers the REST lookups with their rate-limit bookkeeping and error
classes, the expiring and size-limited `Collection` that caches profiles, the
profile structures `IUserDetails` and `IDiscordUser`, and the gateway. The
gateway part includes `SocketManager` with its per-id sockets, heartbeat
handle and `_onMessage` demultiplexer. It also includes the `Socket`
connection state machine and the `snakeToCamelCase` helper that names the
published events.

Everything is modelled as immutable data and pure functions. Four things
become parameters of the functions that use them:

- clock readings (`now`);
- `JSON.parse`;
- `new Date(s).getTime()`;
- the network: a request takes the response it would have received, and a
  lookup takes the function that performs the request.

A JavaScript `throw` is modelled as a result that still carries the state
mutated before the throw.

| file | module | models |
|---|---|---|
| wrappers.dfy | `Wrappers` | `Option` and `Result` |
| strings.dfy | `Strings` | ASCII case mapping, `indexOf`, `lastIndexOf`, `split`, and `String.prototype.replace` with a string pattern (first match only, with `$` patterns) |
| numeral.dfy | `Numeral` | `BigInt(s)`, `BigInt('0x' + h)`, `n.toString(radix)` and `parseInt` |
| values.dfy | `Values` | JSON values plus `undefined`, truthiness, property reads, `{...v}` and `||` |
| util.dfy | `Util` | `snakeToCamelCase` (src/util.ts) |
| collections.dfy | `Collections` | `Collection` (src/collection.ts) |
| discorduser.dfy | `DiscordUser` | `IDiscordUser` (src/structures/discorduser.ts) |
| userdetails.dfy | `UserDetails` | `IUserDetails` (src/structures/userdetails.ts) |
| errors.dfy | `Errors` | `DiscordBioError` and `RatelimitError` (src/errors.ts) |
| routes.dfy | `Routes` | `constructPath` and the details endpoint |
| restclient.dfy | `Rest` | `RestClient` (src/rest/restclient.ts) |
| client.dfy | `Client` | the older `Client` (src/client.ts) |
| profiles.dfy | `Profiles` | the cached profile records and the decoding of a PROFILE_UPDATE payload |
| socket.dfy | `Sockets` | `Socket` (src/gateway/socket.ts) |
| gateway.dfy | `Gateway` | `SocketManager` (src/gateway/socketmanager.ts) |

Some of src/client.ts is modelled only once:

- Its `constructPath` (src/client.ts:54-62) and `updateRatelimitHeaders`
  (src/client.ts:126-132) are textually the same as the REST client's.
- Its `fetchUserDetails` (src/client.ts:68-84) has the same cache logic as
  the REST client's. It differs in two ways. It requests through its own
  `request` (src/client.ts:103-121), which is `Client.RequestAsWritten`, and
  it reshapes the response differently. Both sit inside the `fetch`
  parameter of `Rest.FetchUserDetails`, so for the client's copy that
  parameter stands for `Client.RequestAsWritten` followed by the client's
  reshaping.

These are modelled by `Routes.ConstructPath`, `Rest.UpdateRatelimitHeaders`
and `Rest.FetchUserDetails`.

Two behaviours differ from what the library's own documentation suggests. In
both cases the model follows the code:

- Sockets hand the REST host address `api.discord.bio` to their transport,
  not the gateway constant `api.discord.bio/bio_ws`. This is because
  src/gateway/socket.ts imports `BASE_URL` from the REST routes.
- `unsubscribe` never removes the socket from the manager's collection, so it
  never stops the heartbeat.

## Model

Functions whose own contracts only keep the caches valid are described by the rule lemmas listed against their source lines. These are `Gateway.OnMessage` with its per-event parts, `Gateway.Deliver` and `Sockets.Handle`.

| member | source | states |
|---|---|---|
| Collections.New | src/collection.ts:21-30 | Interval defaults to 5000 when absent or zero. Reset happens only on an explicit `true`. Expiry is `min(expire, interval)` when set and non-zero, otherwise unbounded. A missing or zero limit means unbounded. Seeded entries keep the Map's order and are not stamped. The timer starts only when there are seeded entries and expiry is finite. |
| Collections.DefaultsOfNew | src/collection.ts:21-27 | With no options: empty, interval 5000, unbounded expiry and limit, no timer. |
| Collections.Has | src/collection.ts:100-102 | `has` holds exactly for keys in the insertion order. |
| Collections.Get | src/collection.ts:95-98 | Returns the stored value exactly when the key is present. Stamps `now` as the key's last use even when the key is absent. Leaves entries, order and timer unchanged. |
| Collections.Delete | src/collection.ts:57-64 | Removes the key from values, stamps and order, and keeps the other keys in order. Returns whether the key was present. Emptying the collection unreferences the timer. It throws exactly when the collection becomes empty and no timer was ever created. |
| Collections.Clear | src/collection.ts:48-51 | Empties values and stamps and keeps timer and configuration. |
| Collections.Set | src/collection.ts:159-168 | Below the limit: stores and stamps the value, appends a new key, and starts the timer when expiry is finite. At the limit: deletes the oldest-inserted key first, and that delete can throw. A successful set leaves the value and stamp readable. |
| Collections.SetRespectsLimit | src/collection.ts:159-165 | A set never grows a collection past a finite limit it respected before. |
| Collections.SetEvictsOldest | src/collection.ts:159-166 | At the limit, a new key evicts exactly the first-inserted key and goes to the end. |
| Collections.SetPresentShrinks | src/collection.ts:159-165 | At the limit, re-setting a present key that is not the oldest still evicts the oldest, so the size drops by one. |
| Collections.SetBelowLimitKeeps | src/collection.ts:159-168 | Below the limit nothing is evicted. |
| Collections.FullWithoutExpiryThrows | src/collection.ts:155-163 | With limit 1 and no timer, the eviction empties the collection and `stopInterval` throws. |
| Collections.NoExpiryNoTimer | src/collection.ts:40-42 | With unbounded expiry, a set never creates the timer. |
| Collections.DeleteUndoesSet | src/collection.ts:57-64 | Deleting a key just added below the limit restores order and values. |
| Collections.GetAfterSet | src/collection.ts:95-98 | A value just set is read back, and the read changes no entries. |
| Collections.Sweep | src/collection.ts:104-115 | The sweep removes exactly the entries whose non-zero last use is more than `expire` before `now`. Survivors keep their values and order. With unbounded expiry nothing changes. |
| Collections.SweepFromDeletesExpired | src/collection.ts:108-113 | The sweep loop deletes exactly the expired keys among those it visits, one delete at a time. |
| Collections.SweepKeepsFresh | src/collection.ts:104-115 | A full sweep keeps exactly the unexpired keys, in order. |
| Collections.UnstampedSurvive | src/collection.ts:108-113 | Entries never stamped by `get` or `set`, such as seeded ones, survive every sweep. |
| Collections.ReadEntrySurvives | src/collection.ts:104-115 | An entry read at `t` survives a sweep at `now` unless more than `expire` has passed. |
| Collections.ClearedNothingSwept | src/collection.ts:104-115 | After `clear`, a sweep finds nothing. |
| Collections.Array | src/collection.ts:44-46 | The entries as pairs, in insertion order. |
| Collections.Filter | src/collection.ts:70-78 | The result holds exactly the values of the entries satisfying the predicate. |
| Collections.FilterInOrder | src/collection.ts:70-78 | For every predicate, the result is the values at a strictly increasing run of positions in insertion order. Those positions are exactly the entries satisfying the predicate, one value each. |
| Collections.FilterAllIsValues | src/collection.ts:70-78 | An always-true filter returns every value in insertion order. |
| Collections.Find | src/collection.ts:80-87 | Returns the value of the first entry satisfying the predicate, or nothing exactly when no entry does. |
| Collections.First | src/collection.ts:89-93 | The value of the first-inserted entry, or nothing exactly when empty. |
| Collections.FirstIsFindAnything | src/collection.ts:89-93 | `first` equals `find` with an always-true predicate. |
| Collections.Any | src/collection.ts:137-144 | `some` holds exactly when some entry satisfies the predicate. |
| Collections.AnyIffFind | src/collection.ts:137-144 | `some` holds exactly when `find` finds something. |
| Collections.MapValues | src/collection.ts:121-127 | One result per entry, in insertion order, each the function applied to that entry. |
| Collections.Reduce | src/collection.ts:129-135 | With no entries the fold returns the initial value. |
| Collections.ReduceCollectsValues | src/collection.ts:129-135 | Reducing by appending lists the values in insertion order. |
| Collections.Clone | src/collection.ts:53-55 | Same entries and order under the default configuration, with no stamps and no timer. |
| Collections.CloneSameArray | src/collection.ts:53-55 | A clone has the same `array` as the original. |
| Util.SnakeToCamelCase | src/util.ts:1-7 | Never lengthens the text. Text shorter than two characters is unchanged. The first character is the upper-cased letter when the text starts with a separator-letter match, and is kept otherwise. |
| Util.LengthDropsByMatches | src/util.ts:1-7 | Each separator-letter match shortens the text by exactly one character. |
| Util.ShorterIffMatch | src/util.ts:2-6 | The output is shorter than the input exactly when a match exists. |
| Util.NoMatchUnchanged | src/util.ts:2-6 | Text without any separator-letter pair is returned unchanged. |
| Util.NoSeparatorUnchanged | src/util.ts:2 | A name with neither `-` nor `_` is returned unchanged. |
| Util.CopyPrefix | src/util.ts:2-6 | Text before the first separator is copied as it is. |
| Util.MatchFirst | src/util.ts:2-6 | A separator followed by a letter of either case becomes that letter upper-cased. |
| Util.CamelTwoWords | src/util.ts:2-6 | `head_tail` becomes `head` followed by `tail` with its first letter upper-cased. |
| Util.DoubleSeparatorExample | src/util.ts:2-6 | Of two adjacent separators, only the second starts a match: `a__b` becomes `a_B`. |
| Util.SeparatorDigitExample | src/util.ts:2-6 | A separator before a digit is kept. |
| DiscordUser.New | src/structures/discorduser.ts:22-27 | Succeeds exactly when the id is all decimal digits and the avatar setter accepts the avatar. Stores the id's value, `username#discriminator` and the public flags. Stores the avatar's hex value, or `null` for a missing or empty avatar. `animated` is whether the avatar starts with `a_`. |
| DiscordUser.SetId | src/structures/discorduser.ts:33-35 | Succeeds exactly on all-digit text and changes only the id. A canonical id reads back unchanged. |
| DiscordUser.IdRoundTrip | src/structures/discorduser.ts:29-35 | Setting an id and reading it gives the canonical form, and the text itself when it was canonical. |
| DiscordUser.IdTextRoundTrip | src/structures/discorduser.ts:29-35 | Every stored id survives rendering and setting. |
| DiscordUser.SetAvatar | src/structures/discorduser.ts:42-48 | `null` and `""` clear the avatar. Otherwise an `a_` prefix marks it animated, and the rest must be one or more hex digits or the setter throws, keeping the old hash. |
| DiscordUser.AvatarText | src/structures/discorduser.ts:37-40 | `null` exactly for no hash or a zero hash. Otherwise an optional `a_` and the lower-case hex. |
| DiscordUser.AvatarRoundTrip | src/structures/discorduser.ts:37-48 | A non-zero unprefixed hash is stored, and reads back unchanged when canonical. |
| DiscordUser.AnimatedAvatarRoundTrip | src/structures/discorduser.ts:37-48 | The same for `a_`-prefixed hashes. |
| DiscordUser.AvatarTextRoundTrip | src/structures/discorduser.ts:37-48 | Writing back what the getter returns leaves the stored avatar as it was. |
| DiscordUser.ZeroAvatarIsNull | src/structures/discorduser.ts:37-48 | A zero hash is accepted but reads back as `null`. |
| DiscordUser.BadAvatarThrows | src/structures/discorduser.ts:42-48 | `a_` alone, or any non-hex character, throws a SyntaxError. |
| DiscordUser.Username | src/structures/discorduser.ts:50-52 | The tag up to its last `#`, so that tag = username + `#` + discriminator. Empty when there is no `#`. |
| DiscordUser.Discriminator | src/structures/discorduser.ts:54-56 | The tag after its last `#`, never containing `#`. |
| DiscordUser.TagSplits | src/structures/discorduser.ts:50-56 | The tag splits back into username and discriminator exactly when the discriminator has no `#`. |
| DiscordUser.NewRoundTrip | src/structures/discorduser.ts:22-27 | For a canonical id, a `#`-free discriminator and a canonical non-zero hash, every getter returns what the constructor was given. |
| UserDetails.PackFlags | src/structures/userdetails.ts:44-46 | The flag word holds each boolean in its own bit and nothing above bit 2. |
| UserDetails.PackFlagsInjective | src/structures/userdetails.ts:44-46 | Distinct booleans give distinct flag words, and conversely. |
| UserDetails.New | src/structures/userdetails.ts:41-56 | Throws exactly when the user id is not all digits. Otherwise copies the plain fields and stores the id's value. |
| UserDetails.StoredDate | src/structures/userdetails.ts:47-51 | A non-empty date string is stored parsed; `null` and `""` store `null`. |
| UserDetails.DateOf | src/structures/userdetails.ts:58-72 | The date getters return a timestamp exactly when the stored one is an integer other than 0. |
| UserDetails.DatesRoundTrip | src/structures/userdetails.ts:58-72 | A date reads back exactly when it was given non-empty and parsed to a non-zero number, and then as that number. |
| UserDetails.UserIdRoundTrip | src/structures/userdetails.ts:74-80 | `user_id` and `id` give back a canonical id unchanged. |
| UserDetails.VerifiedAsWritten | src/structures/userdetails.ts:90-92 | The `verified` getter as written shifts 1 by the flag's value, so it reads the premium bit. |
| UserDetails.PremiumAsWritten | src/structures/userdetails.ts:82-84 | The `premium` getter as written reads the staff bit. |
| UserDetails.StaffAsWritten | src/structures/userdetails.ts:86-88 | The `staff` getter as written reads the bit of value 16, which the constructor never sets. |
| UserDetails.GettersAsWritten | src/structures/userdetails.ts:82-92 | The getters as written report `premium` as verified and `staff` as premium, and never report staff. |
| UserDetails.VerifiedUserReadsUnverified | src/structures/userdetails.ts:90-92 | A verified, non-premium, non-staff user reads as not verified. |
| UserDetails.FlagsRoundTrip | src/structures/userdetails.ts:1-5 | Getters that test their own flag return exactly the three booleans the constructor packed. |
| Numeral.ShowParse | src/structures/discorduser.ts:29-31 | `toString(radix)` writes a canonical numeral that reads back as the same number. |
| Numeral.ParseShow | src/structures/discorduser.ts:33-35 | A canonical numeral survives `BigInt` then `toString` unchanged. |
| Numeral.BigIntHex | src/structures/discorduser.ts:42-48 | `BigInt('0x' + h)` succeeds exactly for one or more hex digits. A canonical `h` reads back. |
| Errors.NewDiscordBioError | src/errors.ts:7-18 | The message is the string conversion of the value thrown with, as `Error` stores it. Keeps request and response. `statusCode` is the response's status. |
| Errors.NonStringMessages | src/errors.ts:10-11 | Thrown with an object, the message is `[object Object]`. Thrown with a number, the message is its digits, which read back as that number. |
| Errors.StatusCode | src/errors.ts:16-18 | A general error reports its response's status, and a rate-limit error always reports 429. |
| Errors.NewRatelimitError | src/errors.ts:21-27 | Built exactly when the status is 429, with the string conversion of the value as its message. Otherwise throws an error naming the status. |
| Errors.RatelimitStatusIs429 | src/errors.ts:48-50 | Every rate-limit error reports 429, which is also its response's status. |
| Errors.MismatchNamesStatus | src/errors.ts:24-26 | A non-429 status makes the constructor throw `Invalid ratelimit status code: <status>. Expected: 429`. |
| Errors.FetchRatelimitHeader | src/errors.ts:29-34 | `null` exactly for an absent or empty header. Otherwise its `parseInt`. |
| Errors.HeaderRoundTrip | src/errors.ts:29-34 | A header holding a decimal numeral reads back as that number. |
| Errors.HeadersRoundTrip | src/errors.ts:36-46 | `limit`, `remaining` and `reset` read their own three headers. |
| Routes.ConstructPath | src/rest/restclient.ts:44-52 | Without parameters the path is host + version + endpoint. |
| Routes.OneParamReplacesFirst | src/rest/restclient.ts:46-49 | A parameter without `$` replaces only the first occurrence of its `:name` placeholder, verbatim. |
| Routes.AbsentParamKeeps | src/rest/restclient.ts:46-49 | A parameter whose placeholder does not occur leaves the path unchanged. |
| Routes.DetailsParamName | src/rest/restclient.ts:62-64 | The details endpoint's parameter name is `input`. |
| Routes.DetailsPath | src/rest/restclient.ts:62-64 | The details path is host + version + `/user/details/` + query, for a query without `$`. |
| Rest.UpdateRatelimitHeaders | src/rest/restclient.ts:117-123 | Each listed header with a non-empty value is stored parsed, others stay. The limit entry is never written. |
| Rest.RefreshIdempotent | src/rest/restclient.ts:117-123 | Updating twice from one response is updating once. |
| Rest.LimitStaysNull | src/rest/restclient.ts:118 | However many responses arrive, the stored limit stays `null`. |
| Rest.RefreshReadsNumerals | src/rest/restclient.ts:119-122 | Decimal reset and remaining headers are stored as exactly those numbers. |
| Rest.ReadBody | src/rest/restclient.ts:100-103 | The body is the parsed JSON, or the raw text when parsing fails. |
| Rest.ThrowValue | src/rest/restclient.ts:105 | `json.message` when truthy, else the body. Throws a TypeError exactly on a `null` body. |
| Rest.Request | src/rest/restclient.ts:96-112 | Headers are updated first. 200 returns the body. 429 rejects with a `RatelimitError` and any other status with a `DiscordBioError`. Each carries the throw value's string conversion as its message, plus the request and the response. A `null` error body rejects with a TypeError. |
| Rest.ErrorBodyMessage | src/rest/restclient.ts:104-106 | An error body `{}` gives the message `[object Object]`. A numeric error body gives its digits, which read back as that number. |
| Rest.RequestErrorStatus | src/rest/restclient.ts:104-110 | Every API error rejected reports the response's own non-200 status. |
| Rest.RawBodyReturned | src/rest/restclient.ts:100-103 | A non-JSON body with status 200 is returned as text. |
| Rest.FetchUserDetails | src/rest/restclient.ts:58-77 | A cached entry is returned without a request. Otherwise the details path for the query is requested. A failed request rejects with its error. Without a cache a successful result is returned. With a cache it is stored under the query with `set`, and the lookup fails exactly when that `set` throws, with that error. |
| Rest.MissStoredBelowLimit | src/rest/restclient.ts:66-76 | Below the cache's limit, a miss whose request succeeds returns the fetched value and leaves it cached under the query. |
| Rest.SecondFetchHits | src/rest/restclient.ts:58-77 | After a successful lookup with a cache, the same lookup makes no request and returns the same value. |
| Client.ProfileCache | src/client.ts:39-49 | `cache: false` gives no cache. An options object under `userProfiles` configures it. A `null` there throws. Anything else gives a default cache. |
| Client.ProfilesFalseStillCaches | src/client.ts:42-48 | `{userProfiles: false}` still gives an empty, unbounded cache. |
| Client.RequestAsWritten | src/client.ts:103-106 | The headers are updated from the response first, whatever its body or status. |
| Client.ErrorWithoutMessageRejects | src/client.ts:113-115 | An error response with body `{}` rejects with the body-used error, never with the API error. |
| Client.Request | src/client.ts:103-121 | Corrected: a missing `message` falls back to the body text already read. The error's message is the string conversion of that value. Non-JSON bodies are an API error. 200 returns the parsed body. |
| Client.RequestAgreesElsewhere | src/client.ts:103-121 | The as-written and corrected requests agree except where the as-written one rejects with the body-used error, which happens exactly for error bodies without a truthy `message`. |
| Profiles.DetailsOptionsRoundTrip | src/structures/userdetails.ts:41-56 | Decoding the wire form of any details options gives back those options. |
| Profiles.UserOptionsRoundTrip | src/structures/discorduser.ts:22-27 | Decoding the wire form of any Discord user options gives back those options. |
| Profiles.DecodeProfileUpdate | src/gateway/socketmanager.ts:178-189 | A payload is read only when it is an object with both `user` and `discord`. |
| Profiles.NullDiscordThrows | src/gateway/socketmanager.ts:188 | A `null` discord part makes reading the payload throw. |
| Sockets.Connect | src/gateway/socket.ts:41-47 | Hands the REST host address to one more transport, with exactly the spread options' keys plus `headers`: each spread value is kept and `headers` is `{}`. The handlers keep the two arguments, and earlier transports are unchanged. |
| Sockets.New | src/gateway/socket.ts:29-35 | Stores the id and opens exactly one transport, with the truthiness of `autoReconnect` and the WebSocket options. |
| Sockets.CloseSocket | src/gateway/socket.ts:37-39 | Sends code 1000 with the client reason on the current transport. That transport's address, options and reconnect flag are kept, and earlier transports are unchanged. |
| Sockets.CloseRule | src/gateway/socket.ts:50-53 | A close is re-emitted. It reconnects with the same arguments exactly when the transport's flag is set and the code is not 1000. |
| Sockets.ClientCloseNeverReconnects | src/gateway/socket.ts:37-39 | The close frame `close()` sends never makes a handler reconnect. |
| Sockets.UnflaggedNeverReconnects | src/gateway/socketmanager.ts:83 | A transport opened by `connect()` without arguments never reconnects. |
| Sockets.MessageRule | src/gateway/socket.ts:57-66 | Non-text data throws the non-JSON error and unparsable text the invalid-JSON error, each naming the id. Parsed JSON is emitted as `raw`. |
| Sockets.PassThrough | src/gateway/socket.ts:55-68 | `error` and `open` are re-emitted and change nothing. |
| Gateway.New | src/gateway/socketmanager.ts:37-50 | `autoReconnect` is always truthy. The timeout falls back to 10000 when falsy. One fresh socket is stored per subscribed id. A heartbeat starts exactly when the subscribe list is non-empty. |
| Gateway.ConstructedSocketsReconnect | src/gateway/socketmanager.ts:39 | Each constructed socket's first transport reconnects on any close code but 1000; its second never does. |
| Gateway.SetSocket | src/gateway/socketmanager.ts:75-88 | Stores a socket connected with the manager's options and then with none, under its id. Other sockets and the heartbeat are unchanged. |
| Gateway.SetSockets | src/gateway/socketmanager.ts:42-46 | After the subscription loop the stored ids are the old ones plus the list, each listed id with a fresh socket. |
| Gateway.Subscribe | src/gateway/socketmanager.ts:110-114 | Sets the socket up, and starts a heartbeat only when no handle was ever stored. The manager's own options are unchanged. |
| Gateway.Unsubscribe | src/gateway/socketmanager.ts:116-121 | Throws exactly when no socket has the id. Otherwise closes that socket only. Never removes an entry or clears the heartbeat. Stamps the id. The manager's options and the collection's configuration are unchanged. |
| Gateway.UnsubscribeAll | src/gateway/socketmanager.ts:123-129 | Closes every socket, clears a stored heartbeat and empties the collection. The last delete's `stopInterval` rejection happens exactly when the collection was non-empty. The manager's options and the collection's configuration are unchanged. |
| Gateway.DeleteAllOnce | src/gateway/socketmanager.ts:124-127 | Deleting every key in order empties the collection, and only the last delete throws. |
| Gateway.ClearedHeartbeatNeverRestarts | src/gateway/socketmanager.ts:110-129 | After `unsubscribeAll`, a new `subscribe` starts no heartbeat, because the cleared handle stays truthy. |
| Gateway.ResubscribeUsesOriginalOptions | src/gateway/socketmanager.ts:75-129 | A `subscribe` after `unsubscribe` or `unsubscribeAll` stores a socket built from the options the manager was constructed with. |
| Gateway.FrameRule | src/gateway/socketmanager.ts:134-138 | A two-item array with a string first item reads as (name, payload). `null` or a non-string name throws. |
| Gateway.HandledNames | src/gateway/socketmanager.ts:138 | The four handled wire names are published as `bannerUpdate`, `presence`, `profileUpdate` and `totalViewing`. |
| Gateway.BannerFor | src/gateway/socketmanager.ts:142-145 | A banner URL exists exactly when the payload is truthy. |
| Gateway.BannerUrlOfId | src/gateway/socketmanager.ts:145 | For an id without `$`, the URL is the S3 banner prefix followed by the id. |
| Gateway.BannerUpdateRule | src/gateway/socketmanager.ts:141-162 | Publishes the id and URL. A cached profile gets that banner. |
| Gateway.PresenceRule | src/gateway/socketmanager.ts:164-173 | Publishes the id overlaid by the payload's own fields, and stores the payload under the id when there is a presence cache. |
| Gateway.ProfileUpdateRule | src/gateway/socketmanager.ts:175-219 | Publishes the decoded new profile with the previously cached payload. A cached entry gets only its user part replaced. Otherwise the new user is stored with `discord: null`. |
| Gateway.BadProfileUpdatePublishesNothing | src/gateway/socketmanager.ts:175-189 | A payload that cannot be read publishes nothing and throws. Only the cache read before decoding has happened. |
| Gateway.TotalViewingRule | src/gateway/socketmanager.ts:221-228 | Publishes the id with the payload as the count, and touches no cache. |
| Gateway.UnknownEventPassesThrough | src/gateway/socketmanager.ts:230-238 | Any other name is published as received, with id, name and payload, and touches no cache. |
| Gateway.DeliverRule | src/gateway/socketmanager.ts:84-86 | For any socket, stored or not, a parsed text frame reaches `_onMessage` once, under the socket's own `subscribedTo`. An `error` event is thrown for want of a listener. A close touches no cache and publishes nothing. |
| Gateway.RemovedSocketStillDelivers | src/gateway/socketmanager.ts:75-88 | After `unsubscribeAll`, a socket from the constructor is gone from the collection. Its first transport was never closed, and a message arriving there still updates the caches under its id. |
| Gateway.HeartbeatTick | src/gateway/socketmanager.ts:65-70 | A tick rejects with a TypeError exactly when a socket is stored. The manager is otherwise unchanged: the only difference is the stamp `get` puts on the first key. |
| Gateway.GetSocketPings | src/gateway/socketmanager.ts:90-102 | `null` exactly when no socket is stored. Otherwise every callback rejects and the promise never settles. |
| Gateway.PingAvg | src/gateway/socketmanager.ts:104-108 | `null` exactly when no socket is stored, and otherwise never settles. |
| Gateway.PingsFailOnceSubscribed | src/gateway/socketmanager.ts:65-108 | Once a socket is subscribed, every heartbeat tick rejects, and neither `getSocketPings` nor `pingAvg` settles. |

## Left out

- Timers, the `ws` transport and `fetch`: clock readings, transport events and HTTP responses are parameters. The sweep runs when it is called, not on an interval.
- `Collection.sweep`'s interval handling (`startInterval`'s reference/unreference, `shouldReset`): only the timer's state is tracked, never its firing.
- `Collection.forEach`, `keys`, `values` and `toString`: plain traversals with nothing to state beyond `array`.
- The heartbeat's timer: it is started and cleared as a handle, and each firing is `Gateway.HeartbeatTick` when it is called.
- The transport's acceptance of the address: `ws` expects a `ws:` or `wss:` URL. The model hands `api.discord.bio` to the transport parameter and does not decide whether the `Socket` constructor would throw on it.
- The webhook branch of PROFILE_UPDATE: `Socket` never stores `webHookOptions`, so the branch is dead code.
- `fetchTopUsers` and the reshaping of REST responses: the reshaping is part of the `fetch` parameter.
- Which sockets are reachable: `Gateway.Deliver` takes the socket object itself. This covers sockets that `unsubscribeAll` deleted or a later `subscribe` of the same id replaced. The model does not track which old transports the network still delivers on.
- The order of `Object.keys` over route parameters: parameters are a sequence, applied in the order given.
- Publication through `client.emit`: each published event is an output of the model, and `client.emit` is taken to return normally. `_clientEmit` (src/gateway/socketmanager.ts:55-60) calls `this.client.emit`, but the `Client` class (src/client.ts:19) defines no `emit`, so as written every publication would throw a TypeError. With an event-emitter client, a listener that throws would likewise abort the handler. In both cases the cache writes that follow publication would be skipped: the banner store at src/gateway/socketmanager.ts:152-158, the presence store at 170, and the profile store at 205-216.
- Object aliasing: the emitted `oldProfile` is a copy here, while in the library it is the same object the cache then mutates.
- Collections.Clone: the library's clone adopts the original's own `Map` (src/collection.ts:28, 54), so a later `set`, `delete` or `clear` on either shows in both. The model's clone is an independent copy with the same entries.
- Routes.ConstructPath: src/rest/routes.ts exports no `VERSION`, though src/rest/restclient.ts:5 and src/client.ts:5 import it, and src/client.ts imports from a `./routes` that is not part of this model. The version segment is therefore a parameter here. `BASE_URL` has no scheme and `PROTOCOL` is never used, so the path given to node-fetch's `Request` (src/rest/restclient.ts:97-98) is not an absolute URL. The model leaves `fetch` a parameter and does not decide whether node-fetch accepts such a path. Lemmas such as `Rest.MissStoredBelowLimit` and `Rest.SecondFetchHits` describe the responses that parameter returns.
- Number-to-text conversion of huge numbers: JavaScript writes numbers of 21 or more digits in exponent form. Error messages here always use plain digits, because numbers are integers.
- `BigInt` accepting surrounding whitespace, signs and `0x`/`0o`/`0b` forms, and `parseInt`'s fractional part: ids are digit strings, and numbers are integers or NaN.
- Unicode case mapping: `toLowerCase` and `toUpperCase` are ASCII-only, as every name they see is.
- Case-insensitive header names: headers are a map with the names the library uses.
- Date parsing and ISO rendering: the parser is a parameter, and the getters return the timestamp they would render.
- `client.presences`: the shown `Client` has no such field, so the presence cache is an optional parameter that is absent in practice.
- Async interleaving: each call runs to its first `await`, and the deletes `unsubscribeAll` queues run in order.
- Profiles.DecodeProfileUpdate: a field of the wrong type is reported as `Malformed`, where JavaScript would carry it along. Its contract states only when a payload can be read, not the decoded contents. Those are stated by the round-trip lemmas and `Gateway.ProfileUpdateRule`.
- Client.RequestAsWritten: its own contract states only the header update. Its outcomes are stated against the corrected `Client.Request` by `Client.RequestAgreesElsewhere` and `Client.ErrorWithoutMessageRejects`.
- Collections.Reduce: its own contract states only the empty case. The content of the fold is stated by `Collections.ReduceCollectsValues` for the appending reducer.

## Findings

| source | as written | input that shows it | evidently intended | confidence | as-written member | corrected member |
|---|---|---|---|---|---|---|
| src/structures/userdetails.ts:82-92 | the `premium`, `staff` and `verified` getters test `flags & (1 << FLAG)` although the constructor stores `flags \|= FLAG` | a verified, non-premium, non-staff user (`flags == 1`): `verified` tests bit `1 << 1 == 2` and reads `false` | each getter tests its own flag, `flags & FLAG` | high, not executed | UserDetails.VerifiedUserReadsUnverified | UserDetails.FlagsRoundTrip |
| src/client.ts:114 | on an error status, `json.message \|\| await response.text()` reads the body a second time after `response.json()` consumed it | status 404 with body `{}`: `text()` rejects because the body was already used, so no `DiscordBioError` is thrown | fall back to the body already read | medium, not executed | Client.ErrorWithoutMessageRejects | Client.RequestAgreesElsewhere |

=== FILE: client.dfy ===
/**
 * The older client of src/client.ts: how its constructor configures the
 * profile cache, and its `request`, which rejects a body that is not JSON
 * before looking at the status. Its `constructPath`, `fetchUserDetails` and
 * `updateRatelimitHeaders` are the same as the REST client's and are
 * modelled once, in `Routes` and `Rest`.
 */
module Client {
  import opened Wrappers
  import opened Values
  import opened Errors
  import opened Collections
  import Rest

  /** `cache.userProfiles`: a boolean, `null`, a collection options object, or missing. */
  datatype ProfilesOption<V> = ProfilesBool(b: bool) | ProfilesNull | ProfilesOptions(o: CollectionOptions<string, V>) | ProfilesAbsent

  /** `options.cache`: missing, a boolean, or an object. */
  datatype CacheOption<V> = CacheAbsent | CacheBool(b: bool) | CacheObject(userProfiles: ProfilesOption<V>)

  /** Seeding values come from a `Map`, so their keys are distinct. */
  predicate MapOptions<V(!new)>(option: CacheOption<V>) {
    option.CacheObject? && option.userProfiles.ProfilesOptions? && option.userProfiles.o.values.Some? ==>
      NoDup(Keys(option.userProfiles.o.values.value))
  }

  function DefaultProfileOptions<V>(): CollectionOptions<string, V> {
    CollectionOptions(None, None, None, None)
  }

  /**
   * The constructor's `userProfiles`: `null` for `cache: false`; otherwise a
   * collection, built from `cache.userProfiles` only when that is an object.
   * `typeof null` is "object" too, and a collection built from `null` throws.
   */
  function ProfileCache<V(!new)>(option: CacheOption<V>): (r: Result<Option<Collection<string, V>>, TypeError>)
    requires MapOptions(option)
    ensures option == CacheBool(false) <==> r == Ok(None)
    ensures r.Err? <==> option == CacheObject(ProfilesNull)
    ensures option.CacheObject? && option.userProfiles.ProfilesOptions? ==> r == Ok(Some(New(option.userProfiles.o)))
    ensures r.Ok? && r.value.Some? && !(option.CacheObject? && option.userProfiles.ProfilesOptions?) ==>
      r.value.value == New(DefaultProfileOptions())
  {
    match option
    case CacheBool(false) => Ok(None)
    case CacheObject(ProfilesOptions(o)) => Ok(Some(New(o)))
    case CacheObject(ProfilesNull) => Err(TypeError)
    case _ => Ok(Some(New(DefaultProfileOptions())))
  }

  /** `{userProfiles: false}` still gives a cache, with the default configuration. */
  lemma ProfilesFalseStillCaches<V(!new)>(option: CacheOption<V>)
    requires option == CacheObject(ProfilesBool(false))
    ensures var r := ProfileCache(option);
      r.Ok? && r.value.Some? && r.value.value.expire == Infinite && r.value.value.limit == Infinite && Size(r.value.value) == 0
  {
  }

  // ---------------------------------------------------------------------
  // `request`

  /** What `request` can throw; `BodyUsed` is the rejection of reading a body a second time. */
  datatype ClientFailure = Api(error: ApiError) | Type(TypeError) | BodyUsed

  const InvalidJsonMessage: string := "Invalid JSON returned from request - API down?"

  /** `json.message`, which throws on a `null` body, when it is truthy. */
  function TruthyMessage(json: Value): Result<Option<Value>, TypeError> {
    var message :- Member(json, "message");
    Ok(if Truthy(message) then Some(message) else None)
  }

  /** Build the error for a non-200 status: `DiscordBioError`, or `RatelimitError` for 429. */
  function StatusError(text: Value, request: HttpRequest, response: HttpResponse): ApiError {
    if response.status == RatelimitStatusCode then NewRatelimitError(text, request, response).value
    else NewDiscordBioError(text, request, response)
  }

  /**
   * `request(path)` as written: after `response.json()` has consumed the body,
   * a falsy `message` falls back to `await response.text()`, which rejects
   * because the body has already been read.
   */
  function RequestAsWritten(stored: Rest.RatelimitHeaders, path: string, response: HttpResponse,
                            parseJson: string -> Option<Value>): (r: (Rest.RatelimitHeaders, Result<Value, ClientFailure>))
    ensures r.0 == Rest.Refreshed(stored, response)
  {
    var request := HttpRequest(path);
    var result :=
      match parseJson(response.body)
      case None => Err(Api(NewDiscordBioError(Str(InvalidJsonMessage), request, response)))
      case Some(json) =>
        if response.status == SuccessStatusCode then Ok(json)
        else
          match TruthyMessage(json)
          case Err(e) => Err(Type(e))
          case Ok(None) => Err(BodyUsed)
          case Ok(Some(message)) => Err(Api(StatusError(message, request, response)));
    (Rest.Refreshed(stored, response), result)
  }

  /** An error response whose JSON body has no truthy `message` never yields the API error. */
  lemma ErrorWithoutMessageRejects(stored: Rest.RatelimitHeaders, path: string, response: HttpResponse,
                                   parseJson: string -> Option<Value>)
    requires response.status != SuccessStatusCode
    requires parseJson(response.body) == Some(Obj(map[]))
    ensures RequestAsWritten(stored, path, response, parseJson).1 == Err(BodyUsed)
  {
  }

  /**
   * `request(path)` as evidently intended: a body that is not JSON throws
   * `DiscordBioError` before the status is examined; status 200 returns the
   * parsed body; any other status throws with the body's truthy `message`,
   * or else with the body text that was already read.
   */
  function Request(stored: Rest.RatelimitHeaders, path: string, response: HttpResponse,
                   parseJson: string -> Option<Value>): (r: (Rest.RatelimitHeaders, Result<Value, ClientFailure>))
    ensures r.0 == Rest.Refreshed(stored, response)
    ensures parseJson(response.body).None? ==>
      r.1 == Err(Api(ApiError(General, InvalidJsonMessage, HttpRequest(path), response)))
    ensures parseJson(response.body).Some? && response.status == SuccessStatusCode ==>
      r.1 == Ok(parseJson(response.body).value)
    ensures parseJson(response.body).Some? && response.status != SuccessStatusCode ==>
      var json := parseJson(response.body).value;
      if json == Null || json == Undefined then r.1 == Err(Type(TypeError))
      else r.1.Err? && r.1.error.Api? && StatusCode(r.1.error.error) == response.status &&
           (r.1.error.error.kind == Ratelimit <==> response.status == RatelimitStatusCode) &&
           r.1.error.error.message == ErrorMessage(if TruthyMessage(json).value.Some? then TruthyMessage(json).value.value else Str(response.body))
  {
    var request := HttpRequest(path);
    var result :=
      match parseJson(response.body)
      case None => Err(Api(NewDiscordBioError(Str(InvalidJsonMessage), request, response)))
      case Some(json) =>
        if response.status == SuccessStatusCode then Ok(json)
        else
          match TruthyMessage(json)
          case Err(e) => Err(Type(e))
          case Ok(None) => Err(Api(StatusError(Str(response.body), request, response)))
          case Ok(Some(message)) => Err(Api(StatusError(message, request, response)));
    (Rest.Refreshed(stored, response), result)
  }

  /** The two agree except where the as-written one rejects with `BodyUsed`. */
  lemma RequestAgreesElsewhere(stored: Rest.RatelimitHeaders, path: string, response: HttpResponse,
                               parseJson: string -> Option<Value>)
    ensures var w := RequestAsWritten(stored, path, response, parseJson);
      w.1 != Err(BodyUsed) ==> w == Request(stored, path, response, parseJson)
    ensures RequestAsWritten(stored, path, response, parseJson).1 == Err(BodyUsed) <==>
      parseJson(response.body).Some? && response.status != SuccessStatusCode &&
      TruthyMessage(parseJson(response.body).value) == Ok(None)
  {
  }
}

=== FILE: collections.dfy ===
/**
 * The expiring, bounded key-value cache `Collection` (src/collection.ts).
 *
 * A collection is an immutable value: the insertion order of its keys, the
 * key-to-value map, the last-used timestamps, its configuration, and the
 * state of its sweep timer. Operations take the clock reading `now`
 * explicitly and return the new collection; an operation that throws in the
 * library returns the state reached before the throw together with the error.
 */
module Collections {
  import opened Wrappers

  /** A configured bound: a finite number, or `Infinity`. */
  datatype Bound = Infinite | Finite(n: int)

  /**
   * The sweep timer: never created, created and referenced, or created and
   * unreferenced (paused by `stopInterval`).
   */
  datatype Timer = NotCreated | Referenced | Unreferenced

  datatype IntervalOptions = IntervalOptions(interval: Option<int>, shouldReset: Option<bool>)

  /** The constructor's options; `values` lists the entries of the seeding `Map` in its order. */
  datatype CollectionOptions<K, V> = CollectionOptions(
    interval: Option<IntervalOptions>,
    expire: Option<int>,
    limit: Option<int>,
    values: Option<seq<(K, V)>>)

  const DefaultInterval: int := 5000

  const NoOptions: CollectionOptions<int, int> := CollectionOptions(None, None, None, None)

  datatype Collection<K(==,!new), V(!new)> = Collection(
    order: seq<K>,
    cache: map<K, V>,
    lastUsed: map<K, int>,
    interval: int,
    shouldReset: bool,
    expire: Bound,
    limit: Bound,
    timer: Timer)

  /** What `delete` can throw: `stopInterval` dereferences a timer that was never created. */
  datatype CollectionError = TimerNotCreated | NoEntryToEvict

  /** The state after a call, with either the call's result or the error it threw. */
  datatype Step<K(==,!new), V(!new), T> = Step(c: Collection<K, V>, out: Result<T, CollectionError>)

  predicate NoDup<K(==,!new)>(s: seq<K>) {
    forall i, j :: 0 <= i < j < |s| ==> s[i] != s[j]
  }

  /** The insertion order lists every stored key exactly once. */
  predicate Valid<K(==,!new), V(!new)>(c: Collection<K, V>) {
    NoDup(c.order) && (forall k | k in c.cache :: k in c.order) && (forall k | k in c.order :: k in c.cache)
  }

  /** Two states of one collection: the configuration never changes after construction. */
  predicate SameConfig<K(!new), V(!new)>(c: Collection<K, V>, d: Collection<K, V>) {
    c.interval == d.interval && c.shouldReset == d.shouldReset && c.expire == d.expire && c.limit == d.limit
  }

  /** `s` with every element of `gone` removed, the rest kept in order. */
  function Drop<K(==,!new)>(s: seq<K>, gone: set<K>): (r: seq<K>)
    ensures forall x :: x in r <==> x in s && x !in gone
    ensures |r| <= |s|
  {
    if |s| == 0 then []
    else (if s[0] in gone then [] else [s[0]]) + Drop(s[1..], gone)
  }

  lemma {:induction false} DropNoDup<K(!new)>(s: seq<K>, gone: set<K>)
    requires NoDup(s)
    ensures NoDup(Drop(s, gone))
    decreases |s|
  {
    if |s| > 0 {
      DropNoDup(s[1..], gone);
      assert s[0] !in s[1..];
    }
  }

  /** Dropping keys that do not occur changes nothing. */
  lemma {:induction false} DropAbsent<K(!new)>(s: seq<K>, gone: set<K>)
    requires forall x :: x in s ==> x !in gone
    ensures Drop(s, gone) == s
    decreases |s|
  {
    if |s| > 0 {
      DropAbsent(s[1..], gone);
      assert s == [s[0]] + s[1..];
    }
  }

  /** The tail of a duplicate-free sequence is duplicate-free and lacks the head. */
  lemma NoDupTail<K(!new)>(s: seq<K>)
    requires NoDup(s) && |s| > 0
    ensures NoDup(s[1..]) && s[0] !in s[1..]
  {
    var t := s[1..];
    forall a, b | 0 <= a < b < |t| ensures t[a] != t[b] {
      assert t[a] == s[a + 1] && t[b] == s[b + 1];
    }
    forall j | 0 <= j < |t| ensures t[j] != s[0] {
      assert t[j] == s[j + 1];
    }
  }

  /** Dropping the key at position `i` of a duplicate-free sequence splices it out. */
  lemma {:induction false} DropAt<K(!new)>(s: seq<K>, i: nat)
    requires NoDup(s) && i < |s|
    ensures Drop(s, {s[i]}) == s[..i] + s[i + 1..]
    decreases |s|
  {
    NoDupTail(s);
    if i == 0 {
      DropAtHead(s);
    } else {
      DropAt(s[1..], i - 1);
      DropAtLater(s, i);
    }
  }

  /** The first case of `DropAt`: the head goes and the tail stays. */
  lemma DropAtHead<K(!new)>(s: seq<K>)
    requires |s| > 0 && s[0] !in s[1..]
    ensures Drop(s, {s[0]}) == s[..0] + s[1..]
  {
    var t := s[1..];
    assert forall x :: x in t ==> x !in {s[0]};
    DropAbsent(t, {s[0]});
    assert Drop(s, {s[0]}) == [] + Drop(t, {s[0]});
  }

  /** The step of `DropAt`: a later key is spliced out of the tail, behind the kept head. */
  lemma DropAtLater<K(!new)>(s: seq<K>, i: nat)
    requires 0 < i < |s| && s[0] != s[i]
    requires Drop(s[1..], {s[1..][i - 1]}) == s[1..][..i - 1] + s[1..][i..]
    ensures Drop(s, {s[i]}) == s[..i] + s[i + 1..]
  {
    var t := s[1..];
    assert t[i - 1] == s[i];
    assert Drop(s, {s[i]}) == [s[0]] + Drop(t, {s[i]});
    SpliceCons(s, i);
  }

  /** Splicing out a later position keeps the head in front. */
  lemma SpliceCons<K>(s: seq<K>, i: nat)
    requires 0 < i < |s|
    ensures s[..i] + s[i + 1..] == [s[0]] + (s[1..][..i - 1] + s[1..][i..])
  {
    var t := s[1..];
    assert s[..i] == [s[0]] + t[..i - 1];
    assert s[i + 1..] == t[i..];
  }

  /** Removing one key from a duplicate-free sequence. */
  lemma DropKey<K(!new)>(s: seq<K>, k: K)
    requires NoDup(s)
    ensures NoDup(Drop(s, {k}))
    ensures k !in s ==> Drop(s, {k}) == s
    ensures forall i :: 0 <= i < |s| && s[i] == k ==> Drop(s, {k}) == s[..i] + s[i + 1..]
  {
    DropNoDup(s, {k});
    if k !in s {
      DropAbsent(s, {k});
    }
    forall i | 0 <= i < |s| && s[i] == k ensures Drop(s, {k}) == s[..i] + s[i + 1..] {
      DropAt(s, i);
    }
  }

  lemma {:induction false} DropTwice<K(!new)>(s: seq<K>, a: set<K>, b: set<K>)
    ensures Drop(Drop(s, a), b) == Drop(s, a + b)
    decreases |s|
  {
    if |s| > 0 {
      DropTwice(s[1..], a, b);
      var head := if s[0] in a then [] else [s[0]];
      assert Drop(s, a) == head + Drop(s[1..], a);
      DropAppend(head, Drop(s[1..], a), b);
    }
  }

  lemma {:induction false} DropAppend<K(!new)>(s: seq<K>, t: seq<K>, gone: set<K>)
    ensures Drop(s + t, gone) == Drop(s, gone) + Drop(t, gone)
    decreases |s|
  {
    if |s| == 0 {
      assert s + t == t;
    } else {
      assert (s + t)[1..] == s[1..] + t;
      DropAppend(s[1..], t, gone);
    }
  }

  // ---------------------------------------------------------------------
  // Construction

  function ResolveInterval(o: Option<IntervalOptions>): int {
    match o
    case Some(IntervalOptions(Some(i), _)) => if i != 0 then i else DefaultInterval
    case _ => DefaultInterval
  }

  /** `|| Infinity`: a missing or zero option means unbounded. */
  function ResolveBound(o: Option<int>): Bound {
    match o
    case Some(n) => if n != 0 then Finite(n) else Infinite
    case None => Infinite
  }

  function Min(a: int, b: int): int {
    if a <= b then a else b
  }

  function Keys<K(==,!new), V(!new)>(entries: seq<(K, V)>): (ks: seq<K>)
    ensures |ks| == |entries| && forall i :: 0 <= i < |ks| ==> ks[i] == entries[i].0
  {
    seq(|entries|, i requires 0 <= i < |entries| => entries[i].0)
  }

  function ToMap<K(==,!new), V(!new)>(entries: seq<(K, V)>): (m: map<K, V>)
    requires NoDup(Keys(entries))
    ensures forall k :: k in m <==> exists i :: 0 <= i < |entries| && entries[i].0 == k
    ensures forall i :: 0 <= i < |entries| ==> entries[i].0 in m && m[entries[i].0] == entries[i].1
  {
    map i | 0 <= i < |entries| :: entries[i].0 := entries[i].1
  }

  /** `new Collection(options)`. */
  function New<K(==,!new), V(!new)>(o: CollectionOptions<K, V>): (c: Collection<K, V>)
    requires o.values.Some? ==> NoDup(Keys(o.values.value))
    ensures Valid(c)
    ensures c.interval == (if o.interval.Some? && o.interval.value.interval.Some? && o.interval.value.interval.value != 0
                           then o.interval.value.interval.value else 5000)
    ensures c.shouldReset <==> o.interval.Some? && o.interval.value.shouldReset == Some(true)
    ensures o.expire.None? || o.expire == Some(0) ==> c.expire == Infinite
    ensures o.expire.Some? && o.expire.value != 0 ==>
      c.expire == Finite(if o.expire.value <= c.interval then o.expire.value else c.interval)
    ensures o.limit.None? || o.limit == Some(0) <==> c.limit == Infinite
    ensures c.limit.Finite? ==> c.limit.n != 0 && o.limit == Some(c.limit.n)
    ensures o.values.None? ==> c.order == [] && c.cache == map[]
    ensures o.values.Some? ==> c.order == Keys(o.values.value) && c.cache == ToMap(o.values.value)
    ensures c.lastUsed == map[]
    ensures c.timer == (if |c.order| > 0 && c.expire.Finite? then Referenced else NotCreated)
  {
    var interval := ResolveInterval(o.interval);
    var shouldReset := o.interval.Some? && o.interval.value.shouldReset.GetOr(false);
    var expire := match o.expire
      case Some(e) => if e != 0 then Finite(Min(e, interval)) else Infinite
      case None => Infinite;
    var entries := o.values.GetOr([]);
    var c := Collection(Keys(entries), ToMap(entries), map[], interval, shouldReset,
                        expire, ResolveBound(o.limit), NotCreated);
    if ShouldStartInterval(c) then c.(timer := Referenced) else c
  }

  function Size<K(==,!new), V(!new)>(c: Collection<K, V>): nat {
    |c.order|
  }

  /**
   * `shouldStartInterval`. Its middle conjunct reads the `hasRef` method
   * without calling it, which is always truthy, so only the size and the
   * expiry decide.
   */
  predicate ShouldStartInterval<K(==,!new), V(!new)>(c: Collection<K, V>) {
    |c.order| > 0 && c.expire.Finite?
  }

  /** `startInterval`: create the timer, or re-reference the existing one. */
  function StartInterval<K(==,!new), V(!new)>(c: Collection<K, V>): Collection<K, V> {
    c.(timer := Referenced)
  }

  // ---------------------------------------------------------------------
  // Queries and updates

  function Has<K(==,!new), V(!new)>(c: Collection<K, V>, k: K): (r: bool)
    requires Valid(c)
    ensures r <==> k in c.order
  {
    k in c.cache
  }

  function Lookup<K(==,!new), V(!new)>(c: Collection<K, V>, k: K): Option<V> {
    if k in c.cache then Some(c.cache[k]) else None
  }

  /** `get`: read a value and record `now` as the key's last use, present or not. */
  function Get<K(==,!new), V(!new)>(c: Collection<K, V>, k: K, now: int): (r: (Collection<K, V>, Option<V>))
    ensures r.1.Some? <==> k in c.cache
    ensures r.1.Some? ==> r.1.value == c.cache[k]
    ensures r.0.order == c.order && r.0.cache == c.cache && r.0.timer == c.timer && SameConfig(r.0, c)
    ensures r.0.lastUsed.Keys == c.lastUsed.Keys + {k} && r.0.lastUsed[k] == now
    ensures forall j :: j in c.lastUsed && j != k ==> r.0.lastUsed[j] == c.lastUsed[j]
    ensures Valid(c) ==> Valid(r.0)
  {
    (c.(lastUsed := c.lastUsed[k := now]), Lookup(c, k))
  }

  /** `delete`: remove a key from both maps; emptying the collection stops the timer. */
  function Delete<K(==,!new), V(!new)>(c: Collection<K, V>, k: K): (r: Step<K, V, bool>)
    requires Valid(c)
    ensures Valid(r.c)
    ensures r.c.cache == c.cache - {k} && r.c.lastUsed == c.lastUsed - {k}
    ensures r.c.order == Drop(c.order, {k})
    ensures forall i :: 0 <= i < |c.order| && c.order[i] == k ==> r.c.order == c.order[..i] + c.order[i + 1..]
    ensures k !in c.cache ==> r.c.order == c.order
    ensures r.out.Err? <==> |r.c.order| == 0 && c.timer == NotCreated
    ensures r.out.Ok? ==> r.out.value == (k in c.cache)
    ensures r.c.timer == (if |r.c.order| == 0 then Unreferenced else c.timer) || r.out.Err?
    ensures r.out.Err? ==> r.c.timer == NotCreated
    ensures SameConfig(r.c, c)
  {
    var order := Drop(c.order, {k});
    DropKey(c.order, k);
    var d := c.(order := order, cache := c.cache - {k}, lastUsed := c.lastUsed - {k});
    if |order| == 0 then
      if c.timer == NotCreated then Step(d, Err(TimerNotCreated))
      else Step(d.(timer := Unreferenced), Ok(k in c.cache))
    else Step(d, Ok(k in c.cache))
  }

  /** `clear`: empty both maps; the timer is left as it is. */
  function Clear<K(==,!new), V(!new)>(c: Collection<K, V>): (r: Collection<K, V>)
    ensures Valid(r) && Size(r) == 0 && r.lastUsed == map[]
    ensures r.timer == c.timer && SameConfig(r, c)
  {
    c.(order := [], cache := map[], lastUsed := map[])
  }

  /** `set` is about to evict: the size equals the limit. */
  predicate AtLimit<K(==,!new), V(!new)>(c: Collection<K, V>) {
    c.limit == Finite(|c.order|)
  }

  /** The store part of `set`, after any eviction: write the value, stamp the key, start the timer. */
  function Put<K(==,!new), V(!new)>(c: Collection<K, V>, k: K, v: V, now: int): (r: Collection<K, V>)
    requires Valid(c)
    ensures Valid(r)
    ensures r.order == (if k in c.cache then c.order else c.order + [k])
    ensures r.cache == c.cache[k := v] && r.lastUsed == c.lastUsed[k := now]
    ensures r.timer == (if c.expire.Finite? then Referenced else c.timer)
    ensures SameConfig(r, c)
  {
    var d := c.(order := if k in c.cache then c.order else c.order + [k],
                cache := c.cache[k := v], lastUsed := c.lastUsed[k := now]);
    if ShouldStartInterval(d) then StartInterval(d) else d
  }

  /**
   * `set`: when the size equals the limit the first key in insertion order is
   * deleted first, even if `k` is already present; then the value is stored
   * and `now` recorded as the key's last use.
   */
  function Set<K(==,!new), V(!new)>(c: Collection<K, V>, k: K, v: V, now: int): (r: Step<K, V, ()>)
    requires Valid(c)
    ensures Valid(r.c)
    ensures !AtLimit(c) ==> r.out.Ok? && r == Step(Put(c, k, v, now), Ok(()))
    ensures AtLimit(c) && |c.order| > 0 ==>
      var evicted := Delete(c, c.order[0]);
      && (r.out.Err? <==> evicted.out.Err?)
      && (r.out.Err? ==> r.c == evicted.c)
      && (r.out.Ok? ==> r.c == Put(evicted.c, k, v, now))
    ensures r.out.Ok? ==> k in r.c.cache && r.c.cache[k] == v && k in r.c.lastUsed && r.c.lastUsed[k] == now
    ensures SameConfig(r.c, c)
  {
    if AtLimit(c) then
      if |c.order| == 0 then Step(c, Err(NoEntryToEvict))
      else
        var evicted := Delete(c, c.order[0]);
        if evicted.out.Err? then Step(evicted.c, Err(evicted.out.error))
        else Step(Put(evicted.c, k, v, now), Ok(()))
    else Step(Put(c, k, v, now), Ok(()))
  }

  /**
   * The effect of mutating, through the reference `get` returned, the object
   * stored under a present key: only the value changes.
   */
  function Replace<K(==,!new), V(!new)>(c: Collection<K, V>, k: K, v: V): (r: Collection<K, V>)
    requires Valid(c) && k in c.cache
    ensures Valid(r) && r.order == c.order && r.cache.Keys == c.cache.Keys && r.cache[k] == v
    ensures forall j :: j in c.cache && j != k ==> r.cache[j] == c.cache[j]
    ensures r.lastUsed == c.lastUsed && r.timer == c.timer && SameConfig(r, c)
  {
    c.(cache := c.cache[k := v])
  }

  // ---------------------------------------------------------------------
  // A cache that may be switched off (`null`), read and written with `?.`

  predicate ValidCache<V(!new)>(cache: Option<Collection<string, V>>) {
    cache.None? || Valid(cache.value)
  }

  /** `cache?.get(k)`: nothing happens, and nothing is found, when there is no cache. */
  function GetIn<V(!new)>(cache: Option<Collection<string, V>>, k: string, now: int): (r: (Option<Collection<string, V>>, Option<V>))
    requires ValidCache(cache)
    ensures ValidCache(r.0) && (r.0.None? <==> cache.None?)
    ensures r.1.Some? <==> cache.Some? && k in cache.value.cache
    ensures r.1.Some? ==> r.1.value == cache.value.cache[k]
    ensures cache.Some? ==> r.0.value.order == cache.value.order && r.0.value.cache == cache.value.cache
    ensures cache.Some? ==> SameConfig(r.0.value, cache.value) && r.0.value.timer == cache.value.timer
  {
    match cache
    case None => (None, None)
    case Some(c) => var g := Get(c, k, now); (Some(g.0), g.1)
  }

  /** `cache?.set(k, v)`, with the error it throws, if any. */
  function SetIn<V(!new)>(cache: Option<Collection<string, V>>, k: string, v: V, now: int): (r: (Option<Collection<string, V>>, Option<CollectionError>))
    requires ValidCache(cache)
    ensures ValidCache(r.0) && (r.0.None? <==> cache.None?)
    ensures cache.None? ==> r.1.None?
    ensures cache.Some? ==> var s := Set(cache.value, k, v, now);
      r.0 == Some(s.c) && (r.1.Some? <==> s.out.Err?) && (r.1.Some? ==> r.1.value == s.out.error)
  {
    match cache
    case None => (None, None)
    case Some(c) =>
      var s := Set(c, k, v, now);
      (Some(s.c), if s.out.Err? then Some(s.out.error) else None)
  }

  // ---------------------------------------------------------------------
  // The sweep run by the timer

  /** The sweep's test: a non-zero last use more than `expire` before `now`. */
  predicate Expired<K(==,!new), V(!new)>(c: Collection<K, V>, k: K, now: int) {
    k in c.lastUsed && c.lastUsed[k] != 0 && c.expire.Finite? && c.expire.n < now - c.lastUsed[k]
  }

  function ExpiredAmong<K(==,!new), V(!new)>(c: Collection<K, V>, keys: seq<K>, now: int): set<K> {
    set k | k in keys && Expired(c, k, now)
  }

  /** Which of `keys` are expired depends only on their own timestamps. */
  lemma ExpiredAmongFrame<K(!new), V(!new)>(c: Collection<K, V>, d: Collection<K, V>, keys: seq<K>, now: int)
    requires c.expire == d.expire
    requires forall k :: k in keys ==> (k in c.lastUsed <==> k in d.lastUsed)
    requires forall k :: k in keys && k in c.lastUsed ==> c.lastUsed[k] == d.lastUsed[k]
    ensures ExpiredAmong(c, keys, now) == ExpiredAmong(d, keys, now)
  {
  }

  lemma ExpiredAmongCons<K(!new), V(!new)>(c: Collection<K, V>, keys: seq<K>, now: int)
    requires |keys| > 0
    ensures ExpiredAmong(c, keys, now) ==
      (if Expired(c, keys[0], now) then {keys[0]} else {}) + ExpiredAmong(c, keys[1..], now)
  {
    assert forall k :: k in keys <==> k == keys[0] || k in keys[1..];
  }

  /** The sweep loop over the keys still to visit, deleting each expired one. */
  function SweepFrom<K(==,!new), V(!new)>(c: Collection<K, V>, keys: seq<K>, now: int): (r: Collection<K, V>)
    requires Valid(c) && c.timer != NotCreated
    requires NoDup(keys) && forall k :: k in keys ==> k in c.cache
    ensures Valid(r) && r.timer != NotCreated
    ensures SameConfig(r, c)
    decreases |keys|
  {
    if |keys| == 0 then c
    else
      assert keys[0] !in keys[1..];
      if Expired(c, keys[0], now) then SweepFrom(Delete(c, keys[0]).c, keys[1..], now)
      else SweepFrom(c, keys[1..], now)
  }

  /** Deleting `k` and then the keys in `g` is deleting `{k} + g`. */
  lemma SweepStep<K(!new), V(!new)>(c: Collection<K, V>, d: Collection<K, V>, r: Collection<K, V>, k: K, g: set<K>)
    requires d.order == Drop(c.order, {k}) && d.cache == c.cache - {k} && d.lastUsed == c.lastUsed - {k}
    requires d.timer == (if |d.order| == 0 then Unreferenced else c.timer)
    requires r.order == Drop(d.order, g) && r.cache == d.cache - g && r.lastUsed == d.lastUsed - g
    requires r.timer == (if g != {} && |r.order| == 0 then Unreferenced else d.timer)
    ensures r.order == Drop(c.order, {k} + g)
    ensures r.cache == c.cache - ({k} + g) && r.lastUsed == c.lastUsed - ({k} + g)
    ensures r.timer == (if |r.order| == 0 then Unreferenced else c.timer)
  {
    DropTwice(c.order, {k}, g);
    MinusTwice(c.cache, {k}, g);
    MinusTwice(c.lastUsed, {k}, g);
    if g == {} {
      DropAbsent(d.order, g);
    }
  }

  lemma MinusTwice<K(!new), T>(m: map<K, T>, a: set<K>, b: set<K>)
    ensures (m - a) - b == m - (a + b)
  {
  }

  /** When the first key visited is expired, deleting it and then sweeping the rest deletes the expired keys of all. */
  lemma SweepExpiredFirst<K(!new), V(!new)>(c: Collection<K, V>, d: Collection<K, V>, r: Collection<K, V>, keys: seq<K>, now: int)
    requires Valid(c) && c.timer != NotCreated && NoDup(keys) && |keys| > 0 && keys[0] in c.cache
    requires Expired(c, keys[0], now)
    requires d == Delete(c, keys[0]).c
    requires var g := ExpiredAmong(d, keys[1..], now);
      && r.order == Drop(d.order, g) && r.cache == d.cache - g && r.lastUsed == d.lastUsed - g
      && r.timer == (if g != {} && |r.order| == 0 then Unreferenced else d.timer)
    ensures var gone := ExpiredAmong(c, keys, now);
      && r.order == Drop(c.order, gone)
      && r.cache == c.cache - gone
      && r.lastUsed == c.lastUsed - gone
      && r.timer == (if gone != {} && |r.order| == 0 then Unreferenced else c.timer)
  {
    var k := keys[0];
    var rest := keys[1..];
    assert k !in rest;
    ExpiredAmongFrame(c, d, rest, now);
    ExpiredAmongCons(c, keys, now);
    SweepStep(c, d, r, k, ExpiredAmong(c, rest, now));
  }

  /** A first key that is not expired adds nothing to the keys the sweep deletes. */
  lemma SweepKeptFirst<K(!new), V(!new)>(c: Collection<K, V>, keys: seq<K>, now: int)
    requires |keys| > 0 && !Expired(c, keys[0], now)
    ensures ExpiredAmong(c, keys, now) == ExpiredAmong(c, keys[1..], now)
  {
    ExpiredAmongCons(c, keys, now);
  }

  /** The sweep loop deletes exactly the expired keys among those it visits. */
  lemma {:induction false} SweepFromDeletesExpired<K(!new), V(!new)>(c: Collection<K, V>, keys: seq<K>, now: int)
    requires Valid(c) && c.timer != NotCreated
    requires NoDup(keys) && forall k :: k in keys ==> k in c.cache
    ensures var r := SweepFrom(c, keys, now);
      var gone := ExpiredAmong(c, keys, now);
      && r.order == Drop(c.order, gone)
      && r.cache == c.cache - gone
      && r.lastUsed == c.lastUsed - gone
      && r.timer == (if gone != {} && |r.order| == 0 then Unreferenced else c.timer)
    decreases |keys|, 1
  {
    if |keys| == 0 {
      assert ExpiredAmong(c, keys, now) == {};
      DropAbsent(c.order, {});
      assert c.cache - {} == c.cache && c.lastUsed - {} == c.lastUsed;
    } else {
      var k := keys[0];
      var rest := keys[1..];
      assert k !in rest;
      if Expired(c, k, now) {
        SweepFromExpiredFirst(c, keys, now);
      } else {
        assert SweepFrom(c, keys, now) == SweepFrom(c, rest, now);
        SweepFromDeletesExpired(c, rest, now);
        SweepKeptFirst(c, keys, now);
      }
    }
  }

  /** The inductive step of `SweepFromDeletesExpired` when the first key visited is expired. */
  lemma {:induction false} SweepFromExpiredFirst<K(!new), V(!new)>(c: Collection<K, V>, keys: seq<K>, now: int)
    requires Valid(c) && c.timer != NotCreated
    requires NoDup(keys) && forall k :: k in keys ==> k in c.cache
    requires |keys| > 0 && Expired(c, keys[0], now)
    ensures var r := SweepFrom(c, keys, now);
      var gone := ExpiredAmong(c, keys, now);
      && r.order == Drop(c.order, gone)
      && r.cache == c.cache - gone
      && r.lastUsed == c.lastUsed - gone
      && r.timer == (if gone != {} && |r.order| == 0 then Unreferenced else c.timer)
    decreases |keys|, 0
  {
    var k := keys[0];
    var rest := keys[1..];
    assert k !in rest;
    var d := Delete(c, k).c;
    assert SweepFrom(c, keys, now) == SweepFrom(d, rest, now);
    SweepFromDeletesExpired(d, rest, now);
    SweepExpiredFirst(c, d, SweepFrom(d, rest, now), keys, now);
  }

  lemma ExpiredAmongOrder<K(!new), V(!new)>(c: Collection<K, V>, now: int)
    requires Valid(c)
    ensures forall k :: k in ExpiredAmong(c, c.order, now) <==> k in c.cache && Expired(c, k, now)
  {
  }

  lemma NothingExpiresWhenInfinite<K(!new), V(!new)>(c: Collection<K, V>, now: int)
    ensures c.expire == Infinite ==> ExpiredAmong(c, c.order, now) == {} && Drop(c.order, {}) == c.order
    ensures c.cache - {} == c.cache && c.lastUsed - {} == c.lastUsed
  {
    DropAbsent(c.order, {});
  }

  /** What one full sweep leaves behind. */
  lemma SweepKeepsFresh<K(!new), V(!new)>(c: Collection<K, V>, now: int)
    requires Valid(c) && c.timer != NotCreated
    ensures var r := SweepFrom(c, c.order, now);
      && (forall k :: k in r.cache <==> k in c.cache && !Expired(c, k, now))
      && (forall k :: k in r.cache ==> r.cache[k] == c.cache[k])
      && r.order == Drop(c.order, ExpiredAmong(c, c.order, now))
      && (c.expire == Infinite ==> r == c)
  {
    ExpiredAmongOrder(c, now);
    SweepFromDeletesExpired(c, c.order, now);
    NothingExpiresWhenInfinite(c, now);
  }

  /**
   * The timer's callback: delete exactly the entries whose last use is set,
   * non-zero and older than `expire`, keeping the rest in order. It runs
   * only once the timer has been created.
   */
  function Sweep<K(==,!new), V(!new)>(c: Collection<K, V>, now: int): (r: Collection<K, V>)
    requires Valid(c) && c.timer != NotCreated
    ensures Valid(r) && r.timer != NotCreated
    ensures forall k :: k in r.cache <==> k in c.cache && !Expired(c, k, now)
    ensures forall k :: k in r.cache ==> r.cache[k] == c.cache[k]
    ensures r.order == Drop(c.order, ExpiredAmong(c, c.order, now))
    ensures c.expire == Infinite ==> r == c
  {
    SweepKeepsFresh(c, now);
    SweepFrom(c, c.order, now)
  }

  /** Entries never stamped by `get` or `set`, such as seeded ones, survive every sweep. */
  lemma UnstampedSurvive<K(!new), V(!new)>(c: Collection<K, V>, now: int, k: K)
    requires Valid(c) && c.timer != NotCreated && k in c.cache && k !in c.lastUsed
    ensures k in Sweep(c, now).cache
  {
  }

  // ---------------------------------------------------------------------
  // Properties of the updates

  /** A `set` that keeps the size at or below a finite limit. */
  lemma SetRespectsLimit<K(!new), V(!new)>(c: Collection<K, V>, k: K, v: V, now: int, n: int)
    requires Valid(c) && c.limit == Finite(n) && Size(c) <= n
    ensures Size(Set(c, k, v, now).c) <= n
  {
    if AtLimit(c) && |c.order| > 0 {
      var e := Delete(c, c.order[0]);
      DropAt(c.order, 0);
      assert |e.c.order| == n - 1;
    }
  }

  /** At the limit a new key evicts the oldest-inserted entry and goes to the end. */
  lemma SetEvictsOldest<K(!new), V(!new)>(c: Collection<K, V>, k: K, v: V, now: int)
    requires Valid(c) && AtLimit(c) && |c.order| >= 2 && k !in c.cache
    ensures var r := Set(c, k, v, now);
      r.out.Ok? && r.c.order == c.order[1..] + [k] && c.order[0] !in r.c.cache
  {
    var e := Delete(c, c.order[0]);
    DropAt(c.order, 0);
    assert e.c.order == c.order[1..];
    assert |e.c.order| > 0 && e.out.Ok?;
    assert k !in e.c.cache;
    assert Set(c, k, v, now) == Step(Put(e.c, k, v, now), Ok(()));
  }

  /** At the limit, re-setting a present key other than the oldest one shrinks the collection. */
  lemma SetPresentShrinks<K(!new), V(!new)>(c: Collection<K, V>, k: K, v: V, now: int)
    requires Valid(c) && AtLimit(c) && |c.order| >= 2 && k in c.cache && k != c.order[0]
    ensures var r := Set(c, k, v, now);
      r.out.Ok? && Size(r.c) == Size(c) - 1 && r.c.order == c.order[1..]
  {
    DropAt(c.order, 0);
  }

  /** Below the limit (or over it, as a seeded collection can be) nothing is evicted. */
  lemma SetBelowLimitKeeps<K(!new), V(!new)>(c: Collection<K, V>, k: K, v: V, now: int)
    requires Valid(c) && !AtLimit(c)
    ensures var r := Set(c, k, v, now);
      && r.out.Ok?
      && (forall j :: j in c.cache ==> j in r.c.cache)
      && Size(r.c) == (if k in c.cache then Size(c) else Size(c) + 1)
  {
  }

  /** With no expiry the timer is never created, so emptying the collection by eviction throws. */
  lemma FullWithoutExpiryThrows<K(!new), V(!new)>(c: Collection<K, V>, k: K, v: V, now: int)
    requires Valid(c) && c.limit == Finite(1) && Size(c) == 1 && c.timer == NotCreated
    ensures Set(c, k, v, now).out == Err(TimerNotCreated)
    ensures Set(c, k, v, now).c.order == []
  {
    DropAt(c.order, 0);
  }

  /** With no expiry, `set` never creates the timer. */
  lemma NoExpiryNoTimer<K(!new), V(!new)>(c: Collection<K, V>, k: K, v: V, now: int)
    requires Valid(c) && c.expire == Infinite && c.timer == NotCreated
    ensures Set(c, k, v, now).c.timer == NotCreated
  {
  }

  /** Deleting the newest key of a collection of two or more keeps the rest in order. */
  lemma DeleteNewest<K(!new), V(!new)>(p: Collection<K, V>, k: K)
    requires Valid(p) && |p.order| >= 2 && p.order[|p.order| - 1] == k
    ensures Delete(p, k).out == Ok(true) && Delete(p, k).c.order == p.order[..|p.order| - 1]
  {
    DropAt(p.order, |p.order| - 1);
    assert p.order[|p.order|..] == [];
  }

  /** `delete` undoes a `set` of a new key below the limit, apart from the timestamp. */
  lemma DeleteUndoesSet<K(!new), V(!new)>(c: Collection<K, V>, k: K, v: V, now: int)
    requires Valid(c) && !AtLimit(c) && k !in c.cache && Size(c) > 0
    ensures var d := Delete(Set(c, k, v, now).c, k);
      && d.out == Ok(true)
      && d.c.order == c.order && d.c.cache == c.cache
      && d.c.lastUsed == c.lastUsed - {k}
  {
    var p := Put(c, k, v, now);
    assert p.order == c.order + [k];
    DeleteNewest(p, k);
    assert p.order[..|c.order|] == c.order;
    UpdateMinus(c.cache, k, v);
    UpdateMinus(c.lastUsed, k, now);
  }

  lemma UpdateMinus<K(!new), T>(m: map<K, T>, k: K, v: T)
    ensures m[k := v] - {k} == m - {k}
  {
  }

  /** A value just stored is read back, and the read leaves the entries alone. */
  lemma GetAfterSet<K(!new), V(!new)>(c: Collection<K, V>, k: K, v: V, t: int, now: int)
    requires Valid(c) && Set(c, k, v, t).out.Ok?
    ensures var g := Get(Set(c, k, v, t).c, k, now);
      g.1 == Some(v) && g.0.order == Set(c, k, v, t).c.order && g.0.cache == Set(c, k, v, t).c.cache
  {
  }

  /** An entry read at time `t` survives a sweep at `now` unless more than `expire` has passed. */
  lemma ReadEntrySurvives<K(!new), V(!new)>(c: Collection<K, V>, k: K, t: int, now: int)
    requires Valid(c) && c.timer != NotCreated && k in c.cache
    ensures var g := Get(c, k, t).0;
      k in Sweep(g, now).cache <==> t == 0 || c.expire == Infinite || now - t <= c.expire.n
  {
  }

  /** `clear` stops the sweep from ever finding anything. */
  lemma ClearedNothingSwept<K(!new), V(!new)>(c: Collection<K, V>, now: int)
    requires c.timer != NotCreated
    ensures Sweep(Clear(c), now) == Clear(c)
  {
    assert ExpiredAmong(Clear(c), [], now) == {};
  }

  /** The constructor's defaults. */
  lemma DefaultsOfNew()
    ensures var c := New(NoOptions);
      && c.interval == DefaultInterval && !c.shouldReset
      && c.expire == Infinite && c.limit == Infinite
      && Size(c) == 0 && c.timer == NotCreated
  {
  }

  // ---------------------------------------------------------------------
  // Read-only traversals, all in insertion order

  function ValueAt<K(==,!new), V(!new)>(c: Collection<K, V>, i: nat): V
    requires Valid(c) && i < |c.order|
  {
    c.cache[c.order[i]]
  }

  /** `array`: the entries as pairs, in insertion order. */
  function Array<K(==,!new), V(!new)>(c: Collection<K, V>): (r: seq<(K, V)>)
    requires Valid(c)
    ensures |r| == |c.order|
    ensures forall i :: 0 <= i < |r| ==> r[i] == (c.order[i], c.cache[c.order[i]])
  {
    seq(|c.order|, i requires 0 <= i < |c.order| => (c.order[i], ValueAt(c, i)))
  }

  function FilterFrom<K(==,!new), V(!new)>(c: Collection<K, V>, i: nat, f: (V, K) -> bool): (r: seq<V>)
    requires Valid(c) && i <= |c.order|
    ensures |r| <= |c.order| - i
    ensures forall v :: v in r <==> exists j :: i <= j < |c.order| && f(ValueAt(c, j), c.order[j]) && ValueAt(c, j) == v
    decreases |c.order| - i
  {
    if i == |c.order| then []
    else
      var v := ValueAt(c, i);
      var rest := FilterFrom(c, i + 1, f);
      if f(v, c.order[i]) then [v] + rest else rest
  }

  /** `filter`: the values whose entry satisfies `f`, in insertion order. */
  function Filter<K(==,!new), V(!new)>(c: Collection<K, V>, f: (V, K) -> bool): (r: seq<V>)
    requires Valid(c)
    ensures |r| <= |c.order|
    ensures forall v :: v in r <==> exists j :: 0 <= j < |c.order| && f(ValueAt(c, j), c.order[j]) && ValueAt(c, j) == v
  {
    FilterFrom(c, 0, f)
  }

  function FindFrom<K(==,!new), V(!new)>(c: Collection<K, V>, i: nat, f: (V, K) -> bool): (r: Option<nat>)
    requires Valid(c) && i <= |c.order|
    ensures r.Some? ==> i <= r.value < |c.order| && f(ValueAt(c, r.value), c.order[r.value])
    ensures r.Some? ==> forall j :: i <= j < r.value ==> !f(ValueAt(c, j), c.order[j])
    ensures r.None? ==> forall j :: i <= j < |c.order| ==> !f(ValueAt(c, j), c.order[j])
    decreases |c.order| - i
  {
    if i == |c.order| then None
    else if f(ValueAt(c, i), c.order[i]) then Some(i)
    else FindFrom(c, i + 1, f)
  }

  /** `find`: the value of the first entry satisfying `f`, or `undefined`. */
  function Find<K(==,!new), V(!new)>(c: Collection<K, V>, f: (V, K) -> bool): (r: Option<V>)
    requires Valid(c)
    ensures r.None? <==> forall j :: 0 <= j < |c.order| ==> !f(ValueAt(c, j), c.order[j])
    ensures r.Some? ==> exists i :: 0 <= i < |c.order| && f(ValueAt(c, i), c.order[i]) && r.value == ValueAt(c, i) &&
                                    forall j :: 0 <= j < i ==> !f(ValueAt(c, j), c.order[j])
  {
    match FindFrom(c, 0, f)
    case None => None
    case Some(i) => Some(ValueAt(c, i))
  }

  /** `first`: the value of the first entry in insertion order, or `undefined`. */
  function First<K(==,!new), V(!new)>(c: Collection<K, V>): (r: Option<V>)
    requires Valid(c)
    ensures r.None? <==> Size(c) == 0
    ensures r.Some? ==> r.value == c.cache[c.order[0]]
  {
    if |c.order| == 0 then None else Some(ValueAt(c, 0))
  }

  /** `some`: whether any entry satisfies `f`. */
  function Any<K(==,!new), V(!new)>(c: Collection<K, V>, f: (V, K) -> bool): (r: bool)
    requires Valid(c)
    ensures r <==> exists j :: 0 <= j < |c.order| && f(ValueAt(c, j), c.order[j])
  {
    FindFrom(c, 0, f).Some?
  }

  /** `map`: `f` applied to every entry, in insertion order. */
  function MapValues<K(==,!new), V(!new), U>(c: Collection<K, V>, f: (V, K) -> U): (r: seq<U>)
    requires Valid(c)
    ensures |r| == |c.order|
    ensures forall i :: 0 <= i < |r| ==> r[i] == f(ValueAt(c, i), c.order[i])
  {
    seq(|c.order|, i requires 0 <= i < |c.order| => f(ValueAt(c, i), c.order[i]))
  }

  function ReduceUpTo<K(==,!new), V(!new), A>(c: Collection<K, V>, n: nat, f: (A, V) -> A, init: A): A
    requires Valid(c) && n <= |c.order|
  {
    if n == 0 then init else f(ReduceUpTo(c, n - 1, f, init), ValueAt(c, n - 1))
  }

  /** `reduce`: fold `f` over the values in insertion order, starting from `init`. */
  function Reduce<K(==,!new), V(!new), A>(c: Collection<K, V>, f: (A, V) -> A, init: A): (r: A)
    requires Valid(c)
    ensures Size(c) == 0 ==> r == init
  {
    ReduceUpTo(c, |c.order|, f, init)
  }

  /** `clone`: the same entries in the same order under the default configuration. */
  function Clone<K(==,!new), V(!new)>(c: Collection<K, V>): (r: Collection<K, V>)
    requires Valid(c)
    ensures Valid(r) && r.order == c.order && r.cache == c.cache
    ensures r.lastUsed == map[] && r.expire == Infinite && r.limit == Infinite && r.timer == NotCreated
  {
    var entries := Array(c);
    ArrayRebuilds(c);
    New(CollectionOptions(None, None, None, Some(entries)))
  }

  /** The entry list of a collection lists its keys in order and maps back to its cache. */
  lemma ArrayRebuilds<K(!new), V(!new)>(c: Collection<K, V>)
    requires Valid(c)
    ensures Keys(Array(c)) == c.order && ToMap(Array(c)) == c.cache
  {
    var entries := Array(c);
    assert Keys(entries) == c.order;
    var m := ToMap(entries);
    forall k | k in c.cache ensures k in m && m[k] == c.cache[k] {
      var i :| 0 <= i < |c.order| && c.order[i] == k;
      assert entries[i].0 == k;
    }
    forall k | k in m ensures k in c.cache {
      var i :| 0 <= i < |entries| && entries[i].0 == k;
      assert c.order[i] in c.order;
    }
  }

  // ---------------------------------------------------------------------
  // How the traversals relate

  /** `first` is `find` with a predicate that always holds. */
  lemma FirstIsFindAnything<K(!new), V(!new)>(c: Collection<K, V>)
    requires Valid(c)
    ensures First(c) == Find(c, (v: V, k: K) => true)
  {
  }

  /** `some` holds exactly when `find` finds something. */
  lemma AnyIffFind<K(!new), V(!new)>(c: Collection<K, V>, f: (V, K) -> bool)
    requires Valid(c)
    ensures Any(c, f) <==> Find(c, f).Some?
  {
  }

  lemma {:induction false} CollectUpTo<K(!new), V(!new)>(c: Collection<K, V>, n: nat)
    requires Valid(c) && n <= |c.order|
    ensures ReduceUpTo(c, n, (acc: seq<V>, v: V) => acc + [v], []) == MapValues(c, (v: V, k: K) => v)[..n]
    decreases n
  {
    if n > 0 {
      CollectUpTo(c, n - 1);
      var all := MapValues(c, (v: V, k: K) => v);
      assert all[..n] == all[..n - 1] + [all[n - 1]];
    }
  }

  /** Reducing by appending lists the values in insertion order, as `map` with the identity does. */
  lemma ReduceCollectsValues<K(!new), V(!new)>(c: Collection<K, V>)
    requires Valid(c)
    ensures Reduce(c, (acc: seq<V>, v: V) => acc + [v], []) == MapValues(c, (v: V, k: K) => v)
  {
    CollectUpTo(c, |c.order|);
  }

  lemma {:induction false} FilterFromAll<K(!new), V(!new)>(c: Collection<K, V>, i: nat)
    requires Valid(c) && i <= |c.order|
    ensures FilterFrom(c, i, (v: V, k: K) => true) == MapValues(c, (v: V, k: K) => v)[i..]
    decreases |c.order| - i
  {
    if i < |c.order| {
      FilterFromAll(c, i + 1);
      var all := MapValues(c, (v: V, k: K) => v);
      assert all[i..] == [all[i]] + all[i + 1..];
    }
  }

  /** A filter that keeps everything returns every value, in insertion order. */
  lemma FilterAllIsValues<K(!new), V(!new)>(c: Collection<K, V>)
    requires Valid(c)
    ensures Filter(c, (v: V, k: K) => true) == MapValues(c, (v: V, k: K) => v)
  {
    FilterFromAll(c, 0);
  }

  /**
   * The indices behind `FilterFrom(c, i, f)`: strictly increasing, exactly
   * the positions from `i` on whose entry satisfies `f`, one value each.
   */
  lemma {:induction false} FilterFromIndices<K(!new), V(!new)>(c: Collection<K, V>, i: nat, f: (V, K) -> bool)
    returns (js: seq<nat>)
    requires Valid(c) && i <= |c.order|
    ensures |js| == |FilterFrom(c, i, f)|
    ensures forall a :: 0 <= a < |js| ==> i <= js[a] < |c.order| && FilterFrom(c, i, f)[a] == ValueAt(c, js[a])
    ensures forall a, b :: 0 <= a < b < |js| ==> js[a] < js[b]
    ensures forall j :: i <= j < |c.order| ==> (f(ValueAt(c, j), c.order[j]) <==> j in js)
    ensures forall j :: j in js ==> i <= j < |c.order|
    decreases |c.order| - i
  {
    if i == |c.order| {
      js := [];
    } else {
      var rest := FilterFromIndices(c, i + 1, f);
      if f(ValueAt(c, i), c.order[i]) {
        js := [i] + rest;
        assert FilterFrom(c, i, f) == [ValueAt(c, i)] + FilterFrom(c, i + 1, f);
        forall a | 0 < a < |js| ensures js[a] == rest[a - 1] {
        }
      } else {
        js := rest;
        assert FilterFrom(c, i, f) == FilterFrom(c, i + 1, f);
        assert i !in rest;
      }
    }
  }

  /**
   * `filter` visits the entries in insertion order and keeps one value per
   * entry that satisfies `f`: the result is the values at a strictly
   * increasing run of positions, which are exactly the satisfying ones.
   */
  lemma FilterInOrder<K(!new), V(!new)>(c: Collection<K, V>, f: (V, K) -> bool)
    requires Valid(c)
    ensures var r := Filter(c, f);
      exists js: seq<nat> ::
        && |js| == |r|
        && (forall a :: 0 <= a < |js| ==> js[a] < |c.order| && r[a] == ValueAt(c, js[a]))
        && (forall a, b :: 0 <= a < b < |js| ==> js[a] < js[b])
        && (forall j :: 0 <= j < |c.order| ==> (f(ValueAt(c, j), c.order[j]) <==> j in js))
  {
    var js := FilterFromIndices(c, 0, f);
    var r := Filter(c, f);
    assert |js| == |r|;
    assert forall a :: 0 <= a < |js| ==> js[a] < |c.order| && r[a] == ValueAt(c, js[a]);
  }

  /** `clone` has the same traversals as the original. */
  lemma CloneSameArray<K(!new), V(!new)>(c: Collection<K, V>)
    requires Valid(c)
    ensures Array(Clone(c)) == Array(c)
  {
  }
}

=== FILE: discorduser.dfy ===
/**
 * `IDiscordUser` (src/structures/discorduser.ts): a Discord account as the
 * library stores it. The snowflake id is kept as a number, the avatar hash as
 * a number plus an "animated" flag, and the name as one `username#discriminator`
 * tag that the getters split again.
 */
module DiscordUser {
  import opened Wrappers
  import opened Strings
  import opened Numeral

  /** The constructor's argument; a `null` avatar is `None`. */
  datatype UserOptions = UserOptions(
    id: string,
    username: string,
    discriminator: string,
    publicFlags: int,
    avatar: Option<string>)

  /**
   * The stored fields. `animated` keeps the last value the avatar setter
   * wrote; it starts out false (it is `undefined`, which is falsy).
   */
  datatype User = User(id: nat, avatar: Option<nat>, animated: bool, tag: string, publicFlags: int)

  /** An assignment through a setter: the object afterwards, and what it threw, if anything. */
  datatype Assigned = Assigned(user: User, thrown: Option<ParseError>)

  /** The `id` getter: the decimal rendering of the stored number. */
  function IdText(u: User): string {
    Show(u.id, 10)
  }

  /** The `id` setter, `BigInt(value)`. */
  function SetId(u: User, value: string): (r: Result<User, ParseError>)
    ensures r.Ok? <==> AllDigits(value, 10)
    ensures r.Ok? ==> r.value == u.(id := r.value.id)
    ensures r.Ok? && Canonical(value, 10) ==> IdText(r.value) == value
  {
    var n :- BigIntDecimal(value);
    Ok(u.(id := n))
  }

  /** The text after an `a_` prefix, or all of it. */
  function HashDigits(value: string): string {
    if StartsWith(value, "a_") then value[2..] else value
  }

  /**
   * The `avatar` setter. A missing or empty value stores `null`. Otherwise
   * `animated` records whether the value starts with `a_`, and the rest is
   * read as hexadecimal; when that read throws, the new `animated` flag has
   * already been written and the old hash stays.
   */
  function SetAvatar(u: User, value: Option<string>): (r: Assigned)
    ensures value.None? || value == Some("") ==> r == Assigned(u.(avatar := None), None)
    ensures value.Some? && value.value != "" ==>
      && r.user.animated == StartsWith(value.value, "a_")
      && (r.thrown.None? <==> |HashDigits(value.value)| >= 1 && AllDigits(HashDigits(value.value), 16))
      && (r.thrown.None? ==> r.user.avatar == Some(Parse(HashDigits(value.value), 16)))
      && (r.thrown.Some? ==> r.user.avatar == u.avatar)
    ensures r.user.id == u.id && r.user.tag == u.tag && r.user.publicFlags == u.publicFlags
  {
    match value
    case None => Assigned(u.(avatar := None), None)
    case Some(v) =>
      if v == "" then Assigned(u.(avatar := None), None)
      else
        var animated := StartsWith(v, "a_");
        match BigIntHex(if animated then v[2..] else v)
        case Ok(n) => Assigned(u.(animated := animated, avatar := Some(n)), None)
        case Err(e) => Assigned(u.(animated := animated), Some(e))
  }

  /** The `avatar` getter: `null` for no hash or a zero hash, else optional `a_` and lower-case hex. */
  function AvatarText(u: User): (r: Option<string>)
    ensures r.None? <==> u.avatar.None? || u.avatar.value == 0
    ensures r.Some? ==> r.value == (if u.animated then "a_" else "") + Show(u.avatar.value, 16)
  {
    match u.avatar
    case None => None
    case Some(n) => if n == 0 then None else Some((if u.animated then "a_" else "") + Show(n, 16))
  }

  function Tag(username: string, discriminator: string): string {
    username + "#" + discriminator
  }

  /** The `username` getter: the tag up to its last `#` (empty when there is none). */
  function Username(u: User): (r: string)
    ensures '#' in u.tag ==> u.tag == r + "#" + Discriminator(u)
    ensures '#' !in u.tag ==> r == ""
  {
    var i := LastIndexOf(u.tag, '#');
    if i < 0 then "" else u.tag[..i]
  }

  /** The `discriminator` getter: the tag after its last `#` (all of it when there is none). */
  function Discriminator(u: User): (r: string)
    ensures '#' !in r
  {
    u.tag[LastIndexOf(u.tag, '#') + 1..]
  }

  /** The avatar setter does not throw on `value`: it is missing, empty, or hex digits after an optional `a_`. */
  predicate AvatarAccepted(value: Option<string>) {
    value.None? || value.value == "" || (|HashDigits(value.value)| >= 1 && AllDigits(HashDigits(value.value), 16))
  }

  /** The hash an accepted avatar value stores. */
  function StoredHash(value: Option<string>): Option<nat>
    requires AvatarAccepted(value)
  {
    if value.None? || value.value == "" then None else Some(Parse(HashDigits(value.value), 16))
  }

  /**
   * The constructor: the id setter, the tag, the avatar setter, the public
   * flags, in that order. It throws whatever the id or avatar setter throws.
   */
  function New(o: UserOptions): (r: Result<User, ParseError>)
    ensures r.Ok? <==> AllDigits(o.id, 10) && AvatarAccepted(o.avatar)
    ensures r.Ok? ==> r.value.tag == Tag(o.username, o.discriminator) && r.value.publicFlags == o.publicFlags
    ensures r.Ok? ==> r.value.id == Parse(o.id, 10)
    ensures r.Ok? ==> r.value.avatar == StoredHash(o.avatar)
    ensures r.Ok? ==> r.value.animated == (o.avatar.Some? && StartsWith(o.avatar.value, "a_"))
  {
    var u :- SetId(User(0, None, false, "", 0), o.id);
    var a := SetAvatar(u.(tag := Tag(o.username, o.discriminator)), o.avatar);
    if a.thrown.Some? then Err(a.thrown.value)
    else Ok(a.user.(publicFlags := o.publicFlags))
  }

  // ---------------------------------------------------------------------
  // Round trips

  /** The tag splits back into its parts exactly when the discriminator has no `#`. */
  lemma TagSplits(u: User, username: string, discriminator: string)
    requires u.tag == Tag(username, discriminator)
    ensures Discriminator(u) == discriminator <==> '#' !in discriminator
    ensures Username(u) == username <==> '#' !in discriminator
  {
    var t := u.tag;
    assert t[|username|] == '#';
    if '#' !in discriminator {
      assert t[|username| + 1..] == discriminator;
      assert t[..|username|] == username;
    } else {
      assert Discriminator(u) != discriminator;
      var i := LastIndexOf(t, '#');
      assert t[|username|] == '#';
      assert i > |username| by {
        var j :| 0 <= j < |discriminator| && discriminator[j] == '#';
        assert t[|username| + 1 + j] == '#';
      }
      assert |Username(u)| != |username|;
    }
  }

  /** A canonical decimal id reads back unchanged; other digit strings lose their leading zeros. */
  lemma IdRoundTrip(u: User, value: string)
    requires AllDigits(value, 10)
    ensures SetId(u, value).Ok?
    ensures IdText(SetId(u, value).value) == Show(Parse(value, 10), 10)
    ensures Canonical(value, 10) ==> IdText(SetId(u, value).value) == value
  {
  }

  /** Any stored id survives rendering and re-reading. */
  lemma IdTextRoundTrip(u: User, v: User)
    ensures SetId(v, IdText(u)).Ok? && SetId(v, IdText(u)).value.id == u.id
  {
    ShowParse(u.id, 10);
  }

  /** The avatar setter on a well-formed hash, with or without the prefix. */
  lemma SetAvatarWellFormed(u: User, v: string)
    requires |HashDigits(v)| >= 1 && AllDigits(HashDigits(v), 16)
    ensures SetAvatar(u, Some(v)) ==
      Assigned(u.(animated := StartsWith(v, "a_"), avatar := Some(Parse(HashDigits(v), 16))), None)
  {
  }

  lemma PlainHash(h: string)
    requires |h| >= 1 && AllDigits(h, 16)
    ensures HashDigits(h) == h && HashDigits("a_" + h) == h && StartsWith("a_" + h, "a_") && !StartsWith(h, "a_")
  {
    assert ("a_" + h)[..2] == "a_" && ("a_" + h)[2..] == h;
    if |h| >= 2 {
      assert IsDigit(h[1], 16);
    }
  }

  /** A non-zero hash written without a prefix reads back in canonical lower-case form. */
  lemma AvatarRoundTrip(u: User, h: string)
    requires |h| >= 1 && AllDigits(h, 16) && Parse(h, 16) != 0
    ensures var r := SetAvatar(u, Some(h));
      r.thrown.None? && AvatarText(r.user) == Some(Show(Parse(h, 16), 16))
    ensures Canonical(h, 16) ==> AvatarText(SetAvatar(u, Some(h)).user) == Some(h)
  {
    PlainHash(h);
    SetAvatarWellFormed(u, h);
    var w := u.(animated := false, avatar := Some(Parse(h, 16)));
    assert SetAvatar(u, Some(h)).user == w;
    assert "" + Show(Parse(h, 16), 16) == Show(Parse(h, 16), 16);
    assert AvatarText(w) == Some(Show(Parse(h, 16), 16));
    CanonicalRoundTrip(h, 16);
  }

  /** The same with the animated prefix. */
  lemma AnimatedAvatarRoundTrip(u: User, h: string)
    requires |h| >= 1 && AllDigits(h, 16) && Parse(h, 16) != 0
    ensures var r := SetAvatar(u, Some("a_" + h));
      r.thrown.None? && AvatarText(r.user) == Some("a_" + Show(Parse(h, 16), 16))
    ensures Canonical(h, 16) ==> AvatarText(SetAvatar(u, Some("a_" + h)).user) == Some("a_" + h)
  {
    PlainHash(h);
    SetAvatarWellFormed(u, "a_" + h);
    CanonicalRoundTrip(h, 16);
  }

  /** Whatever the getter returns, the setter takes back to the same stored state. */
  lemma AvatarTextRoundTrip(u: User)
    requires AvatarText(u).Some?
    ensures var r := SetAvatar(u, AvatarText(u));
      r.thrown.None? && r.user.avatar == u.avatar && r.user.animated == u.animated
  {
    var n := u.avatar.value;
    var h := Show(n, 16);
    ShowParse(n, 16);
    PlainHash(h);
    var v := if u.animated then "a_" + h else h;
    assert "" + h == h;
    assert AvatarText(u) == Some(v);
    SetAvatarWellFormed(u, v);
  }

  /** A zero hash is stored but reads back as `null`. */
  lemma ZeroAvatarIsNull(u: User, value: string)
    requires value == "0" || value == "a_00"
    ensures SetAvatar(u, Some(value)).thrown.None?
    ensures AvatarText(SetAvatar(u, Some(value)).user).None?
  {
    assert IsDigit('0', 16);
    assert "00"[..1] == "0";
    assert Parse("0", 16) == 0 && Parse("00", 16) == 0;
    PlainHash("0");
    PlainHash("00");
    assert value == "a_00" ==> value == "a_" + "00";
    SetAvatarWellFormed(u, value);
  }

  /** `a_` with nothing after it, or a non-hex character, makes the setter throw. */
  lemma BadAvatarThrows(u: User, value: string)
    requires value == "a_" || (value != "" && !StartsWith(value, "a_") && exists i :: 0 <= i < |value| && !IsDigit(value[i], 16))
    ensures SetAvatar(u, Some(value)).thrown == Some(SyntaxError)
  {
    if value == "a_" {
      assert StartsWith(value, "a_") && value[2..] == "";
    }
  }

  /**
   * A user built from canonical parts gives every part back through the
   * getters: id, username, discriminator, avatar and public flags.
   */
  lemma NewRoundTrip(o: UserOptions)
    requires Canonical(o.id, 10) && '#' !in o.discriminator
    requires o.avatar.None? || (|HashDigits(o.avatar.value)| >= 1 && Canonical(HashDigits(o.avatar.value), 16)
                                && HashDigits(o.avatar.value) != "0")
    ensures New(o).Ok?
    ensures var u := New(o).value;
      && IdText(u) == o.id
      && Username(u) == o.username && Discriminator(u) == o.discriminator
      && AvatarText(u) == o.avatar
      && u.publicFlags == o.publicFlags
  {
    var u0 := SetId(User(0, None, false, "", 0), o.id).value;
    var u1 := u0.(tag := Tag(o.username, o.discriminator));
    if o.avatar.Some? {
      CanonicalAvatarBack(u1, o.avatar.value);
    }
    var u2 := SetAvatar(u1, o.avatar).user;
    assert New(o) == Ok(u2.(publicFlags := o.publicFlags));
    TagSplits(u2.(publicFlags := o.publicFlags), o.username, o.discriminator);
  }

  /** A canonical avatar, with or without the prefix, reads back unchanged. */
  lemma CanonicalAvatarBack(u: User, v: string)
    requires |HashDigits(v)| >= 1 && Canonical(HashDigits(v), 16) && HashDigits(v) != "0"
    ensures SetAvatar(u, Some(v)).thrown.None? && AvatarText(SetAvatar(u, Some(v)).user) == Some(v)
  {
    var h := HashDigits(v);
    SetAvatarWellFormed(u, v);
    ParseShow(h, 16);
    if StartsWith(v, "a_") {
      assert v == "a_" + h;
    } else {
      assert "" + h == h;
    }
  }
}

=== FILE: errors.dfy ===
/**
 * The error classes of src/errors.ts. `DiscordBioError` carries the text it
 * was thrown with, the request and the response. `RatelimitError` refuses to
 * be built for a response whose status is not 429, always reports 429 as its
 * status, and reads the three rate-limit headers of its response.
 */
module Errors {
  import opened Wrappers
  import opened Numeral
  import opened Values

  const RatelimitStatusCode: int := 429
  const SuccessStatusCode: int := 200

  const HeaderReset: string := "x-ratelimit-reset"
  const HeaderRemaining: string := "x-ratelimit-remaining"
  const HeaderLimit: string := "x-ratelimit-limit"

  datatype HttpRequest = HttpRequest(path: string)

  /**
   * A response: its status, its headers keyed by lower-case name (an absent
   * header reads as `null`), and its body text.
   */
  datatype HttpResponse = HttpResponse(status: int, headers: map<string, string>, body: string)

  datatype ErrorKind = General | Ratelimit

  /**
   * A `DiscordBioError`, or a `RatelimitError` when `kind` says so, with the
   * `message` that `Error` stored.
   */
  datatype ApiError = ApiError(kind: ErrorKind, message: string, request: HttpRequest, response: HttpResponse)

  /**
   * The `message` of `new Error(text)`: empty for `undefined`, otherwise the
   * string conversion of whatever value the caller passed as `text`.
   */
  function ErrorMessage(text: Value): (m: string)
    ensures text.Str? ==> m == text.s
    ensures text == Undefined ==> m == ""
  {
    if text == Undefined then "" else ToText(text)
  }

  function NewDiscordBioError(text: Value, request: HttpRequest, response: HttpResponse): (e: ApiError)
    ensures e.message == ErrorMessage(text) && e.request == request && e.response == response
    ensures StatusCode(e) == response.status
  {
    ApiError(General, ErrorMessage(text), request, response)
  }

  /** Thrown with an object, the error says `[object Object]`; thrown with a number, its digits, which read back. */
  lemma NonStringMessages(text: Value, request: HttpRequest, response: HttpResponse)
    ensures text.Obj? ==> NewDiscordBioError(text, request, response).message == "[object Object]"
    ensures text.Number? ==> ParseInt(NewDiscordBioError(text, request, response).message) == Int(text.n)
  {
    ToTextRoundTrips(text);
  }

  /** `statusCode`: the response status, except a rate-limit error always says 429. */
  function StatusCode(e: ApiError): (code: int)
    ensures e.kind == General ==> code == e.response.status
    ensures e.kind == Ratelimit ==> code == RatelimitStatusCode
  {
    match e.kind
    case General => e.response.status
    case Ratelimit => RatelimitStatusCode
  }

  function MismatchMessage(status: int): string {
    "Invalid ratelimit status code: " + IntText(status) + ". Expected: " + IntText(RatelimitStatusCode)
  }

  /** The `RatelimitError` constructor: it throws a plain error unless the status is 429. */
  function NewRatelimitError(text: Value, request: HttpRequest, response: HttpResponse): (r: Result<ApiError, string>)
    ensures r.Ok? <==> response.status == RatelimitStatusCode
    ensures r.Err? ==> r.error == MismatchMessage(response.status)
    ensures r.Ok? ==> r.value.kind == Ratelimit && r.value.message == ErrorMessage(text)
    ensures r.Ok? ==> r.value.request == request && r.value.response == response
  {
    if response.status != RatelimitStatusCode then Err(MismatchMessage(response.status))
    else Ok(ApiError(Ratelimit, ErrorMessage(text), request, response))
  }

  /** `headers.get(name)`. */
  function HeaderGet(response: HttpResponse, name: string): Option<string> {
    if name in response.headers then Some(response.headers[name]) else None
  }

  /** `fetchRatelimitHeader`: `null` for an absent or empty header, else its `parseInt`. */
  function FetchRatelimitHeader(e: ApiError, name: string): (r: Option<Num>)
    ensures r.None? <==> name !in e.response.headers || e.response.headers[name] == ""
    ensures r.Some? ==> r.value == ParseInt(e.response.headers[name])
  {
    match HeaderGet(e.response, name)
    case None => None
    case Some(raw) => if raw == "" then None else Some(ParseInt(raw))
  }

  function Limit(e: ApiError): Option<Num> {
    FetchRatelimitHeader(e, HeaderLimit)
  }

  function Remaining(e: ApiError): Option<Num> {
    FetchRatelimitHeader(e, HeaderRemaining)
  }

  function Reset(e: ApiError): Option<Num> {
    FetchRatelimitHeader(e, HeaderReset)
  }

  /** Every rate-limit error that can be built reports 429, which is also its response's status. */
  lemma RatelimitStatusIs429(text: Value, request: HttpRequest, response: HttpResponse)
    ensures NewRatelimitError(text, request, response).Ok? ==>
      StatusCode(NewRatelimitError(text, request, response).value) == RatelimitStatusCode == response.status
  {
  }

  /** A rate-limit error built on a response with status `s` other than 429 names `s` in its message. */
  lemma MismatchNamesStatus(text: Value, request: HttpRequest, response: HttpResponse)
    requires response.status != RatelimitStatusCode
    ensures var r := NewRatelimitError(text, request, response);
      r.Err? && r.error[..31] == "Invalid ratelimit status code: " && r.error[31..31 + |IntText(response.status)|] == IntText(response.status)
  {
  }

  /** A header holding a decimal numeral reads back as that number. */
  lemma HeaderRoundTrip(e: ApiError, name: string, n: nat)
    requires name in e.response.headers && e.response.headers[name] == Show(n, 10)
    ensures FetchRatelimitHeader(e, name) == Some(Int(n))
  {
    ParseIntShow(n);
  }

  /** The three getters read the three distinct headers. */
  lemma HeadersRoundTrip(e: ApiError, limit: nat, remaining: nat, reset: nat)
    requires e.response.headers == map[HeaderLimit := Show(limit, 10), HeaderRemaining := Show(remaining, 10), HeaderReset := Show(reset, 10)]
    ensures Limit(e) == Some(Int(limit)) && Remaining(e) == Some(Int(remaining)) && Reset(e) == Some(Int(reset))
  {
    assert HeaderLimit[2..7] == "ratel" && HeaderLimit[12] == 'l';
    assert HeaderRemaining[12] == 'r' && HeaderReset[12] == 'r' && HeaderRemaining[14] == 'm' && HeaderReset[14] == 's';
    HeaderRoundTrip(e, HeaderLimit, limit);
    HeaderRoundTrip(e, HeaderRemaining, remaining);
    HeaderRoundTrip(e, HeaderReset, reset);
  }
}

=== FILE: gateway.dfy ===
/**
 * `SocketManager` (src/gateway/socketmanager.ts): the sockets kept per
 * subscribed id, the heartbeat handle, and `_onMessage`, which turns a raw
 * gateway event into the event the client publishes and updates the
 * client's caches.
 *
 * The profile cache is the client's `userProfiles` (absent when caching is
 * off); the presence cache is optional too. Clock readings are parameters, as
 * are `JSON.parse` and date parsing.
 */
module Gateway {
  import opened Wrappers
  import opened Values
  import opened Numeral
  import opened Strings
  import opened Collections
  import Util
  import Sockets
  import opened Profiles

  const AutoReconnectDefault: bool := true
  const ConnectionTimeoutDefault: int := 10000

  const BannerUrlParam: string := ":uid"
  const BannerScheme: string := "https:"
  // written in pieces, each short enough for the verifier to index into
  const BannerPath: string := "//s3.eu-west-2" + ".amazonaws.com" + "/discord.bio" + "/banners/"
  const BannerUrl: string := BannerScheme + BannerPath + BannerUrlParam

  /** The wire names `_onMessage` handles. */
  const BannerUpdateEvent: string := "BANNER_UPDATE"
  const PresenceEvent: string := "PRESENCE"
  const ProfileUpdateEvent: string := "PROFILE_UPDATE"
  const TotalViewingEvent: string := "TOTAL_VIEWING"

  const NoSocketMessage: string := "No socket is subscribed to this ID"

  predicate Handled(name: string) {
    name == BannerUpdateEvent || name == PresenceEvent || name == ProfileUpdateEvent || name == TotalViewingEvent
  }

  // ---------------------------------------------------------------------
  // The manager's state and bookkeeping

  /** `SocketManagerOptions`; a missing option is `Undefined`, a missing `subscribe` is `None`. */
  datatype ManagerOptions = ManagerOptions(
    autoReconnect: Value,
    connectionTimeout: Value,
    subscribe: Option<seq<string>>,
    webSocketOptions: Value)

  /** The heartbeat handle: never set, a running interval, or an interval cleared (the handle stays set). */
  datatype Heartbeat = NoHeartbeat | Active | Cleared

  datatype Manager = Manager(
    autoReconnect: Value,
    connectionTimeout: Value,
    webSocketOptions: Value,
    heartbeat: Heartbeat,
    sockets: Collection<string, Sockets.Socket>)

  /**
   * The socket collection has the defaults of `new Collection()`, so its
   * timer is never created; each socket is stored under its own id and has
   * connected.
   */
  predicate Valid(m: Manager) {
    && Collections.Valid(m.sockets)
    && m.sockets.expire == Infinite && m.sockets.limit == Infinite && m.sockets.timer == NotCreated
    && forall k | k in m.sockets.cache :: m.sockets.cache[k].subscribedTo == k && Sockets.Connected(m.sockets.cache[k])
  }

  function NoSockets(): (c: Collection<string, Sockets.Socket>) {
    Collections.New(CollectionOptions(None, None, None, None))
  }

  /** The options every socket is created with. */
  function SocketOptions(m: Manager): Sockets.SocketOptions {
    Sockets.SocketOptions(m.autoReconnect, m.connectionTimeout, m.webSocketOptions)
  }

  /** The socket `_setSocket` stores: connected with the manager's options, then again with none. */
  function FreshSocket(m: Manager, id: string): (r: Sockets.Socket)
    ensures r.subscribedTo == id && |r.transports| == 2
    ensures r.transports[0].autoReconnect == Truthy(m.autoReconnect) && r.transports[0].options == m.webSocketOptions
    ensures !r.transports[1].autoReconnect && r.transports[1].options == Undefined
    ensures r.transports[0].closeSent.None? && r.transports[1].closeSent.None?
  {
    Sockets.Connect(Sockets.New(id, SocketOptions(m)), false, Undefined)
  }

  /**
   * `_setSocket`: create a socket (which connects with the manager's options),
   * store it under `id`, replacing any socket stored there, then call
   * `connect()` on it again with no arguments.
   */
  function SetSocket(m: Manager, id: string, now: int): (r: Manager)
    requires Valid(m)
    ensures Valid(r)
    ensures r.sockets.cache.Keys == m.sockets.cache.Keys + {id}
    ensures r.sockets.order == (if id in m.sockets.cache then m.sockets.order else m.sockets.order + [id])
    ensures forall k | k in m.sockets.cache && k != id :: r.sockets.cache[k] == m.sockets.cache[k]
    ensures r.heartbeat == m.heartbeat && SocketOptions(r) == SocketOptions(m)
    ensures r.sockets.cache[id] == FreshSocket(m, id)
  {
    var step := Set(m.sockets, id, FreshSocket(m, id), now);
    m.(sockets := step.c)
  }

  /** `forEach` over the constructor's subscriptions, each running `_setSocket` up to its first `await`. */
  function SetSockets(m: Manager, ids: seq<string>, now: int): (r: Manager)
    requires Valid(m)
    ensures Valid(r)
    ensures r.heartbeat == m.heartbeat && SocketOptions(r) == SocketOptions(m)
    ensures r.sockets.cache.Keys == m.sockets.cache.Keys + set i | i in ids
    ensures forall k | k in r.sockets.cache :: r.sockets.cache[k] == if k in ids then FreshSocket(m, k) else m.sockets.cache[k]
    decreases |ids|
  {
    if |ids| == 0 then m
    else
      var m1 := SetSocket(m, ids[0], now);
      var r := SetSockets(m1, ids[1..], now);
      SetSocketsStep(m, m1, r, ids);
      r
  }

  /** Setting up the first id and then the rest is setting up all of them. */
  lemma SetSocketsStep(m: Manager, m1: Manager, r: Manager, ids: seq<string>)
    requires |ids| > 0 && SocketOptions(m1) == SocketOptions(m)
    requires m1.sockets.cache.Keys == m.sockets.cache.Keys + {ids[0]}
    requires forall k | k in m.sockets.cache && k != ids[0] :: m1.sockets.cache[k] == m.sockets.cache[k]
    requires m1.sockets.cache[ids[0]] == FreshSocket(m, ids[0])
    requires r.sockets.cache.Keys == m1.sockets.cache.Keys + set i | i in ids[1..]
    requires forall k | k in r.sockets.cache :: r.sockets.cache[k] == if k in ids[1..] then FreshSocket(m1, k) else m1.sockets.cache[k]
    ensures r.sockets.cache.Keys == m.sockets.cache.Keys + set i | i in ids
    ensures forall k | k in r.sockets.cache :: r.sockets.cache[k] == if k in ids then FreshSocket(m, k) else m.sockets.cache[k]
  {
    IdsSplit(ids);
    forall k | k in r.sockets.cache
      ensures r.sockets.cache[k] == if k in ids then FreshSocket(m, k) else m.sockets.cache[k]
    {
      SetSocketsAt(m, m1, r, ids, k);
    }
  }

  /** `SetSocketsStep` for one stored id. */
  lemma SetSocketsAt(m: Manager, m1: Manager, r: Manager, ids: seq<string>, k: string)
    requires |ids| > 0 && SocketOptions(m1) == SocketOptions(m)
    requires m1.sockets.cache.Keys == m.sockets.cache.Keys + {ids[0]}
    requires forall k | k in m.sockets.cache && k != ids[0] :: m1.sockets.cache[k] == m.sockets.cache[k]
    requires m1.sockets.cache[ids[0]] == FreshSocket(m, ids[0])
    requires r.sockets.cache.Keys == m1.sockets.cache.Keys + set i | i in ids[1..]
    requires forall k | k in r.sockets.cache :: r.sockets.cache[k] == if k in ids[1..] then FreshSocket(m1, k) else m1.sockets.cache[k]
    requires k in r.sockets.cache
    ensures r.sockets.cache[k] == if k in ids then FreshSocket(m, k) else m.sockets.cache[k]
  {
    IdsSplit(ids);
    if k in ids[1..] {
      SameOptionsSameSockets(m, m1);
    } else if k == ids[0] {
      assert r.sockets.cache[k] == m1.sockets.cache[k];
    } else {
      assert k in m.sockets.cache;
      assert r.sockets.cache[k] == m1.sockets.cache[k];
    }
  }

  /** The ids of a non-empty list are its first one and the ids of the rest. */
  lemma IdsSplit(ids: seq<string>)
    requires |ids| > 0
    ensures (set i | i in ids) == {ids[0]} + set i | i in ids[1..]
    ensures forall k :: k in ids <==> k == ids[0] || k in ids[1..]
  {
    assert ids == [ids[0]] + ids[1..];
  }

  /**
   * The constructor: `autoReconnect` is `options.autoReconnect || true`,
   * `connectionTimeout` is `options.connectionTimeout || 10000`; sockets are
   * set up for `subscribe`, and a heartbeat starts when any socket exists.
   */
  function New(o: ManagerOptions, now: int): (r: Manager)
    ensures Valid(r)
    ensures Truthy(r.autoReconnect)
    ensures r.connectionTimeout == if Truthy(o.connectionTimeout) then o.connectionTimeout else Number(ConnectionTimeoutDefault)
    ensures r.sockets.cache.Keys == if o.subscribe.Some? then set i | i in o.subscribe.value else {}
    ensures forall k | k in r.sockets.cache :: r.sockets.cache[k] == FreshSocket(r, k)
    ensures r.heartbeat == if o.subscribe.Some? && |o.subscribe.value| > 0 then Active else NoHeartbeat
  {
    var m := Subscribed(o, now);
    SizeIsKeys(m.sockets);
    m.(heartbeat := if Size(m.sockets) > 0 then Active else NoHeartbeat)
  }

  /** The constructor up to the heartbeat: options resolved and every subscription set up. */
  function Subscribed(o: ManagerOptions, now: int): (m: Manager)
    ensures Valid(m) && m.heartbeat == NoHeartbeat
    ensures m.autoReconnect == Or(o.autoReconnect, Bool(AutoReconnectDefault))
    ensures m.connectionTimeout == Or(o.connectionTimeout, Number(ConnectionTimeoutDefault))
    ensures m.sockets.cache.Keys == if o.subscribe.Some? then set i | i in o.subscribe.value else {}
    ensures |m.sockets.cache.Keys| > 0 <==> o.subscribe.Some? && |o.subscribe.value| > 0
    ensures forall k | k in m.sockets.cache :: m.sockets.cache[k] == FreshSocket(m, k)
  {
    var m0 := Configured(o);
    if o.subscribe.Some? then
      var ids := o.subscribe.value;
      var m := SetSockets(m0, ids, now);
      FromNothing(m0, m, ids);
      m
    else m0
  }

  /** Setting up `ids` on a manager with no sockets stores a fresh socket for exactly those ids. */
  lemma FromNothing(m0: Manager, m: Manager, ids: seq<string>)
    requires m0.sockets.cache == map[] && SocketOptions(m) == SocketOptions(m0)
    requires m.sockets.cache.Keys == m0.sockets.cache.Keys + set i | i in ids
    requires forall k | k in m.sockets.cache && k in ids :: m.sockets.cache[k] == FreshSocket(m0, k)
    ensures m.sockets.cache.Keys == set i | i in ids
    ensures |m.sockets.cache.Keys| > 0 <==> |ids| > 0
    ensures forall k | k in m.sockets.cache :: m.sockets.cache[k] == FreshSocket(m, k)
  {
    SameOptionsSameSockets(m0, m);
    NonEmptyIds(ids);
    forall k | k in m.sockets.cache
      ensures m.sockets.cache[k] == FreshSocket(m, k)
    {
      assert k in ids;
    }
  }

  lemma NonEmptyIds(ids: seq<string>)
    ensures |set i | i in ids| > 0 <==> |ids| > 0
  {
    if |ids| > 0 {
      var present := set i | i in ids;
      assert {ids[0]} <= present;
      assert |{ids[0]}| <= |present|;
    } else {
      assert (set i | i in ids) == {};
    }
  }

  /** The options resolved, with no sockets and no heartbeat yet. */
  function Configured(o: ManagerOptions): (m: Manager)
    ensures Valid(m) && m.heartbeat == NoHeartbeat && m.sockets.cache == map[]
    ensures m.autoReconnect == Or(o.autoReconnect, Bool(AutoReconnectDefault))
    ensures m.connectionTimeout == Or(o.connectionTimeout, Number(ConnectionTimeoutDefault))
  {
    Manager(Or(o.autoReconnect, Bool(AutoReconnectDefault)),
            Or(o.connectionTimeout, Number(ConnectionTimeoutDefault)),
            o.webSocketOptions, NoHeartbeat, NoSockets())
  }

  /** Managers with the same socket options create the same sockets. */
  lemma SameOptionsSameSockets(m: Manager, n: Manager)
    requires SocketOptions(m) == SocketOptions(n)
    ensures forall k :: FreshSocket(m, k) == FreshSocket(n, k)
  {
  }

  /** In a valid collection the size is the number of stored keys. */
  lemma SizeIsKeys<V(!new)>(c: Collection<string, V>)
    requires Collections.Valid(c)
    ensures Size(c) == |c.cache.Keys|
  {
    var ks := set k | k in c.order;
    assert ks == c.cache.Keys;
    NoDupCard(c.order);
  }

  lemma {:induction false} NoDupCard(s: seq<string>)
    requires NoDup(s)
    ensures |set k | k in s| == |s|
  {
    if |s| > 0 {
      NoDupCard(s[1..]);
      assert (set k | k in s) == {s[0]} + set k | k in s[1..];
    }
  }

  /** `subscribe`: set the socket up, then start a heartbeat unless a handle is already stored. */
  function Subscribe(m: Manager, id: string, now: int): (r: Manager)
    requires Valid(m)
    ensures Valid(r) && r.sockets == SetSocket(m, id, now).sockets
    ensures r.heartbeat == if m.heartbeat == NoHeartbeat then Active else m.heartbeat
    ensures SocketOptions(r) == SocketOptions(m)
  {
    var m := SetSocket(m, id, now);
    m.(heartbeat := if m.heartbeat == NoHeartbeat then Active else m.heartbeat)
  }

  /** A manager call's final state and the message of the error it rejects with, if any. */
  datatype Call = Call(m: Manager, thrown: Option<string>)

  /**
   * `unsubscribe`: look the socket up (which stamps the id as used), reject
   * when there is none, otherwise close it; clear the heartbeat only if the
   * collection is then empty.
   */
  function Unsubscribe(m: Manager, id: string, now: int): (r: Call)
    requires Valid(m)
    ensures Valid(r.m)
    ensures r.thrown.Some? <==> id !in m.sockets.cache
    ensures r.thrown.Some? ==> r.thrown.value == NoSocketMessage
    ensures r.m.sockets.order == m.sockets.order && r.m.sockets.cache.Keys == m.sockets.cache.Keys
    ensures r.m.heartbeat == m.heartbeat && SocketOptions(r.m) == SocketOptions(m)
    ensures SameConfig(r.m.sockets, m.sockets) && r.m.sockets.timer == m.sockets.timer
    ensures id in m.sockets.cache ==> r.m.sockets.cache[id] == Sockets.CloseSocket(m.sockets.cache[id])
    ensures forall k | k in m.sockets.cache && k != id :: r.m.sockets.cache[k] == m.sockets.cache[k]
    ensures r.m.sockets.lastUsed == m.sockets.lastUsed[id := now]
  {
    var (sockets, found) := Get(m.sockets, id, now);
    match found
    case None => Call(m.(sockets := sockets), Some(NoSocketMessage))
    case Some(socket) =>
      var sockets := Replace(sockets, id, Sockets.CloseSocket(socket));
      var heartbeat := if Size(sockets) == 0 && m.heartbeat != NoHeartbeat then Cleared else m.heartbeat;
      Call(m.(sockets := sockets, heartbeat := heartbeat), None)
  }

  /** Every socket in the collection, closed; `map` reads no timestamps. */
  function CloseAll(c: Collection<string, Sockets.Socket>): (r: Collection<string, Sockets.Socket>)
    requires forall k | k in c.cache :: Sockets.Connected(c.cache[k])
    ensures r.order == c.order && r.lastUsed == c.lastUsed && r.cache.Keys == c.cache.Keys && SameConfig(r, c) && r.timer == c.timer
    ensures forall k | k in c.cache :: r.cache[k] == Sockets.CloseSocket(c.cache[k])
  {
    c.(cache := map k | k in c.cache :: Sockets.CloseSocket(c.cache[k]))
  }

  /** The deletes `unsubscribeAll` queues, run in order, with every error they throw. */
  function DeleteEach(c: Collection<string, Sockets.Socket>, keys: seq<string>): (r: (Collection<string, Sockets.Socket>, seq<CollectionError>))
    requires Collections.Valid(c)
    ensures Collections.Valid(r.0) && SameConfig(r.0, c)
    ensures forall k | k in r.0.cache :: k in c.cache && k !in keys && r.0.cache[k] == c.cache[k]
    ensures c.timer == NotCreated ==> r.0.timer == NotCreated
    decreases |keys|
  {
    if |keys| == 0 then (c, [])
    else
      var step := Delete(c, keys[0]);
      var rest := DeleteEach(step.c, keys[1..]);
      (rest.0, (if step.out.Err? then [step.out.error] else []) + rest.1)
  }

  /** The outcome of `unsubscribeAll`, with the errors its deletes throw. */
  datatype Teardown = Teardown(m: Manager, closed: map<string, Sockets.Socket>, rejections: seq<CollectionError>)

  /** `unsubscribeAll`: close every socket, clear a stored heartbeat, and delete every entry. */
  function UnsubscribeAll(m: Manager): (r: Teardown)
    requires Valid(m)
    ensures Valid(r.m) && Size(r.m.sockets) == 0
    ensures r.m.heartbeat == if m.heartbeat == NoHeartbeat then NoHeartbeat else Cleared
    ensures SocketOptions(r.m) == SocketOptions(m) && SameConfig(r.m.sockets, m.sockets)
    ensures r.closed.Keys == m.sockets.cache.Keys
    ensures forall k | k in m.sockets.cache :: r.closed[k] == Sockets.CloseSocket(m.sockets.cache[k])
    ensures r.rejections == if Size(m.sockets) > 0 then [TimerNotCreated] else []
  {
    var closed := CloseAll(m.sockets);
    var heartbeat := if m.heartbeat != NoHeartbeat then Cleared else NoHeartbeat;
    var (sockets, errors) := DeleteEach(closed, closed.order);
    DeleteAllOnce(closed);
    Teardown(m.(sockets := sockets, heartbeat := heartbeat), closed.cache, errors)
  }

  /**
   * Deleting every key of a collection whose timer was never created, in
   * insertion order, empties it; only the last delete throws.
   */
  lemma {:induction false} DeleteAllOnce(c: Collection<string, Sockets.Socket>)
    requires Collections.Valid(c) && c.timer == NotCreated
    ensures var r := DeleteEach(c, c.order);
      Size(r.0) == 0 && r.1 == if |c.order| > 0 then [TimerNotCreated] else []
    decreases |c.order|
  {
    if |c.order| > 0 {
      var step := Delete(c, c.order[0]);
      assert step.c.order == c.order[1..];
      DeleteAllOnce(step.c);
    }
  }

  /**
   * A heartbeat handle, once stored, is never reset: after `unsubscribeAll`
   * has cleared it, a new subscription finds it set and starts none.
   */
  lemma ClearedHeartbeatNeverRestarts(m: Manager, id: string, now: int)
    requires Valid(m) && m.heartbeat != NoHeartbeat
    ensures Subscribe(UnsubscribeAll(m).m, id, now).heartbeat == Cleared
  {
  }

  /**
   * The manager's own options outlive its sockets: subscribing again after
   * `unsubscribe` or `unsubscribeAll` builds the socket from the options the
   * manager was constructed with.
   */
  lemma ResubscribeUsesOriginalOptions(m: Manager, id: string, now: int, later: int)
    requires Valid(m)
    ensures Subscribe(UnsubscribeAll(m).m, id, later).sockets.cache[id] == FreshSocket(m, id)
    ensures Subscribe(Unsubscribe(m, id, now).m, id, later).sockets.cache[id] == FreshSocket(m, id)
  {
  }

  // ---------------------------------------------------------------------
  // The heartbeat and the pings. `Socket` defines no `ping`, so calling
  // `socket?.ping()` on a stored socket throws a TypeError.

  /** One tick of the heartbeat: the state afterwards and the TypeError it rejects with, if any. */
  datatype Tick = Tick(m: Manager, rejected: Option<TypeError>)

  /**
   * `_heartbeat`: the loop reads the first key with `get`, which stamps it,
   * and then rejects on the missing `ping`; with no socket it does nothing.
   */
  function HeartbeatTick(m: Manager, now: int): (r: Tick)
    requires Valid(m)
    ensures Valid(r.m)
    ensures r.rejected.Some? <==> Size(m.sockets) > 0
    ensures r.m.sockets.order == m.sockets.order && r.m.sockets.cache == m.sockets.cache
    ensures r.m.heartbeat == m.heartbeat && r.m.sockets.timer == m.sockets.timer
    ensures Size(m.sockets) > 0 ==> r.m.sockets.lastUsed == m.sockets.lastUsed[m.sockets.order[0] := now]
    ensures Size(m.sockets) == 0 ==> r.m == m
    ensures r.m == m.(sockets := m.sockets.(lastUsed := r.m.sockets.lastUsed))
  {
    if |m.sockets.order| == 0 then Tick(m, None)
    else
      var (sockets, _) := Get(m.sockets, m.sockets.order[0], now);
      Tick(m.(sockets := sockets), Some(TypeError))
  }

  /** What `getSocketPings` and `pingAvg` come to: `null`, or a promise that never settles. */
  datatype Pings = ResolvesNull | NeverSettles(rejectedCallbacks: nat)

  /**
   * `getSocketPings`: `null` with no socket; otherwise every `forEach`
   * callback rejects on the missing `ping` before it can count, so the
   * promise is never resolved.
   */
  function GetSocketPings(m: Manager): (r: Pings)
    requires Valid(m)
    ensures r.ResolvesNull? <==> Size(m.sockets) == 0
    ensures r.NeverSettles? ==> r.rejectedCallbacks == Size(m.sockets)
  {
    if Size(m.sockets) == 0 then ResolvesNull else NeverSettles(Size(m.sockets))
  }

  /** `pingAvg`: `null` when `getSocketPings` gives `null`; otherwise it waits forever on it. */
  function PingAvg(m: Manager): (r: Pings)
    requires Valid(m)
    ensures r.ResolvesNull? <==> Size(m.sockets) == 0
  {
    GetSocketPings(m)
  }

  /**
   * Once a socket is subscribed, every heartbeat tick rejects and neither
   * `getSocketPings` nor `pingAvg` ever settles.
   */
  lemma PingsFailOnceSubscribed(m: Manager, id: string, now: int, t: int)
    requires Valid(m)
    ensures var s := Subscribe(m, id, now);
      && HeartbeatTick(s, t).rejected == Some(TypeError)
      && GetSocketPings(s).NeverSettles? && PingAvg(s).NeverSettles?
  {
    var s := Subscribe(m, id, now);
    assert id in s.sockets.cache;
    SizeIsKeys(s.sockets);
    assert |s.sockets.cache.Keys| > 0;
  }

  /**
   * Every socket the constructor opens has a first transport that reconnects,
   * whatever `autoReconnect` option was given, and a second one that never does.
   */
  lemma ConstructedSocketsReconnect(o: ManagerOptions, now: int, k: string, code: int)
    requires k in New(o, now).sockets.cache
    ensures var socket := New(o, now).sockets.cache[k];
      && |socket.transports| == 2
      && (Sockets.Reconnects(socket.transports[0], code) <==> code != Sockets.SuccessCloseCode)
      && !Sockets.Reconnects(socket.transports[1], code)
  {
  }

  // ---------------------------------------------------------------------
  // `_onMessage`

  /** What the client publishes; every payload carries the subscribed id, except that a presence's own `id` wins. */
  datatype EventPayload =
    | BannerUpdate(id: string, url: Option<string>)
    | Presence(fields: map<string, Value>)
    | ProfileUpdate(id: string, newProfile: Payload, oldProfile: Option<Payload>)
    | TotalViewing(id: string, count: Value)
    | Unknown(id: string, event: string, data: Value)

  datatype ClientEvent = ClientEvent(name: string, payload: EventPayload)

  datatype Caches = Caches(profiles: Option<Collection<string, Profile>>, presences: Option<Collection<string, Value>>)

  predicate ValidCaches(c: Caches) {
    ValidCache(c.profiles) && ValidCache(c.presences)
  }

  /** What `_onMessage` can throw: reading a malformed frame, reading the profile, or a cache write. */
  datatype MessageError = Frame(TypeError) | Decode(DecodeError) | Cache(CollectionError)

  /** The caches afterwards, the event published (if it got that far), and the error thrown, if any. */
  datatype Delivery = Delivery(caches: Caches, emitted: Option<ClientEvent>, thrown: Option<MessageError>)

  /** `v[i]` on a parsed value. */
  function Index(v: Value, i: nat): (r: Result<Value, TypeError>)
    ensures r.Err? <==> v == Undefined || v == Null
    ensures v.Arr? ==> r == Ok(if i < |v.items| then v.items[i] else Undefined)
  {
    match v
    case Arr(items) => Ok(if i < |items| then items[i] else Undefined)
    case Str(s) => Ok(if i < |s| then Str([s[i]]) else Undefined)
    case _ => Member(v, Show(i, 10))
  }

  /** `data[0]` and `data[1]`; the name must be a string, since `toLowerCase` is called on it. */
  function ReadFrame(data: Value): Result<(string, Value), TypeError> {
    var name :- Index(data, 0);
    // the second read fails only where the first already has
    var payload := Index(data, 1).value;
    if name.Str? then Ok((name.s, payload)) else Err(TypeError)
  }

  /** The published name of a handled event. */
  function EmitName(name: string): string {
    Util.SnakeToCamelCase(Lower(name))
  }

  /** The banner URL for a subscription, when the payload says the user has a banner. */
  function BannerFor(id: string, hasBanner: Value): (r: Option<string>)
    ensures r.Some? <==> Truthy(hasBanner)
  {
    if Truthy(hasBanner) then Some(ReplaceFirst(BannerUrl, BannerUrlParam, id)) else None
  }

  function WithBanner(p: Profile, url: Option<string>): Profile {
    p.(payload := p.payload.(user := p.payload.user.(details := p.payload.user.details.(banner := url))))
  }

  function OnBannerUpdate(caches: Caches, id: string, hasBanner: Value, now: int): (r: Delivery)
    requires ValidCaches(caches)
    ensures ValidCaches(r.caches)
  {
    var url := BannerFor(id, hasBanner);
    var event := ClientEvent(EmitName(BannerUpdateEvent), BannerUpdate(id, url));
    var (profiles, cached) := GetIn(caches.profiles, id, now);
    if cached.None? then Delivery(caches.(profiles := profiles), Some(event), None)
    else
      var (profiles, failed) := SetIn(profiles, id, WithBanner(cached.value, url), now);
      Delivery(caches.(profiles := profiles), Some(event), if failed.Some? then Some(Cache(failed.value)) else None)
  }

  function OnPresence(caches: Caches, id: string, data: Value, now: int): (r: Delivery)
    requires ValidCaches(caches)
    ensures ValidCaches(r.caches)
  {
    var event := ClientEvent(EmitName(PresenceEvent), Presence(map["id" := Str(id)] + Spread(data)));
    var (presences, failed) := SetIn(caches.presences, id, data, now);
    Delivery(caches.(presences := presences), Some(event), if failed.Some? then Some(Cache(failed.value)) else None)
  }

  function OnProfileUpdate(caches: Caches, id: string, data: Value, now: int, parseDate: string -> Num): (r: Delivery)
    requires ValidCaches(caches)
    ensures ValidCaches(r.caches)
  {
    var (profiles, before) := GetIn(caches.profiles, id, now);
    var oldProfile := if before.Some? then Some(before.value.payload) else None;
    match DecodeProfileUpdate(data, parseDate)
    case Err(e) => Delivery(caches.(profiles := profiles), None, Some(Decode(e)))
    case Ok((newUser, discord)) =>
      var event := ClientEvent(EmitName(ProfileUpdateEvent), ProfileUpdate(id, Payload(newUser, Some(discord)), oldProfile));
      var (profiles, cached) := GetIn(profiles, id, now);
      if cached.None? then
        var (profiles, failed) := SetIn(profiles, id, Profile(Payload(newUser, None)), now);
        Delivery(caches.(profiles := profiles), Some(event), if failed.Some? then Some(Cache(failed.value)) else None)
      else
        var patched := cached.value.(payload := cached.value.payload.(user := newUser));
        Delivery(caches.(profiles := Some(Replace(profiles.value, id, patched))), Some(event), None)
  }

  /** `_onMessage` for a socket subscribed to `id`. */
  function OnMessage(caches: Caches, id: string, data: Value, now: int, parseDate: string -> Num): (r: Delivery)
    requires ValidCaches(caches)
    ensures ValidCaches(r.caches)
  {
    match ReadFrame(data)
    case Err(e) => Delivery(caches, None, Some(Frame(e)))
    case Ok((name, payload)) =>
      if name == BannerUpdateEvent then OnBannerUpdate(caches, id, payload, now)
      else if name == PresenceEvent then OnPresence(caches, id, payload, now)
      else if name == ProfileUpdateEvent then OnProfileUpdate(caches, id, payload, now, parseDate)
      else if name == TotalViewingEvent then
        Delivery(caches, Some(ClientEvent(EmitName(name), TotalViewing(id, payload))), None)
      else Delivery(caches, Some(ClientEvent(name, Unknown(id, name, payload))), None)
  }

  // ---------------------------------------------------------------------
  // A transport event, through the socket, to the client

  /** What can go wrong: the socket's handler throws, an `error` nobody listens for, or `_onMessage` throws. */
  datatype Failure = SocketThrew(message: string) | Unhandled(err: Value) | Message(error: MessageError)

  /** The socket afterwards, the caches afterwards, what the client published, and what was thrown. */
  datatype Dispatch = Dispatch(s: Sockets.Socket, caches: Caches, emitted: Option<ClientEvent>, thrown: Option<Failure>)

  /**
   * An event on transport `g` of socket `s`. The handlers close over the
   * socket object, not over the manager's collection, so this holds for a
   * socket whether or not it is still stored. The socket handles the event;
   * a raw event goes to `_onMessage` with the socket's own `subscribedTo`; an
   * `error` event, for which no listener is ever installed, is thrown by the
   * emitter; `close` and `open` reach no listener.
   */
  function Deliver(s: Sockets.Socket, caches: Caches, g: nat, ev: Sockets.TransportEvent, now: int,
                   parseJson: string -> Option<Value>, parseDate: string -> Num): (r: Dispatch)
    requires ValidCaches(caches) && g < |s.transports|
    ensures ValidCaches(r.caches)
    ensures r.s.subscribedTo == s.subscribedTo && |r.s.transports| >= |s.transports|
  {
    var out := Sockets.Handle(s, g, ev, parseJson);
    if out.thrown.Some? then Dispatch(out.s, caches, None, Some(SocketThrew(out.thrown.value)))
    else if |out.emitted| == 1 && out.emitted[0].Raw? then
      var d := OnMessage(caches, s.subscribedTo, out.emitted[0].event, now, parseDate);
      Dispatch(out.s, d.caches, d.emitted, if d.thrown.Some? then Some(Message(d.thrown.value)) else None)
    else if |out.emitted| == 1 && out.emitted[0].Errored? then
      Dispatch(out.s, caches, None, Some(Unhandled(out.emitted[0].err)))
    else Dispatch(out.s, caches, None, None)
  }

  // ---------------------------------------------------------------------
  // Properties of `_onMessage`

  /** A two-item array whose first item is a string is read as (name, payload); `null` and a non-string name throw. */
  lemma FrameRule(name: string, payload: Value, data: Value)
    ensures ReadFrame(Arr([Str(name), payload])) == Ok((name, payload))
    ensures data == Null || data == Undefined ==> ReadFrame(data) == Err(TypeError)
    ensures data.Arr? && |data.items| > 0 && !data.items[0].Str? ==> ReadFrame(data) == Err(TypeError)
  {
  }

  /** The four handled names are published camel-cased. */
  lemma HandledNames()
    ensures EmitName(BannerUpdateEvent) == "bannerUpdate"
    ensures EmitName(PresenceEvent) == "presence"
    ensures EmitName(ProfileUpdateEvent) == "profileUpdate"
    ensures EmitName(TotalViewingEvent) == "totalViewing"
  {
    Util.BannerUpdateName();
    Util.PresenceName();
    Util.ProfileUpdateName();
    Util.TotalViewingName();
  }

  /** Any other name is published as received, with the id, the name and the payload, and no cache is touched. */
  lemma UnknownEventPassesThrough(caches: Caches, id: string, data: Value, now: int, parseDate: string -> Num)
    requires ValidCaches(caches)
    requires ReadFrame(data).Ok? && !Handled(ReadFrame(data).value.0)
    ensures var (name, payload) := ReadFrame(data).value;
      OnMessage(caches, id, data, now, parseDate) == Delivery(caches, Some(ClientEvent(name, Unknown(id, name, payload))), None)
  {
  }

  /** TOTAL_VIEWING publishes the id and the payload as the count, and no cache is touched. */
  lemma TotalViewingRule(caches: Caches, id: string, data: Value, now: int, parseDate: string -> Num)
    requires ValidCaches(caches)
    requires ReadFrame(data).Ok? && ReadFrame(data).value.0 == TotalViewingEvent
    ensures OnMessage(caches, id, data, now, parseDate)
      == Delivery(caches, Some(ClientEvent("totalViewing", TotalViewing(id, ReadFrame(data).value.1))), None)
  {
    HandledNames();
  }

  /** For an id without `$`, the banner URL is the template's prefix followed by the id. */
  lemma BannerUrlOfId(id: string)
    requires '$' !in id
    ensures BannerFor(id, Bool(true)) == Some(BannerScheme + BannerPath + id)
  {
    forall j | 0 <= j < |BannerScheme + BannerPath| ensures !OccursAt(BannerScheme + BannerPath + BannerUrlParam, BannerUrlParam, j) {
      NoParamBefore(j);
    }
    ReplaceAtEnd(BannerScheme + BannerPath, BannerUrlParam, id);
  }

  /** The placeholder does not start anywhere in the scheme or the path. */
  lemma NoParamBefore(j: nat)
    requires j < |BannerScheme + BannerPath|
    ensures !OccursAt(BannerUrl, BannerUrlParam, j)
  {
    PieceFacts();
    var u := BannerScheme + BannerPath + BannerUrlParam;
    assert BannerUrl == u;
    if j < 5 {
      assert u[j] == BannerScheme[j];
    } else if j == 5 {
      assert u[j + 1] == BannerPath[0];
    } else {
      assert u[j] == BannerPath[j - 6];
    }
  }

  lemma PieceFacts()
    ensures |BannerScheme| == 6 && forall i :: 0 <= i < 5 ==> BannerScheme[i] != ':'
    ensures |BannerPath| > 0 && BannerPath[0] == '/' && ':' !in BannerPath
  {
  }

  /**
   * BANNER_UPDATE publishes the id and the URL (null for a falsy payload).
   * A cached profile gets the URL as its banner and is stored again; without
   * one the profile entries stay as they were. Presences are not touched.
   */
  lemma BannerUpdateRule(caches: Caches, id: string, data: Value, now: int, parseDate: string -> Num)
    requires ValidCaches(caches)
    requires ReadFrame(data).Ok? && ReadFrame(data).value.0 == BannerUpdateEvent
    ensures var payload := ReadFrame(data).value.1;
      var r := OnMessage(caches, id, data, now, parseDate);
      && r.emitted == Some(ClientEvent("bannerUpdate", BannerUpdate(id, BannerFor(id, payload))))
      && r.caches.presences == caches.presences
      && (r.caches.profiles.None? <==> caches.profiles.None?)
      && (caches.profiles.Some? && id !in caches.profiles.value.cache ==>
            r.thrown.None? && r.caches.profiles.value.order == caches.profiles.value.order
            && r.caches.profiles.value.cache == caches.profiles.value.cache)
      && (caches.profiles.Some? && id in caches.profiles.value.cache && r.thrown.None? ==>
            r.caches.profiles.value.cache[id] == WithBanner(caches.profiles.value.cache[id], BannerFor(id, payload)))
  {
    HandledNames();
  }

  /**
   * PRESENCE publishes the payload's fields with the subscribed id, which a
   * payload field `id` overrides, and stores the raw payload in the presence
   * cache when there is one. Profiles are not touched.
   */
  lemma PresenceRule(caches: Caches, id: string, data: Value, now: int, parseDate: string -> Num)
    requires ValidCaches(caches)
    requires ReadFrame(data).Ok? && ReadFrame(data).value.0 == PresenceEvent
    ensures var payload := ReadFrame(data).value.1;
      var r := OnMessage(caches, id, data, now, parseDate);
      && r.emitted.Some? && r.emitted.value.name == "presence" && r.emitted.value.payload.Presence?
      && var fields := r.emitted.value.payload.fields;
      && (forall k | k in Spread(payload) :: k in fields && fields[k] == Spread(payload)[k])
      && "id" in fields && (fields["id"] == Str(id) || "id" in Spread(payload))
      && fields.Keys == Spread(payload).Keys + {"id"}
      && r.caches.profiles == caches.profiles
      && (caches.presences.Some? && r.thrown.None? ==>
            id in r.caches.presences.value.cache && r.caches.presences.value.cache[id] == payload)
  {
    HandledNames();
  }

  /**
   * PROFILE_UPDATE publishes the decoded profile and, as `oldProfile`, the
   * payload cached before the event (or null). On a miss the cache gains the
   * new user with a null Discord user; on a hit only the user part is
   * replaced and the cached Discord user is kept.
   */
  lemma ProfileUpdateRule(caches: Caches, id: string, data: Value, now: int, parseDate: string -> Num)
    requires ValidCaches(caches) && caches.profiles.Some?
    requires ReadFrame(data).Ok? && ReadFrame(data).value.0 == ProfileUpdateEvent
    requires DecodeProfileUpdate(ReadFrame(data).value.1, parseDate).Ok?
    ensures var (newUser, discord) := DecodeProfileUpdate(ReadFrame(data).value.1, parseDate).value;
      var before := caches.profiles.value.cache;
      var r := OnMessage(caches, id, data, now, parseDate);
      var after := r.caches.profiles.value.cache;
      && r.emitted == Some(ClientEvent("profileUpdate", ProfileUpdate(id, Payload(newUser, Some(discord)),
                                       if id in before then Some(before[id].payload) else None)))
      && r.caches.presences == caches.presences
      && (id !in before && r.thrown.None? ==> after[id] == Profile(Payload(newUser, None)))
      && (id in before ==> r.thrown.None? && after[id] == Profile(Payload(newUser, before[id].payload.discord)))
      && (id in before ==> r.caches.profiles.value.order == caches.profiles.value.order)
  {
    HandledNames();
  }

  /** A payload that cannot be read publishes nothing; only the cache read before decoding has happened. */
  lemma BadProfileUpdatePublishesNothing(caches: Caches, id: string, data: Value, now: int, parseDate: string -> Num)
    requires ValidCaches(caches)
    requires ReadFrame(data).Ok? && ReadFrame(data).value.0 == ProfileUpdateEvent
    requires DecodeProfileUpdate(ReadFrame(data).value.1, parseDate).Err?
    ensures var r := OnMessage(caches, id, data, now, parseDate);
      && r.emitted.None? && r.thrown == Some(Decode(DecodeProfileUpdate(ReadFrame(data).value.1, parseDate).error))
      && r.caches == caches.(profiles := GetIn(caches.profiles, id, now).0)
  {
  }

  /**
   * A parsable text frame reaches `_onMessage` exactly once, under the
   * socket's own id; an `error` event is thrown for want of a listener; a
   * close touches no cache and publishes nothing.
   */
  lemma DeliverRule(s: Sockets.Socket, caches: Caches, g: nat, ev: Sockets.TransportEvent, now: int,
                    parseJson: string -> Option<Value>, parseDate: string -> Num)
    requires ValidCaches(caches) && g < |s.transports|
    ensures var r := Deliver(s, caches, g, ev, now, parseJson, parseDate);
      && (ev.Message? && ev.data.Text? && parseJson(ev.data.text).Some? ==>
            var d := OnMessage(caches, s.subscribedTo, parseJson(ev.data.text).value, now, parseDate);
            r.caches == d.caches && r.emitted == d.emitted && (r.thrown.Some? <==> d.thrown.Some?))
      && (ev.Error? ==> r.thrown == Some(Unhandled(ev.err)) && r.caches == caches)
      && (ev.Close? ==> r.caches == caches && r.emitted.None? && r.thrown.None?)
  {
  }

  /**
   * `unsubscribeAll` removes every socket, but `close()` sends its frame on a
   * socket's current transport only: a socket set up by the constructor keeps
   * its first transport unclosed, and a message arriving there still reaches
   * `_onMessage` under the removed id.
   */
  lemma RemovedSocketStillDelivers(o: ManagerOptions, now: int, k: string, caches: Caches, text: string,
                                   t: int, parseJson: string -> Option<Value>, parseDate: string -> Num)
    requires k in New(o, now).sockets.cache && ValidCaches(caches) && parseJson(text).Some?
    ensures var torn := UnsubscribeAll(New(o, now));
      var s := torn.closed[k];
      && k !in torn.m.sockets.cache
      && |s.transports| == 2 && s.transports[0].closeSent.None?
      && s.transports[1].closeSent == Some((Sockets.SuccessCloseCode, Sockets.ClientCloseReason))
      && Deliver(s, caches, 0, Sockets.Message(Sockets.Text(text)), t, parseJson, parseDate).caches
           == OnMessage(caches, k, parseJson(text).value, t, parseDate).caches
  {
    var m := New(o, now);
    var torn := UnsubscribeAll(m);
    SizeIsKeys(torn.m.sockets);
    assert m.sockets.cache[k] == FreshSocket(m, k);
    DeliverRule(torn.closed[k], caches, 0, Sockets.Message(Sockets.Text(text)), t, parseJson, parseDate);
  }
}

=== FILE: numeral.dfy ===
/**
 * Positional numerals: how `BigInt(...)` reads decimal and `0x` hexadecimal
 * text, how `toString(radix)` writes a natural number, and the subset of
 * `parseInt` the rate-limit headers go through.
 */
module Numeral {
  import opened Wrappers

  type Radix = b: nat | 2 <= b <= 16 witness 10

  const DigitChars: string := "0123456789abcdef"

  /** The value of `c` as a digit of any radix up to 16, either case. */
  function DigitValue(c: char): (d: Option<nat>)
    ensures d.Some? ==> d.value < 16
  {
    if '0' <= c <= '9' then Some(c as int - '0' as int)
    else if 'a' <= c <= 'f' then Some(c as int - 'a' as int + 10)
    else if 'A' <= c <= 'F' then Some(c as int - 'A' as int + 10)
    else None
  }

  predicate IsDigit(c: char, radix: Radix) {
    DigitValue(c).Some? && DigitValue(c).value < radix
  }

  predicate AllDigits(s: string, radix: Radix) {
    forall i :: 0 <= i < |s| ==> IsDigit(s[i], radix)
  }

  /** The shape `toString(radix)` produces: lower-case digits, no leading zero. */
  predicate Canonical(s: string, radix: Radix) {
    && |s| >= 1
    && (forall i :: 0 <= i < |s| ==> IsDigit(s[i], radix) && !('A' <= s[i] <= 'F'))
    && (|s| == 1 || s[0] != '0')
  }

  /** The value of a digit string, most significant digit first; "" reads as 0. */
  function Parse(s: string, radix: Radix): nat
    requires AllDigits(s, radix)
  {
    if |s| == 0 then 0
    else Parse(s[..|s| - 1], radix) * radix + DigitValue(s[|s| - 1]).value
  }

  /** `n.toString(radix)`. */
  function Show(n: nat, radix: Radix): (s: string)
    decreases n
  {
    if n < radix then [DigitChars[n]]
    else Show(n / radix, radix) + [DigitChars[n % radix]]
  }

  lemma DigitCharValue(d: nat, radix: Radix)
    requires d < radix
    ensures IsDigit(DigitChars[d], radix) && DigitValue(DigitChars[d]).value == d
    ensures !('A' <= DigitChars[d] <= 'F')
    ensures DigitChars[d] == '0' <==> d == 0
  {
  }

  lemma LowerDigitChar(c: char, radix: Radix)
    requires IsDigit(c, radix) && !('A' <= c <= 'F')
    ensures DigitChars[DigitValue(c).value] == c
    ensures DigitValue(c).value == 0 <==> c == '0'
  {
  }

  lemma DivMod(q: nat, d: nat, radix: Radix)
    requires d < radix
    ensures (q * radix + d) / radix == q && (q * radix + d) % radix == d
    ensures q >= 1 ==> q * radix + d >= radix
  {
    var n := q * radix + d;
    var a, b := n / radix, n % radix;
    assert n == a * radix + b && 0 <= b < radix;
    assert (a - q) * radix == d - b;
    if a > q {
      MulAtLeast(a - q, radix);
    } else if a < q {
      MulAtLeast(q - a, radix);
    }
    if q >= 1 {
      MulAtLeast(q, radix);
    }
  }

  lemma MulAtLeast(k: int, radix: Radix)
    requires k >= 1
    ensures k * radix >= radix
  {
  }

  /** Appending a digit multiplies the value by the radix and adds the digit. */
  lemma ParseSnoc(p: string, c: char, radix: Radix)
    requires AllDigits(p, radix) && IsDigit(c, radix)
    ensures AllDigits(p + [c], radix)
    ensures Parse(p + [c], radix) == Parse(p, radix) * radix + DigitValue(c).value
  {
    var s := p + [c];
    assert s[..|s| - 1] == p;
  }

  lemma Euclid(n: nat, radix: Radix)
    ensures n == (n / radix) * radix + n % radix && n % radix < radix
    ensures n >= radix ==> 1 <= n / radix < n
  {
  }

  /** Appending a digit to a numeral without a leading zero keeps it canonical. */
  lemma CanonicalSnoc(p: string, c: char, radix: Radix)
    requires Canonical(p, radix) && p[0] != '0'
    requires IsDigit(c, radix) && !('A' <= c <= 'F')
    ensures Canonical(p + [c], radix) && (p + [c])[0] == p[0]
  {
  }

  /** `Show` writes a canonical numeral that `Parse` reads back as the same number. */
  lemma {:induction false} ShowParse(n: nat, radix: Radix)
    ensures Canonical(Show(n, radix), radix)
    ensures AllDigits(Show(n, radix), radix) && Parse(Show(n, radix), radix) == n
    ensures n > 0 ==> Show(n, radix)[0] != '0'
    decreases n
  {
    if n < radix {
      var c := DigitChars[n];
      DigitCharValue(n, radix);
      assert Show(n, radix) == [] + [c];
      ParseSnoc([], c, radix);
    } else {
      Euclid(n, radix);
      var q := n / radix;
      var d := n % radix;
      var p := Show(q, radix);
      var c := DigitChars[d];
      ShowParse(q, radix);
      DigitCharValue(d, radix);
      assert Show(n, radix) == p + [c];
      ParseSnoc(p, c, radix);
      CanonicalSnoc(p, c, radix);
    }
  }

  /** A digit string whose first digit is not 0 reads as a positive number. */
  lemma {:induction false} LeadingNonZero(s: string, radix: Radix)
    requires AllDigits(s, radix) && |s| >= 1 && DigitValue(s[0]).value != 0
    ensures Parse(s, radix) >= 1
    decreases |s|
  {
    var p := s[..|s| - 1];
    var d := DigitValue(s[|s| - 1]).value;
    assert Parse(s, radix) == Parse(p, radix) * radix + d;
    if |s| == 1 {
      assert Parse(p, radix) == 0;
    } else {
      assert p[0] == s[0];
      LeadingNonZero(p, radix);
      MulAtLeast(Parse(p, radix), radix);
    }
  }

  /** A canonical numeral survives `Parse` followed by `Show` unchanged. */
  lemma {:induction false} ParseShow(s: string, radix: Radix)
    requires Canonical(s, radix)
    ensures AllDigits(s, radix) && Show(Parse(s, radix), radix) == s
    decreases |s|
  {
    if |s| == 1 {
      ParseShowSingle(s, radix);
    } else {
      ParseShowLonger(s, radix);
    }
  }

  /** A single lower-case digit reads as its value and is written back as itself. */
  lemma ParseShowSingle(s: string, radix: Radix)
    requires Canonical(s, radix) && |s| == 1
    ensures AllDigits(s, radix) && Show(Parse(s, radix), radix) == s
  {
    var d := DigitValue(s[0]).value;
    LowerDigitChar(s[0], radix);
    assert s[..0] == [];
    assert Parse(s, radix) == 0 * radix + d;
    assert Show(d, radix) == [DigitChars[d]];
  }

  /** The inductive step of `ParseShow`: strip the last digit, write the rest, append the digit again. */
  lemma {:induction false} ParseShowLonger(s: string, radix: Radix)
    requires Canonical(s, radix) && |s| >= 2
    ensures AllDigits(s, radix) && Show(Parse(s, radix), radix) == s
    decreases |s|, 0
  {
    var last := s[|s| - 1];
    var d := DigitValue(last).value;
    LowerDigitChar(last, radix);
    var p := s[..|s| - 1];
    assert s == p + [last];
    assert Canonical(p, radix) by {
      assert forall i :: 0 <= i < |p| ==> p[i] == s[i];
    }
    ParseShow(p, radix);
    LowerDigitChar(s[0], radix);
    assert p[0] == s[0];
    LeadingNonZero(p, radix);
    ParseSnoc(p, last, radix);
    ShowSnoc(Parse(s, radix), Parse(p, radix), d, radix);
  }

  /** Writing `q * radix + d` for a positive `q` is writing `q` and then the digit `d`. */
  lemma ShowSnoc(n: nat, q: nat, d: nat, radix: Radix)
    requires q >= 1 && d < radix && n == q * radix + d
    ensures Show(n, radix) == Show(q, radix) + [DigitChars[d]]
  {
    DivMod(q, d, radix);
  }

  lemma CanonicalRoundTrip(s: string, radix: Radix)
    requires AllDigits(s, radix)
    ensures Canonical(s, radix) ==> Show(Parse(s, radix), radix) == s
  {
    if Canonical(s, radix) {
      ParseShow(s, radix);
    }
  }

  datatype ParseError = SyntaxError

  /**
   * `BigInt(s)` on decimal text: a string of decimal digits, the empty string
   * reading as 0; anything else raises a SyntaxError.
   */
  function BigIntDecimal(s: string): (r: Result<nat, ParseError>)
    ensures r.Ok? <==> AllDigits(s, 10)
    ensures r.Ok? && Canonical(s, 10) ==> Show(r.value, 10) == s
  {
    if AllDigits(s, 10) then
      CanonicalRoundTrip(s, 10);
      Ok(Parse(s, 10))
    else Err(SyntaxError)
  }

  /**
   * `BigInt("0x" + h)`: `h` must be a non-empty run of hexadecimal digits of
   * either case, anything else raises a SyntaxError.
   */
  function BigIntHex(h: string): (r: Result<nat, ParseError>)
    ensures r.Ok? <==> |h| >= 1 && AllDigits(h, 16)
    ensures r.Ok? && Canonical(h, 16) ==> Show(r.value, 16) == h
  {
    if |h| >= 1 && AllDigits(h, 16) then
      CanonicalRoundTrip(h, 16);
      Ok(Parse(h, 16))
    else Err(SyntaxError)
  }

  /** An integer as a template literal renders it. */
  function IntText(i: int): (s: string)
    ensures |s| >= 1
  {
    if i < 0 then "-" + Show(-i, 10) else Show(i, 10)
  }

  /** A JavaScript number as the library sees one: an integer or NaN. */
  datatype Num = Int(i: int) | NaN

  predicate IsAsciiSpace(c: char) {
    c == ' ' || c == '\t' || c == '\n' || c == '\r' || c == '\U{000B}' || c == '\U{000C}'
  }

  /** The longest prefix of `s` made of digits of `radix`. */
  function DigitRun(s: string, radix: Radix): (run: string)
    ensures |run| <= |s| && run == s[..|run|] && AllDigits(run, radix)
    ensures |run| < |s| ==> !IsDigit(s[|run|], radix)
  {
    if |s| > 0 && IsDigit(s[0], radix) then
      var rest := DigitRun(s[1..], radix);
      assert [s[0]] + rest == s[..|rest| + 1];
      [s[0]] + rest
    else ""
  }

  function TrimStart(s: string): (t: string)
    ensures |t| <= |s| && t == s[|s| - |t|..]
    ensures |t| > 0 ==> !IsAsciiSpace(t[0])
  {
    if |s| > 0 && IsAsciiSpace(s[0]) then TrimStart(s[1..]) else s
  }

  /** The digits after an optional sign: a `0x`/`0X` prefix selects hexadecimal. */
  function ParseMagnitude(u: string): (r: Option<nat>)
  {
    if |u| >= 2 && u[0] == '0' && (u[1] == 'x' || u[1] == 'X') then
      var run := DigitRun(u[2..], 16);
      if |run| == 0 then None else Some(Parse(run, 16))
    else
      var run := DigitRun(u, 10);
      if |run| == 0 then None else Some(Parse(run, 10))
  }

  /**
   * `parseInt(s)` without a radix: leading white space and one sign are
   * skipped, a `0x`/`0X` prefix selects hexadecimal, and the longest run of
   * digits is read; no digits at all gives NaN.
   */
  function ParseInt(s: string): (r: Num)
  {
    var t := TrimStart(s);
    var signed := |t| > 0 && (t[0] == '-' || t[0] == '+');
    match ParseMagnitude(if signed then t[1..] else t)
    case None => NaN
    case Some(m) => Int(if signed && t[0] == '-' then -(m as int) else m)
  }

  lemma ParseMagnitudeDecimal(u: string)
    requires !(|u| >= 2 && u[0] == '0' && (u[1] == 'x' || u[1] == 'X'))
    ensures ParseMagnitude(u) == (if |DigitRun(u, 10)| == 0 then None else Some(Parse(DigitRun(u, 10), 10)))
  {
  }

  lemma ParseMagnitudeDigits(s: string)
    requires |s| >= 1 && AllDigits(s, 10)
    ensures ParseMagnitude(s) == Some(Parse(s, 10))
  {
    assert |s| >= 2 ==> IsDigit(s[1], 10);
    ParseMagnitudeDecimal(s);
    DigitRunAll(s, 10);
  }

  lemma ParseIntUnsigned(s: string, m: nat)
    requires |s| >= 1 && '0' <= s[0] <= '9'
    requires TrimStart(s) == s
    requires ParseMagnitude(s) == Some(m)
    ensures ParseInt(s) == Int(m)
  {
    assert TrimStart(s) == s;
    assert !(s[0] == '-' || s[0] == '+');
    assert ParseInt(s) == match ParseMagnitude(s) case None => NaN case Some(m) => Int(m);
  }

  /** `parseInt` reads a non-empty string of decimal digits as the number it denotes. */
  lemma ParseIntDigits(s: string)
    requires |s| >= 1 && AllDigits(s, 10)
    ensures ParseInt(s) == Int(Parse(s, 10))
  {
    assert IsDigit(s[0], 10);
    assert '0' <= s[0] <= '9' && !IsAsciiSpace(s[0]);
    assert TrimStart(s) == s;
    ParseMagnitudeDigits(s);
    ParseIntUnsigned(s, Parse(s, 10));
  }

  /** `parseInt` reads a canonical decimal numeral back as the number it denotes. */
  lemma ParseIntShow(n: nat)
    ensures ParseInt(Show(n, 10)) == Int(n)
  {
    ShowParse(n, 10);
    ParseIntDigits(Show(n, 10));
  }

  /** `parseInt` reads the rendering of any integer, negative ones included, back as that integer. */
  lemma ParseIntText(i: int)
    ensures ParseInt(IntText(i)) == Int(i)
  {
    if i >= 0 {
      ParseIntShow(i);
    } else {
      var d := Show(-i, 10);
      ShowParse(-i, 10);
      ParseMagnitudeDigits(d);
      ParseIntNegative(d, -i);
      assert IntText(i) == "-" + d;
    }
  }

  lemma ParseIntNegative(d: string, m: nat)
    requires ParseMagnitude(d) == Some(m)
    ensures ParseInt("-" + d) == Int(-(m as int))
  {
    var s := "-" + d;
    assert s[0] == '-' && !IsAsciiSpace(s[0]);
    assert TrimStart(s) == s;
    assert s[1..] == d;
  }

  lemma {:induction false} DigitRunAll(s: string, radix: Radix)
    requires AllDigits(s, radix)
    ensures DigitRun(s, radix) == s
    decreases |s|
  {
    if |s| > 0 {
      DigitRunAll(s[1..], radix);
    }
  }
}

=== FILE: profiles.dfy ===
/**
 * The profile records the gateway and the REST client cache
 * (`Details.Response` in src/rest/types.ts), and how a PROFILE_UPDATE
 * payload is read into them: `new Details.Details(...)` over
 * `user.details` and `new IDiscordUser(...)` over `discord`.
 *
 * Fields are read as the declared types of src/structures/userdetails.ts and
 * src/structures/discorduser.ts; a field of any other type is reported as
 * `Malformed` rather than carried along as JavaScript would.
 */
module Profiles {
  import opened Wrappers
  import opened Numeral
  import opened Values
  import DiscordUser
  import UserDetails

  /** `payload.user`: the details object and the two connection lists, kept as received. */
  datatype ProfileUser = ProfileUser(details: UserDetails.Details, userConnections: Value, discordConnections: Value)

  datatype Payload = Payload(user: ProfileUser, discord: Option<DiscordUser.User>)

  /** A cached profile, `{payload}`. */
  datatype Profile = Profile(payload: Payload)

  datatype DecodeError = Type(TypeError) | Parse(ParseError) | Malformed

  function Field(v: Value, name: string): Result<Value, DecodeError> {
    match Member(v, name)
    case Ok(f) => Ok(f)
    case Err(e) => Err(Type(e))
  }

  function AsString(v: Value): Result<string, DecodeError> {
    if v.Str? then Ok(v.s) else Err(Malformed)
  }

  function AsNullableString(v: Value): Result<Option<string>, DecodeError> {
    match v
    case Null => Ok(None)
    case Str(s) => Ok(Some(s))
    case _ => Err(Malformed)
  }

  function AsNumber(v: Value): Result<int, DecodeError> {
    if v.Number? then Ok(v.n) else Err(Malformed)
  }

  function AsNullableNumber(v: Value): Result<Option<int>, DecodeError> {
    match v
    case Null => Ok(None)
    case Number(n) => Ok(Some(n))
    case _ => Err(Malformed)
  }

  function StringField(v: Value, name: string): Result<string, DecodeError> {
    var f :- Field(v, name);
    AsString(f)
  }

  function NullableStringField(v: Value, name: string): Result<Option<string>, DecodeError> {
    var f :- Field(v, name);
    AsNullableString(f)
  }

  function NumberField(v: Value, name: string): Result<int, DecodeError> {
    var f :- Field(v, name);
    AsNumber(f)
  }

  function NullableNumberField(v: Value, name: string): Result<Option<int>, DecodeError> {
    var f :- Field(v, name);
    AsNullableNumber(f)
  }

  /** A flag is whatever the field's truthiness says, as in `if (options.verified)`. */
  function FlagField(v: Value, name: string): Result<bool, DecodeError> {
    var f :- Field(v, name);
    Ok(Truthy(f))
  }

  /** The options `IUserDetails` reads. */
  function DecodeDetailsOptions(v: Value): Result<UserDetails.DetailsOptions, DecodeError> {
    var slug :- StringField(v, "slug");
    var userId :- StringField(v, "user_id");
    var verified :- FlagField(v, "verified");
    var createdAt :- NullableStringField(v, "created_at");
    var description :- NullableStringField(v, "description");
    var location :- NullableStringField(v, "location");
    var gender :- NullableNumberField(v, "gender");
    var birthday :- NullableStringField(v, "birthday");
    var email :- NullableStringField(v, "email");
    var occupation :- NullableStringField(v, "occupation");
    var banner :- NullableStringField(v, "banner");
    var premium :- FlagField(v, "premium");
    var staff :- FlagField(v, "staff");
    var likes :- NumberField(v, "likes");
    Ok(UserDetails.DetailsOptions(slug, userId, verified, createdAt, description, location, gender,
                                  birthday, email, occupation, banner, premium, staff, likes))
  }

  /** The options `IDiscordUser` reads. */
  function DecodeUserOptions(v: Value): Result<DiscordUser.UserOptions, DecodeError> {
    var id :- StringField(v, "id");
    var username :- StringField(v, "username");
    var discriminator :- StringField(v, "discriminator");
    var flags :- NumberField(v, "public_flags");
    var avatar :- NullableStringField(v, "avatar");
    Ok(DiscordUser.UserOptions(id, username, discriminator, flags, avatar))
  }

  function NullableString(s: Option<string>): Value {
    match s
    case None => Null
    case Some(t) => Str(t)
  }

  function NullableNumber(n: Option<int>): Value {
    match n
    case None => Null
    case Some(m) => Number(m)
  }

  /** The wire form of the details options. */
  function EncodeDetailsOptions(o: UserDetails.DetailsOptions): Value {
    Obj(map[
      "slug" := Str(o.slug), "user_id" := Str(o.userId), "verified" := Bool(o.verified),
      "created_at" := NullableString(o.createdAt), "description" := NullableString(o.description),
      "location" := NullableString(o.location), "gender" := NullableNumber(o.gender),
      "birthday" := NullableString(o.birthday), "email" := NullableString(o.email),
      "occupation" := NullableString(o.occupation), "banner" := NullableString(o.banner),
      "premium" := Bool(o.premium), "staff" := Bool(o.staff), "likes" := Number(o.likes)])
  }

  /** The wire form of the user options. */
  function EncodeUserOptions(o: DiscordUser.UserOptions): Value {
    Obj(map[
      "id" := Str(o.id), "username" := Str(o.username), "discriminator" := Str(o.discriminator),
      "public_flags" := Number(o.publicFlags), "avatar" := NullableString(o.avatar)])
  }

  /** Decoding reads back whatever options were encoded. */
  lemma DetailsOptionsRoundTrip(o: UserDetails.DetailsOptions)
    ensures DecodeDetailsOptions(EncodeDetailsOptions(o)) == Ok(o)
  {
    EncodedIdentity(o);
    EncodedAbout(o);
    EncodedContact(o);
    EncodedStanding(o);
  }

  lemma EncodedIdentity(o: UserDetails.DetailsOptions)
    ensures var v := EncodeDetailsOptions(o);
      && StringField(v, "slug") == Ok(o.slug) && StringField(v, "user_id") == Ok(o.userId)
      && FlagField(v, "verified") == Ok(o.verified)
      && NullableStringField(v, "created_at") == Ok(o.createdAt)
  {
  }

  lemma EncodedAbout(o: UserDetails.DetailsOptions)
    ensures var v := EncodeDetailsOptions(o);
      && NullableStringField(v, "description") == Ok(o.description)
      && NullableStringField(v, "location") == Ok(o.location)
      && NullableNumberField(v, "gender") == Ok(o.gender)
      && NullableStringField(v, "birthday") == Ok(o.birthday)
  {
  }

  lemma EncodedContact(o: UserDetails.DetailsOptions)
    ensures var v := EncodeDetailsOptions(o);
      && NullableStringField(v, "email") == Ok(o.email)
      && NullableStringField(v, "occupation") == Ok(o.occupation)
      && NullableStringField(v, "banner") == Ok(o.banner)
  {
  }

  lemma EncodedStanding(o: UserDetails.DetailsOptions)
    ensures var v := EncodeDetailsOptions(o);
      && FlagField(v, "premium") == Ok(o.premium) && FlagField(v, "staff") == Ok(o.staff)
      && NumberField(v, "likes") == Ok(o.likes)
  {
  }

  lemma UserOptionsRoundTrip(o: DiscordUser.UserOptions)
    ensures DecodeUserOptions(EncodeUserOptions(o)) == Ok(o)
  {
  }

  function Lift<T>(r: Result<T, ParseError>): Result<T, DecodeError> {
    match r
    case Ok(v) => Ok(v)
    case Err(e) => Err(Parse(e))
  }

  /**
   * The PROFILE_UPDATE payload read into the new user (details, user
   * connections, Discord connections, in that order) and the Discord user.
   * Reading a property of a `null` or missing part throws a TypeError.
   */
  function DecodeProfileUpdate(data: Value, parseDate: string -> Num): (r: Result<(ProfileUser, DiscordUser.User), DecodeError>)
    ensures r.Ok? ==> data.Obj? && "user" in data.fields && "discord" in data.fields
  {
    var user :- Field(data, "user");
    var details :- Field(user, "details");
    var options :- DecodeDetailsOptions(details);
    var details :- Lift(UserDetails.New(options, parseDate));
    var userConnections :- Field(user, "userConnections");
    var discordConnections :- Field(user, "discordConnections");
    var discord :- Field(data, "discord");
    var discordOptions :- DecodeUserOptions(discord);
    var discord :- Lift(DiscordUser.New(discordOptions));
    Ok((ProfileUser(details, userConnections, discordConnections), discord))
  }

  /** A payload whose `discord` part is `null` cannot be read, whatever its user part. */
  lemma NullDiscordThrows(data: Value, parseDate: string -> Num)
    requires data.Obj? && "discord" in data.fields && data.fields["discord"] == Null
    ensures DecodeProfileUpdate(data, parseDate).Err?
  {
  }
}

=== FILE: restclient.dfy ===
/**
 * The REST client of src/rest/restclient.ts: the rate-limit header
 * bookkeeping, the classification of a response into a value or an error,
 * and the cache-first user lookup. The network is a parameter: `request`
 * takes the response it would have received, and the lookup takes the
 * function that performs the request and reshapes its result.
 */
module Rest {
  import opened Wrappers
  import opened Numeral
  import opened Values
  import opened Errors
  import opened Routes
  import opened Collections

  /** The most recently seen rate-limit headers; all start out `null`. */
  datatype RatelimitHeaders = RatelimitHeaders(reset: Option<Num>, remaining: Option<Num>, limit: Option<Num>)

  const NoHeaders: RatelimitHeaders := RatelimitHeaders(None, None, None)

  /** The headers the update visits, in order: the reset header is listed twice and the limit header never. */
  const UpdatedHeaderNames: seq<string> := [HeaderReset, HeaderRemaining, HeaderReset]

  /** The stored entry for a header name. */
  function Stored(h: RatelimitHeaders, name: string): Option<Num> {
    if name == HeaderReset then h.reset
    else if name == HeaderRemaining then h.remaining
    else if name == HeaderLimit then h.limit
    else None
  }

  /** What one header does to its stored entry: a non-empty value is parsed and stored, else nothing changes. */
  function Refresh(prev: Option<Num>, response: HttpResponse, name: string): Option<Num> {
    match HeaderGet(response, name)
    case Some(v) => if v != "" then Some(ParseInt(v)) else prev
    case None => prev
  }

  /** The effect of one update, entry by entry. */
  function Refreshed(h: RatelimitHeaders, response: HttpResponse): RatelimitHeaders {
    RatelimitHeaders(Refresh(h.reset, response, HeaderReset), Refresh(h.remaining, response, HeaderRemaining), h.limit)
  }

  /** Store `v` under one of the three header names. */
  function Write(h: RatelimitHeaders, name: string, v: Num): (r: RatelimitHeaders)
    ensures Stored(r, name) == Some(v) || (name != HeaderReset && name != HeaderRemaining && name != HeaderLimit)
  {
    if name == HeaderReset then h.(reset := Some(v))
    else if name == HeaderRemaining then h.(remaining := Some(v))
    else if name == HeaderLimit then h.(limit := Some(v))
    else h
  }

  lemma HeaderNamesDistinct()
    ensures HeaderReset != HeaderRemaining && HeaderReset != HeaderLimit && HeaderRemaining != HeaderLimit
  {
    assert HeaderReset[14] == 's' && HeaderRemaining[14] == 'm';
    assert HeaderLimit[12] == 'l' && HeaderReset[12] == 'r' && HeaderRemaining[12] == 'r';
  }

  /**
   * `updateRatelimitHeaders`: visit the listed names and store the integer
   * parse of each non-empty header. Reset and remaining follow the response,
   * and the limit entry is never written.
   */
  method UpdateRatelimitHeaders(stored: RatelimitHeaders, response: HttpResponse) returns (r: RatelimitHeaders)
    ensures r == Refreshed(stored, response)
    ensures r.limit == stored.limit
  {
    HeaderNamesDistinct();
    r := stored;
    var k := 0;
    while k < |UpdatedHeaderNames|
      invariant 0 <= k <= |UpdatedHeaderNames|
      invariant r.limit == stored.limit
      invariant r.remaining == if k >= 2 then Refresh(stored.remaining, response, HeaderRemaining) else stored.remaining
      invariant r.reset == if k >= 1 then Refresh(stored.reset, response, HeaderReset) else stored.reset
    {
      var name := UpdatedHeaderNames[k];
      var value := HeaderGet(response, name);
      if value.Some? && value.value != "" {
        r := Write(r, name, ParseInt(value.value));
      }
      k := k + 1;
    }
  }

  /** Updating twice with the same response is updating once. */
  lemma RefreshIdempotent(h: RatelimitHeaders, response: HttpResponse)
    ensures Refreshed(Refreshed(h, response), response) == Refreshed(h, response)
  {
  }

  /** However many responses arrive, the limit entry keeps its initial `null`. */
  lemma {:induction false} LimitStaysNull(responses: seq<HttpResponse>)
    ensures AfterAll(NoHeaders, responses).limit.None?
    decreases |responses|
  {
    if |responses| > 0 {
      LimitStaysNull(responses[..|responses| - 1]);
    }
  }

  function AfterAll(h: RatelimitHeaders, responses: seq<HttpResponse>): RatelimitHeaders
    decreases |responses|
  {
    if |responses| == 0 then h else Refreshed(AfterAll(h, responses[..|responses| - 1]), responses[|responses| - 1])
  }

  /** A response carrying both headers as decimal numerals leaves exactly those numbers stored. */
  lemma RefreshReadsNumerals(h: RatelimitHeaders, response: HttpResponse, reset: nat, remaining: nat)
    requires HeaderReset in response.headers && response.headers[HeaderReset] == Show(reset, 10)
    requires HeaderRemaining in response.headers && response.headers[HeaderRemaining] == Show(remaining, 10)
    ensures Refreshed(h, response) == RatelimitHeaders(Some(Int(reset)), Some(Int(remaining)), h.limit)
  {
    RefreshReadsNumeral(h.reset, response, HeaderReset, reset);
    RefreshReadsNumeral(h.remaining, response, HeaderRemaining, remaining);
  }

  lemma RefreshReadsNumeral(prev: Option<Num>, response: HttpResponse, name: string, n: nat)
    requires name in response.headers && response.headers[name] == Show(n, 10)
    ensures Refresh(prev, response, name) == Some(Int(n))
  {
    ShowParse(n, 10);
    ParseIntShow(n);
  }

  // ---------------------------------------------------------------------
  // Requests

  /** What a request can throw. */
  datatype RequestFailure = Api(error: ApiError) | Type(TypeError)

  /** The body as the library keeps it: parsed JSON, or the raw text when the parse fails. */
  function ReadBody(text: string, parseJson: string -> Option<Value>): (v: Value)
    ensures parseJson(text).None? ==> v == Str(text)
    ensures parseJson(text).Some? ==> v == parseJson(text).value
  {
    match parseJson(text)
    case Some(j) => j
    case None => Str(text)
  }

  /** `json.message || json`, which throws on a `null` body. */
  function ThrowValue(json: Value): (r: Result<Value, TypeError>)
    ensures r.Err? <==> json == Null || json == Undefined
    ensures r.Ok? && json.Obj? && "message" in json.fields && Truthy(json.fields["message"]) ==> r.value == json.fields["message"]
    ensures r.Ok? && !(json.Obj? && "message" in json.fields && Truthy(json.fields["message"])) ==> r.value == json
  {
    var message :- Member(json, "message");
    Ok(Or(message, json))
  }

  /**
   * `request(path)` once the response has arrived: the headers are updated
   * first; status 200 returns the body, 429 throws a `RatelimitError`, and
   * any other status throws a `DiscordBioError`, each carrying the body's
   * `message` when it is truthy and otherwise the body itself.
   */
  function Request(stored: RatelimitHeaders, path: string, response: HttpResponse,
                   parseJson: string -> Option<Value>): (r: (RatelimitHeaders, Result<Value, RequestFailure>))
    ensures r.0 == Refreshed(stored, response)
    ensures response.status == SuccessStatusCode ==> r.1 == Ok(ReadBody(response.body, parseJson))
    ensures response.status != SuccessStatusCode && ThrowValue(ReadBody(response.body, parseJson)).Ok? ==>
      r.1.Err? && r.1.error.Api? &&
      r.1.error.error.message == ErrorMessage(ThrowValue(ReadBody(response.body, parseJson)).value) &&
      r.1.error.error.request == HttpRequest(path) && r.1.error.error.response == response &&
      (r.1.error.error.kind == Ratelimit <==> response.status == RatelimitStatusCode)
    ensures response.status != SuccessStatusCode && ThrowValue(ReadBody(response.body, parseJson)).Err? ==>
      r.1 == Err(Type(TypeError))
  {
    var json := ReadBody(response.body, parseJson);
    var request := HttpRequest(path);
    var result :=
      if response.status != SuccessStatusCode && response.status != RatelimitStatusCode then
        match ThrowValue(json)
        case Err(e) => Err(Type(e))
        case Ok(text) => Err(Api(NewDiscordBioError(text, request, response)))
      else if response.status == RatelimitStatusCode then
        match ThrowValue(json)
        case Err(e) => Err(Type(e))
        case Ok(text) => Err(Api(NewRatelimitError(text, request, response).value))
      else Ok(json);
    (Refreshed(stored, response), result)
  }

  /** Every error `request` throws reports the response's own status. */
  lemma RequestErrorStatus(stored: RatelimitHeaders, path: string, response: HttpResponse, parseJson: string -> Option<Value>)
    ensures var r := Request(stored, path, response, parseJson).1;
      r.Err? && r.error.Api? ==> StatusCode(r.error.error) == response.status != SuccessStatusCode
  {
  }

  /**
   * An error body without a truthy `message` becomes the message in its
   * string form: `{}` gives `[object Object]` and a number its digits.
   */
  lemma ErrorBodyMessage(stored: RatelimitHeaders, path: string, response: HttpResponse, parseJson: string -> Option<Value>)
    requires response.status != SuccessStatusCode
    requires parseJson(response.body) == Some(Obj(map[])) || (parseJson(response.body).Some? && parseJson(response.body).value.Number?)
    ensures var r := Request(stored, path, response, parseJson).1;
      && r.Err? && r.error.Api?
      && (parseJson(response.body) == Some(Obj(map[])) ==> r.error.error.message == "[object Object]")
      && (parseJson(response.body).value.Number? ==> ParseInt(r.error.error.message) == Int(parseJson(response.body).value.n))
  {
    ToTextRoundTrips(parseJson(response.body).value);
  }

  /** A body that is not JSON is not an error by itself: with status 200 its text is returned. */
  lemma RawBodyReturned(stored: RatelimitHeaders, path: string, response: HttpResponse, parseJson: string -> Option<Value>)
    requires response.status == SuccessStatusCode && parseJson(response.body).None?
    ensures Request(stored, path, response, parseJson).1 == Ok(Str(response.body))
  {
  }

  // ---------------------------------------------------------------------
  // The cache-first lookup

  datatype FetchFailure<E> = RequestFailed(error: E) | CacheFailed(CollectionError)

  /** The profile cache afterwards, the path requested (if any), and the outcome. */
  datatype Fetched<V(!new), E> = Fetched(
    cache: Option<Collection<string, V>>,
    requested: Option<string>,
    result: Result<V, FetchFailure<E>>)

  /**
   * `fetchUserDetails(query)`. A cached entry (every cached response object
   * is truthy) is returned without a request; both reads stamp the key.
   * Otherwise the details path for the query is requested through `fetch`,
   * and a successful result is stored under the query when a cache exists.
   * `now` is the clock at the call and `later` when the response arrives.
   */
  function FetchUserDetails<V(!new), E>(cache: Option<Collection<string, V>>, version: string, query: string,
                                        fetch: string -> Result<V, E>, now: int, later: int): (r: Fetched<V, E>)
    requires ValidCache(cache)
    ensures ValidCache(r.cache)
    ensures r.cache.None? <==> cache.None?
    ensures cache.Some? && query in cache.value.cache ==>
      r.requested.None? && r.result == Ok(cache.value.cache[query]) &&
      r.cache.value.order == cache.value.order && r.cache.value.cache == cache.value.cache
    ensures (cache.None? || query !in cache.value.cache) ==>
      r.requested == Some(ConstructPath(version, DetailsEndpoint, [(DetailsParamName(), query)]))
    ensures r.requested.Some? && fetch(r.requested.value).Err? ==> r.result == Err(RequestFailed(fetch(r.requested.value).error))
    ensures r.requested.Some? && fetch(r.requested.value).Ok? && cache.None? ==> r.result == Ok(fetch(r.requested.value).value)
    ensures r.requested.Some? && r.result.Ok? && cache.Some? ==>
      r.result.value == fetch(r.requested.value).value &&
      query in r.cache.value.cache && r.cache.value.cache[query] == r.result.value
    ensures r.requested.Some? && fetch(r.requested.value).Ok? && cache.Some? ==>
      var stored := Set(Get(cache.value, query, now).0, query, fetch(r.requested.value).value, later);
      && r.cache == Some(stored.c)
      && (r.result.Err? <==> stored.out.Err?)
      && (stored.out.Err? ==> r.result == Err(CacheFailed(stored.out.error)))
  {
    var (read, hit) := match cache
      case None => (None, None)
      case Some(c) => var g := Get(c, query, now); (Some(g.0), g.1);
    if hit.Some? then
      var again := Get(read.value, query, now);
      Fetched(Some(again.0), None, Ok(again.1.value))
    else
      var path := ConstructPath(version, DetailsEndpoint, [(DetailsParamName(), query)]);
      match fetch(path)
      case Err(e) => Fetched(read, Some(path), Err(RequestFailed(e)))
      case Ok(v) =>
        match read
        case None => Fetched(None, Some(path), Ok(v))
        case Some(c) =>
          var s := Set(c, query, v, later);
          if s.out.Err? then Fetched(Some(s.c), Some(path), Err(CacheFailed(s.out.error)))
          else Fetched(Some(s.c), Some(path), Ok(v))
  }

  /**
   * Below the cache's limit the store cannot fail: a miss whose request
   * succeeds returns the fetched value and leaves it cached under the query.
   */
  lemma MissStoredBelowLimit<V(!new), E>(cache: Option<Collection<string, V>>, version: string, query: string,
                                         fetch: string -> Result<V, E>, now: int, later: int)
    requires ValidCache(cache) && cache.Some? && query !in cache.value.cache && !AtLimit(cache.value)
    requires fetch(ConstructPath(version, DetailsEndpoint, [(DetailsParamName(), query)])).Ok?
    ensures var path := ConstructPath(version, DetailsEndpoint, [(DetailsParamName(), query)]);
      var r := FetchUserDetails(cache, version, query, fetch, now, later);
      && r.requested == Some(path)
      && r.result == Ok(fetch(path).value)
      && query in r.cache.value.cache && r.cache.value.cache[query] == fetch(path).value
  {
    var read := Get(cache.value, query, now).0;
    assert read.order == cache.value.order && read.limit == cache.value.limit;
    assert !AtLimit(read);
  }

  /** After a successful lookup that stored its result, the same lookup is answered from the cache. */
  lemma SecondFetchHits<V(!new), E>(cache: Option<Collection<string, V>>, version: string, query: string,
                                    fetch: string -> Result<V, E>, now: int, later: int, t: int, t2: int)
    requires ValidCache(cache) && cache.Some?
    requires FetchUserDetails(cache, version, query, fetch, now, later).result.Ok?
    ensures var first := FetchUserDetails(cache, version, query, fetch, now, later);
      var second := FetchUserDetails(first.cache, version, query, fetch, t, t2);
      second.requested.None? && second.result == first.result
  {
  }
}

=== FILE: routes.dfy ===
/**
 * Request paths: `constructPath` in src/rest/restclient.ts and its copy in
 * src/client.ts, over the constants of src/rest/routes.ts. The API version
 * segment is not part of the routes file the model follows, so it is a
 * parameter.
 */
module Routes {
  import opened Wrappers
  import opened Strings

  const BaseUrl: string := "api.discord.bio"
  const ParamIndicator: char := ':'
  const DetailsEndpoint: string := "/user/details/:input"
  const TopLikesEndpoint: string := "/topLikes"

  /** The placeholder a parameter named `name` fills. */
  function Placeholder(name: string): string {
    [ParamIndicator] + name
  }

  /** Each parameter in turn replaces the first occurrence of its placeholder in the path so far. */
  function ApplyParams(path: string, params: seq<(string, string)>): (r: string)
    ensures |params| == 0 ==> r == path
    decreases |params|
  {
    if |params| == 0 then path
    else ApplyParams(ReplaceFirst(path, Placeholder(params[0].0), params[0].1), params[1..])
  }

  /**
   * `constructPath(endpoint, params)`: base URL, version and endpoint, then
   * the parameters in key order. Missing `params` is the empty list.
   */
  function ConstructPath(version: string, endpoint: string, params: seq<(string, string)>): (r: string)
    ensures |params| == 0 ==> r == BaseUrl + version + endpoint
  {
    ApplyParams(BaseUrl + version + endpoint, params)
  }

  /** The name of the placeholder in the details endpoint: what follows its `:`. */
  function DetailsParamName(): (name: string)
    ensures name == "input"
  {
    SplitAtIndicator();
    Split(DetailsEndpoint, ParamIndicator)[1]
  }

  lemma SplitAtIndicator()
    ensures |Split(DetailsEndpoint, ParamIndicator)| >= 2 && Split(DetailsEndpoint, ParamIndicator)[1] == "input"
  {
    var s := DetailsEndpoint;
    assert OccursAt(s, [':'], 14);
    assert forall j :: 0 <= j < 14 ==> s[j] != ':';
    assert forall j :: 0 <= j < 14 ==> !OccursAt(s, [':'], j) by {
      forall j | 0 <= j < 14 ensures !OccursAt(s, [':'], j) {
        assert s[j..j + 1][0] == s[j];
      }
    }
    IndexOfFirst(s, [':']);
    assert IndexOf(s, [':']) == Some(14) by {
      if IndexOf(s, [':']).value < 14 {
      } else if IndexOf(s, [':']).value > 14 {
      }
    }
    assert s[15..] == "input";
    var rest := s[15..];
    assert forall j :: 0 <= j < |rest| ==> !OccursAt(rest, [':'], j) by {
      forall j | 0 <= j < |rest| ensures !OccursAt(rest, [':'], j) {
        assert rest[j..j + 1][0] == rest[j];
      }
    }
    IndexOfFirst(rest, [':']);
  }

  /** One parameter whose value has no `$`: only its placeholder's first occurrence is replaced, verbatim. */
  lemma OneParamReplacesFirst(path: string, name: string, value: string, i: nat)
    requires '$' !in value
    requires OccursAt(path, Placeholder(name), i)
    requires forall j :: 0 <= j < i ==> !OccursAt(path, Placeholder(name), j)
    ensures ApplyParams(path, [(name, value)]) == path[..i] + value + path[i + |Placeholder(name)|..]
  {
    var p := Placeholder(name);
    var params := [(name, value)];
    assert params[1..] == [];
    assert ApplyParams(path, params) == ReplaceFirst(path, p, value);
    ReplaceFirstSplits(path, p, value);
  }

  /** A parameter whose placeholder does not occur leaves the path unchanged. */
  lemma AbsentParamKeeps(path: string, name: string, value: string)
    requires forall j: nat :: !OccursAt(path, Placeholder(name), j)
    ensures ApplyParams(path, [(name, value)]) == path
  {
    IndexOfFirst(path, Placeholder(name));
  }

  /**
   * The details path for a query: the query, when it has no `$`, takes the
   * place of `:input`, provided the version segment has no `:` of its own.
   */
  lemma DetailsPath(version: string, query: string)
    requires ':' !in version && '$' !in query
    ensures ConstructPath(version, DetailsEndpoint, [(DetailsParamName(), query)]) ==
      BaseUrl + version + "/user/details/" + query
  {
    var prefix := BaseUrl + version + "/user/details/";
    var path := BaseUrl + version + DetailsEndpoint;
    assert ':' !in prefix by {
      assert ':' !in BaseUrl && ':' !in "/user/details/";
    }
    assert path == prefix + ":input";
    var i := |prefix|;
    assert path[i..i + 6] == ":input";
    forall j | 0 <= j < i ensures !OccursAt(path, Placeholder("input"), j) {
      assert path[j] == prefix[j];
      assert path[j..j + 6][0] == path[j];
    }
    OneParamReplacesFirst(path, "input", query, i);
    assert path[..i] == prefix;
    assert path[i + 6..] == "";
  }
}

=== FILE: socket.dfy ===
/**
 * `Socket` (src/gateway/socket.ts): one subscription's connection to the
 * gateway, as a state machine over abstract transports.
 *
 * Every `connect` opens a fresh transport and installs handlers that close
 * over the two arguments it was given; older transports keep their handlers,
 * so an event names the transport (by its position) it came from. What a
 * handler does is returned as the events the socket emits, in order, and the
 * error it throws, if any. `JSON.parse` is a parameter.
 */
module Sockets {
  import opened Wrappers
  import opened Values
  import Routes

  /** The close code `close()` sends and the one that never triggers a reconnect. */
  const SuccessCloseCode: int := 1000

  const ClientCloseReason: string := "WebSocket connection closed by client"

  const NonJsonPrefix: string := "Non-JSON data returned from socket subscribed to ID: "

  const InvalidJsonPrefix: string := "Invalid JSON returned from socket subscribed to ID: "

  /**
   * One `ws` connection: the URL and options it was opened with, the two
   * arguments its handlers closed over, and the close frame sent on it.
   */
  datatype Transport = Transport(
    url: string,
    wsOptions: map<string, Value>,
    autoReconnect: bool,
    options: Value,
    closeSent: Option<(int, string)>)

  /** `SocketOptions`: the manager passes `autoReconnect` through, truthy or not. */
  datatype SocketOptions = SocketOptions(autoReconnect: Value, connectionTimeout: Value, webSocketOptions: Value)

  /** A socket: the id it is subscribed to and every transport it has opened, the current one last. */
  datatype Socket = Socket(subscribedTo: string, transports: seq<Transport>)

  predicate Connected(s: Socket) {
    |s.transports| > 0
  }

  /** What arrives from a transport; `Binary` stands for every non-string payload. */
  datatype Data = Text(text: string) | Binary(bytes: seq<bv8>)

  datatype TransportEvent = Close(code: int, reason: string) | Error(err: Value) | Message(data: Data) | Open

  /** What the socket emits. */
  datatype Emitted = Closed(code: int, reason: string) | Errored(err: Value) | Raw(event: Value) | Opened

  /** The state after a handler, what it emitted, and the message of the error it threw. */
  datatype Outcome = Outcome(s: Socket, emitted: seq<Emitted>, thrown: Option<string>)

  /** `connect`: open a new transport with `{...options, headers: {}}` and install its handlers. */
  function Connect(s: Socket, autoReconnect: bool, options: Value): (r: Socket)
    ensures r.subscribedTo == s.subscribedTo && Connected(r)
    ensures |r.transports| == |s.transports| + 1 && r.transports[..|s.transports|] == s.transports
    ensures var t := r.transports[|s.transports|];
      t.url == Routes.BaseUrl && t.autoReconnect == autoReconnect && t.options == options && t.closeSent == None
      && "headers" in t.wsOptions && t.wsOptions["headers"] == Obj(map[])
      && t.wsOptions.Keys == Spread(options).Keys + {"headers"}
      && forall k :: k in Spread(options) && k != "headers" ==> k in t.wsOptions && t.wsOptions[k] == Spread(options)[k]
  {
    var t := Transport(Routes.BaseUrl, Spread(options)["headers" := Obj(map[])], autoReconnect, options, None);
    Socket(s.subscribedTo, s.transports + [t])
  }

  /** The constructor: store the id and connect once with the given options. */
  function New(subscribe: string, o: SocketOptions): (r: Socket)
    ensures r.subscribedTo == subscribe && |r.transports| == 1
    ensures r.transports[0].autoReconnect == Truthy(o.autoReconnect) && r.transports[0].options == o.webSocketOptions
  {
    Connect(Socket(subscribe, []), Truthy(o.autoReconnect), o.webSocketOptions)
  }

  /** `close()`: send code 1000 on the current transport. */
  function CloseSocket(s: Socket): (r: Socket)
    requires Connected(s)
    ensures Connected(r) && r.subscribedTo == s.subscribedTo && |r.transports| == |s.transports|
    ensures r.transports[|r.transports| - 1].closeSent == Some((SuccessCloseCode, ClientCloseReason))
    ensures forall i :: 0 <= i < |s.transports| - 1 ==> r.transports[i] == s.transports[i]
    ensures var n := |s.transports| - 1;
      && r.transports[n].url == s.transports[n].url && r.transports[n].wsOptions == s.transports[n].wsOptions
      && r.transports[n].autoReconnect == s.transports[n].autoReconnect && r.transports[n].options == s.transports[n].options
  {
    var n := |s.transports| - 1;
    s.(transports := s.transports[n := s.transports[n].(closeSent := Some((SuccessCloseCode, ClientCloseReason)))])
  }

  /** The close handler's rule: reconnect when the handler's flag is set and the code is not 1000. */
  predicate Reconnects(t: Transport, code: int) {
    t.autoReconnect && code != SuccessCloseCode
  }

  /** The handlers installed for transport `g`, run on one event. */
  function Handle(s: Socket, g: nat, ev: TransportEvent, parseJson: string -> Option<Value>): (r: Outcome)
    requires g < |s.transports|
    ensures r.s.subscribedTo == s.subscribedTo && |r.s.transports| >= |s.transports|
  {
    var t := s.transports[g];
    match ev
    case Close(code, reason) =>
      var s' := if Reconnects(t, code) then Connect(s, t.autoReconnect, t.options) else s;
      Outcome(s', [Closed(code, reason)], None)
    case Error(err) => Outcome(s, [Errored(err)], None)
    case Message(Binary(_)) => Outcome(s, [], Some(NonJsonPrefix + s.subscribedTo))
    case Message(Text(text)) =>
      (match parseJson(text)
       case None => Outcome(s, [], Some(InvalidJsonPrefix + s.subscribedTo))
       case Some(v) => Outcome(s, [Raw(v)], None))
    case Open => Outcome(s, [Opened], None)
  }

  /**
   * A close is re-emitted first and unchanged; a new transport, with the
   * closing transport's own flag and options, is opened exactly when that
   * flag is set and the code is not 1000. Nothing else changes.
   */
  lemma CloseRule(s: Socket, g: nat, code: int, reason: string, parseJson: string -> Option<Value>)
    requires g < |s.transports|
    ensures var r := Handle(s, g, Close(code, reason), parseJson);
      && r.emitted == [Closed(code, reason)] && r.thrown == None
      && r.s.subscribedTo == s.subscribedTo
      && r.s.transports[..|s.transports|] == s.transports
      && (|r.s.transports| == |s.transports| + 1 <==> s.transports[g].autoReconnect && code != SuccessCloseCode)
      && (|r.s.transports| > |s.transports| ==>
            var t := r.s.transports[|s.transports|];
            t.autoReconnect == s.transports[g].autoReconnect && t.options == s.transports[g].options && t.closeSent == None)
  {
  }

  /** The close frame `close()` sends carries code 1000, which never makes any handler reconnect. */
  lemma ClientCloseNeverReconnects(s: Socket, g: nat, parseJson: string -> Option<Value>)
    requires Connected(s) && g < |s.transports|
    ensures var c := CloseSocket(s);
      var sent := c.transports[|c.transports| - 1].closeSent.value;
      Handle(c, g, Close(sent.0, sent.1), parseJson) == Outcome(c, [Closed(SuccessCloseCode, ClientCloseReason)], None)
  {
  }

  /** A transport opened without a flag (`connect()` with no arguments) never reconnects, whatever the code. */
  lemma UnflaggedNeverReconnects(s: Socket, code: int, reason: string, parseJson: string -> Option<Value>)
    requires Connected(s)
    ensures var c := Connect(s, false, Undefined);
      Handle(c, |s.transports|, Close(code, reason), parseJson).s == c
  {
  }

  /**
   * Message acceptance: a non-string message and an unparsable string are
   * rejected, emitting nothing, with an error whose text ends with the
   * subscribed id; a parsable string is emitted exactly once as a raw event.
   */
  lemma MessageRule(s: Socket, g: nat, data: Data, parseJson: string -> Option<Value>)
    requires g < |s.transports|
    ensures var r := Handle(s, g, Message(data), parseJson);
      && r.s == s
      && (r.thrown.Some? <==> data.Binary? || parseJson(data.text).None?)
      && (r.thrown.Some? ==> r.emitted == [])
      && (r.thrown.Some? ==> |r.thrown.value| >= |s.subscribedTo|)
      && (r.thrown.Some? ==> r.thrown.value[|r.thrown.value| - |s.subscribedTo|..] == s.subscribedTo)
      && (data.Binary? ==> r.thrown == Some(NonJsonPrefix + s.subscribedTo))
      && (r.thrown.None? ==> r.emitted == [Raw(parseJson(data.text).value)])
  {
    var r := Handle(s, g, Message(data), parseJson);
    if r.thrown.Some? {
      var p := if data.Binary? then NonJsonPrefix else InvalidJsonPrefix;
      assert r.thrown.value == p + s.subscribedTo;
      assert r.thrown.value[|p|..] == s.subscribedTo;
    }
  }

  /** Error and open events are re-emitted unchanged and leave the socket as it is. */
  lemma PassThrough(s: Socket, g: nat, err: Value, parseJson: string -> Option<Value>)
    requires g < |s.transports|
    ensures Handle(s, g, Error(err), parseJson) == Outcome(s, [Errored(err)], None)
    ensures Handle(s, g, Open, parseJson) == Outcome(s, [Opened], None)
  {
  }
}

=== FILE: strings.dfy ===
/**
 * The JavaScript string operations the library relies on, restricted to what
 * its call sites need: ASCII case mapping, `startsWith`, `indexOf`,
 * `lastIndexOf`, `split` on one character and `replace` with a string pattern.
 */
module Strings {
  import opened Wrappers

  predicate IsAsciiUpper(c: char) {
    'A' <= c <= 'Z'
  }

  predicate IsAsciiLower(c: char) {
    'a' <= c <= 'z'
  }

  predicate IsAsciiLetter(c: char) {
    IsAsciiUpper(c) || IsAsciiLower(c)
  }

  function UpperChar(c: char): (u: char)
    ensures IsAsciiLower(c) ==> IsAsciiUpper(u) && u as int == c as int - 32
    ensures !IsAsciiLower(c) ==> u == c
  {
    if IsAsciiLower(c) then (c as int - 32) as char else c
  }

  function LowerChar(c: char): (l: char)
    ensures IsAsciiUpper(c) ==> IsAsciiLower(l) && l as int == c as int + 32
    ensures !IsAsciiUpper(c) ==> l == c
  {
    if IsAsciiUpper(c) then (c as int + 32) as char else c
  }

  /** `toLowerCase` on ASCII text; other characters are left as they are. */
  function Lower(s: string): (r: string)
    ensures |r| == |s|
    ensures forall i :: 0 <= i < |s| ==> r[i] == LowerChar(s[i])
  {
    seq(|s|, i requires 0 <= i < |s| => LowerChar(s[i]))
  }

  predicate StartsWith(s: string, p: string) {
    |p| <= |s| && s[..|p|] == p
  }

  /** `p` occurs in `s` at position `i`. */
  predicate OccursAt(s: string, p: string, i: nat) {
    i + |p| <= |s| && s[i..i + |p|] == p
  }

  /** `s.indexOf(p, from)`: the first position at or after `from` where `p` occurs. */
  function IndexOfFrom(s: string, p: string, from: nat): (r: Option<nat>)
    decreases |s| - from
  {
    if from + |p| > |s| then None
    else if OccursAt(s, p, from) then Some(from)
    else IndexOfFrom(s, p, from + 1)
  }

  function IndexOf(s: string, p: string): Option<nat> {
    IndexOfFrom(s, p, 0)
  }

  /** `IndexOfFrom` finds the first occurrence at or after `from`, and nothing when there is none. */
  lemma {:induction false} IndexOfFromFirst(s: string, p: string, from: nat)
    ensures IndexOfFrom(s, p, from).Some? ==>
      var i := IndexOfFrom(s, p, from).value;
      from <= i && OccursAt(s, p, i) && forall j :: from <= j < i ==> !OccursAt(s, p, j)
    ensures IndexOfFrom(s, p, from).None? ==> forall j :: from <= j ==> !OccursAt(s, p, j)
    decreases |s| - from
  {
    if from + |p| > |s| {
    } else if OccursAt(s, p, from) {
    } else {
      IndexOfFromFirst(s, p, from + 1);
    }
  }

  /** `indexOf` returns the first occurrence of `p` in `s`, or nothing when `p` never occurs. */
  lemma IndexOfFirst(s: string, p: string)
    ensures IndexOf(s, p).Some? ==>
      var i := IndexOf(s, p).value;
      OccursAt(s, p, i) && forall j :: 0 <= j < i ==> !OccursAt(s, p, j)
    ensures IndexOf(s, p).None? <==> forall j: nat :: !OccursAt(s, p, j)
  {
    IndexOfFromFirst(s, p, 0);
  }

  /** `s.lastIndexOf(c)`: the last position of `c`, or -1. */
  function LastIndexOf(s: string, c: char): (r: int)
    ensures -1 <= r < |s|
    ensures r == -1 <==> c !in s
    ensures r >= 0 ==> s[r] == c && c !in s[r + 1..]
  {
    if |s| == 0 then -1
    else if s[|s| - 1] == c then |s| - 1
    else
      var r := LastIndexOf(s[..|s| - 1], c);
      assert s == s[..|s| - 1] + [s[|s| - 1]];
      r
  }

  /**
   * The replacement text of `String.prototype.replace` for a string pattern:
   * `$$`, `$&`, `` $` `` and `$'` are expanded, every other character is kept.
   */
  function Expand(repl: string, matched: string, before: string, after: string): (r: string)
    ensures '$' !in repl ==> r == repl
  {
    if |repl| == 0 then ""
    else if |repl| >= 2 && repl[0] == '$' && repl[1] == '$' then "$" + Expand(repl[2..], matched, before, after)
    else if |repl| >= 2 && repl[0] == '$' && repl[1] == '&' then matched + Expand(repl[2..], matched, before, after)
    else if |repl| >= 2 && repl[0] == '$' && repl[1] == '`' then before + Expand(repl[2..], matched, before, after)
    else if |repl| >= 2 && repl[0] == '$' && repl[1] == '\'' then after + Expand(repl[2..], matched, before, after)
    else [repl[0]] + Expand(repl[1..], matched, before, after)
  }

  /** `s.replace(pat, repl)` with a string pattern: only the first occurrence is replaced. */
  function ReplaceFirst(s: string, pat: string, repl: string): (r: string)
    ensures IndexOf(s, pat).None? ==> r == s
  {
    match IndexOf(s, pat)
    case None => s
    case Some(i) =>
      IndexOfFirst(s, pat);
      s[..i] + Expand(repl, pat, s[..i], s[i + |pat|..]) + s[i + |pat|..]
  }

  /**
   * Replacing the first occurrence: the text before it contains no earlier
   * occurrence, and a replacement without `$` is inserted verbatim.
   */
  lemma ReplaceFirstSplits(s: string, pat: string, repl: string)
    requires '$' !in repl
    ensures (forall j: nat :: !OccursAt(s, pat, j)) ==> ReplaceFirst(s, pat, repl) == s
    ensures forall i: nat :: OccursAt(s, pat, i) && (forall j :: 0 <= j < i ==> !OccursAt(s, pat, j)) ==>
      ReplaceFirst(s, pat, repl) == s[..i] + repl + s[i + |pat|..]
  {
    IndexOfFirst(s, pat);
  }

  /** Replacing a pattern that first occurs right after `prefix`, at the end, swaps it for the replacement. */
  lemma ReplaceAtEnd(prefix: string, pat: string, repl: string)
    requires '$' !in repl
    requires forall j :: 0 <= j < |prefix| ==> !OccursAt(prefix + pat, pat, j)
    ensures ReplaceFirst(prefix + pat, pat, repl) == prefix + repl
  {
    var s := prefix + pat;
    assert s[|prefix|..|prefix| + |pat|] == pat;
    assert OccursAt(s, pat, |prefix|);
    ReplaceFirstSplits(s, pat, repl);
    assert s[..|prefix|] == prefix && s[|prefix| + |pat|..] == [];
  }

  /** `parts.join(sep)`. */
  function Join(parts: seq<string>, sep: string): (r: string)
    ensures |parts| == 1 ==> r == parts[0]
    decreases |parts|
  {
    if |parts| == 0 then ""
    else if |parts| == 1 then parts[0]
    else parts[0] + sep + Join(parts[1..], sep)
  }

  /** `s.split(c)` for a one-character separator. */
  function Split(s: string, c: char): (parts: seq<string>)
    ensures |parts| >= 1
    ensures forall k :: 0 <= k < |parts| ==> c !in parts[k]
    decreases |s|
  {
    match IndexOf(s, [c])
    case None =>
      IndexOfFirst(s, [c]);
      assert forall j :: 0 <= j < |s| ==> s[j..j + 1] == [s[j]] && !OccursAt(s, [c], j);
      [s]
    case Some(i) =>
      IndexOfFirst(s, [c]);
      assert forall j :: 0 <= j < i ==> s[j..j + 1] == [s[j]] && !OccursAt(s, [c], j);
      [s[..i]] + Split(s[i + 1..], c)
  }
}

=== FILE: userdetails.dfy ===
/**
 * `IUserDetails` (src/structures/userdetails.ts): the discord.bio profile
 * details. Three booleans are packed into a bit set, the user id is kept as a
 * number, and the two dates are kept as timestamps.
 *
 * Date parsing (`new Date(s).getTime()`) is a parameter of the model: it maps
 * the text to an integer timestamp or NaN. The ISO rendering of a timestamp
 * is left uninterpreted, so the date getters return the timestamp they render.
 */
module UserDetails {
  import opened Wrappers
  import opened Numeral

  /** `UserDetailsFlags`: the bit each boolean is stored in. */
  const VERIFIED: bv32 := 1
  const PREMIUM: bv32 := 2
  const STAFF: bv32 := 4

  /** The constructor's argument; `null` is `None`. */
  datatype DetailsOptions = DetailsOptions(
    slug: string,
    userId: string,
    verified: bool,
    createdAt: Option<string>,
    description: Option<string>,
    location: Option<string>,
    gender: Option<int>,
    birthday: Option<string>,
    email: Option<string>,
    occupation: Option<string>,
    banner: Option<string>,
    premium: bool,
    staff: bool,
    likes: int)

  datatype Details = Details(
    slug: string,
    id: nat,
    flags: bv32,
    createdAt: Option<Num>,
    description: Option<string>,
    location: Option<string>,
    gender: Option<int>,
    birthday: Option<Num>,
    email: Option<string>,
    occupation: Option<string>,
    banner: Option<string>,
    likes: int)

  /** The flags the constructor ORs together, starting from 0. */
  function PackFlags(verified: bool, premium: bool, staff: bool): (f: bv32)
    ensures f <= 7
    ensures (f & VERIFIED != 0) == verified && (f & PREMIUM != 0) == premium && (f & STAFF != 0) == staff
  {
    var f: bv32 := 0;
    var f := if verified then f | VERIFIED else f;
    var f := if premium then f | PREMIUM else f;
    if staff then f | STAFF else f
  }

  /** A truthy date string is parsed; `null` and the empty string store `null`. */
  function StoredDate(s: Option<string>, parseDate: string -> Num): (r: Option<Num>)
    ensures r.None? <==> s.None? || s.value == ""
    ensures r.Some? ==> r.value == parseDate(s.value)
  {
    match s
    case None => None
    case Some(t) => if t == "" then None else Some(parseDate(t))
  }

  /** The constructor; it throws when `BigInt` rejects the user id. */
  function New(o: DetailsOptions, parseDate: string -> Num): (r: Result<Details, ParseError>)
    ensures r.Ok? <==> AllDigits(o.userId, 10)
    ensures r.Ok? ==> var d := r.value;
      && d.slug == o.slug && d.description == o.description && d.location == o.location
      && d.gender == o.gender && d.email == o.email && d.occupation == o.occupation
      && d.banner == o.banner && d.likes == o.likes
      && d.id == Parse(o.userId, 10)
  {
    var id :- BigIntDecimal(o.userId);
    Ok(Details(o.slug, id, PackFlags(o.verified, o.premium, o.staff),
               StoredDate(o.createdAt, parseDate), o.description, o.location, o.gender,
               StoredDate(o.birthday, parseDate), o.email, o.occupation, o.banner, o.likes))
  }

  /** The `birthday` and `created_at` getters: the stored timestamp when it is truthy (not NaN, not 0). */
  function DateOf(stored: Option<Num>): (r: Option<int>)
    ensures r.Some? <==> stored.Some? && stored.value.Int? && stored.value.i != 0
    ensures r.Some? ==> r.value == stored.value.i
  {
    match stored
    case Some(Int(t)) => if t != 0 then Some(t) else None
    case _ => None
  }

  function Birthday(d: Details): Option<int> {
    DateOf(d.birthday)
  }

  function CreatedAt(d: Details): Option<int> {
    DateOf(d.createdAt)
  }

  /** `user_id`, and `id`, which returns it. */
  function UserId(d: Details): string {
    Show(d.id, 10)
  }

  // ---------------------------------------------------------------------
  // The flag getters, as written: each tests `1 << FLAG` instead of `FLAG`.

  function Mask(flag: bv32): bv32
    requires flag < 32
  {
    1 << flag
  }

  function VerifiedAsWritten(d: Details): (r: bool)
    ensures r == (d.flags & PREMIUM != 0)
  {
    d.flags & Mask(VERIFIED) != 0
  }

  function PremiumAsWritten(d: Details): (r: bool)
    ensures r == (d.flags & STAFF != 0)
  {
    d.flags & Mask(PREMIUM) != 0
  }

  function StaffAsWritten(d: Details): (r: bool)
    ensures r == (d.flags & 16 != 0)
  {
    d.flags & Mask(STAFF) != 0
  }

  /** The getters as written report the premium input as `verified`, the staff input as `premium`, and never `staff`. */
  lemma GettersAsWritten(o: DetailsOptions, parseDate: string -> Num)
    requires New(o, parseDate).Ok?
    ensures var d := New(o, parseDate).value;
      && VerifiedAsWritten(d) == o.premium
      && PremiumAsWritten(d) == o.staff
      && !StaffAsWritten(d)
  {
    var f := PackFlags(o.verified, o.premium, o.staff);
    assert Mask(VERIFIED) == PREMIUM && Mask(PREMIUM) == STAFF && Mask(STAFF) == 16;
    assert f & 16 == 0 by {
      assert f <= 7;
      BelowSixteen(f);
    }
  }

  lemma BelowSixteen(f: bv32)
    requires f <= 7
    ensures f & 16 == 0
  {
  }

  /** A concrete case: a verified, non-premium, non-staff user reads as not verified. */
  lemma VerifiedUserReadsUnverified(o: DetailsOptions, parseDate: string -> Num)
    requires New(o, parseDate).Ok? && o.verified && !o.premium && !o.staff
    ensures !VerifiedAsWritten(New(o, parseDate).value)
  {
    GettersAsWritten(o, parseDate);
  }

  // ---------------------------------------------------------------------
  // The flag getters as evidently intended: each tests its own flag.

  function Verified(d: Details): bool {
    d.flags & VERIFIED != 0
  }

  function Premium(d: Details): bool {
    d.flags & PREMIUM != 0
  }

  function Staff(d: Details): bool {
    d.flags & STAFF != 0
  }

  /** The corrected getters give back exactly the three booleans the constructor packed. */
  lemma FlagsRoundTrip(o: DetailsOptions, parseDate: string -> Num)
    requires New(o, parseDate).Ok?
    ensures var d := New(o, parseDate).value;
      Verified(d) == o.verified && Premium(d) == o.premium && Staff(d) == o.staff
  {
  }

  /** The packing is injective: distinct inputs give distinct flag words. */
  lemma PackFlagsInjective(v1: bool, p1: bool, s1: bool, v2: bool, p2: bool, s2: bool)
    ensures PackFlags(v1, p1, s1) == PackFlags(v2, p2, s2) <==> v1 == v2 && p1 == p2 && s1 == s2
  {
  }

  // ---------------------------------------------------------------------
  // Ids and dates

  /** `user_id` and `id` give back a canonical decimal id unchanged. */
  lemma UserIdRoundTrip(o: DetailsOptions, parseDate: string -> Num)
    requires Canonical(o.userId, 10)
    ensures New(o, parseDate).Ok? && UserId(New(o, parseDate).value) == o.userId
  {
    CanonicalRoundTrip(o.userId, 10);
  }

  /** The date text is given, non-empty, and parses to a non-zero number. */
  predicate Truthy(s: Option<string>, parseDate: string -> Num) {
    s.Some? && s.value != "" && parseDate(s.value).Int? && parseDate(s.value).i != 0
  }

  /** A date reads back exactly when it was given, non-empty, and parsed to a non-zero number. */
  lemma DatesRoundTrip(o: DetailsOptions, parseDate: string -> Num)
    requires New(o, parseDate).Ok?
    ensures var d := New(o, parseDate).value;
      && (Birthday(d).Some? <==> Truthy(o.birthday, parseDate))
      && (Birthday(d).Some? ==> Birthday(d).value == parseDate(o.birthday.value).i)
      && (CreatedAt(d).Some? <==> Truthy(o.createdAt, parseDate))
      && (CreatedAt(d).Some? ==> CreatedAt(d).value == parseDate(o.createdAt.value).i)
  {
  }
}

=== FILE: util.dfy ===
/**
 * `snakeToCamelCase`: every match of `/([-_][a-z])/ig` (a `-` or `_`
 * followed by an ASCII letter of either case) is replaced by the letter in
 * upper case. Matches are found left to right and never overlap.
 */
module Util {
  import opened Strings

  predicate IsSeparator(c: char) {
    c == '-' || c == '_'
  }

  /** A match of the pattern starts at position `i`. */
  predicate MatchAt(s: string, i: int) {
    0 <= i && i + 1 < |s| && IsSeparator(s[i]) && IsAsciiLetter(s[i + 1])
  }

  function SnakeToCamelCase(s: string): (r: string)
    ensures |r| <= |s|
    ensures |s| < 2 ==> r == s
    ensures |s| > 0 ==> |r| > 0
    ensures |s| >= 2 ==> r[0] == if MatchAt(s, 0) then UpperChar(s[1]) else s[0]
    decreases |s|
  {
    if |s| < 2 then s
    else if MatchAt(s, 0) then [UpperChar(s[1])] + SnakeToCamelCase(s[2..])
    else [s[0]] + SnakeToCamelCase(s[1..])
  }

  /** How many matches the left-to-right scan finds. */
  function MatchCount(s: string): nat
    decreases |s|
  {
    if |s| < 2 then 0
    else if MatchAt(s, 0) then 1 + MatchCount(s[2..])
    else MatchCount(s[1..])
  }

  /** Each match shortens the text by exactly one character. */
  lemma {:induction false} LengthDropsByMatches(s: string)
    ensures |SnakeToCamelCase(s)| == |s| - MatchCount(s)
    ensures 2 * MatchCount(s) <= |s|
    decreases |s|
  {
    if |s| < 2 {
    } else if MatchAt(s, 0) {
      LengthDropsByMatches(s[2..]);
    } else {
      LengthDropsByMatches(s[1..]);
    }
  }

  /** Text without a separator, or without any letter after one, is returned unchanged. */
  lemma {:induction false} NoMatchUnchanged(s: string)
    requires forall i :: 0 <= i < |s| ==> !MatchAt(s, i)
    ensures SnakeToCamelCase(s) == s
    ensures MatchCount(s) == 0
    decreases |s|
  {
    if |s| >= 2 {
      assert !MatchAt(s, 0);
      var t := s[1..];
      forall i | 0 <= i < |t| ensures !MatchAt(t, i) {
        assert !MatchAt(s, i + 1);
      }
      NoMatchUnchanged(t);
    }
  }

  /** In particular a name with neither `-` nor `_` is returned unchanged. */
  lemma NoSeparatorUnchanged(s: string)
    requires '-' !in s && '_' !in s
    ensures SnakeToCamelCase(s) == s
  {
    forall i | 0 <= i < |s| ensures !MatchAt(s, i) {
      assert s[i] in s;
    }
    NoMatchUnchanged(s);
  }

  /** The output is never longer than the input, and it loses a character exactly when a match exists. */
  lemma {:induction false} ShorterIffMatch(s: string)
    ensures |SnakeToCamelCase(s)| < |s| <==> exists i :: MatchAt(s, i)
    decreases |s|
  {
    LengthDropsByMatches(s);
    if |s| < 2 {
      assert forall i :: !MatchAt(s, i);
    } else if MatchAt(s, 0) {
    } else {
      var t := s[1..];
      ShorterIffMatch(t);
      LengthDropsByMatches(t);
      if exists i :: MatchAt(s, i) {
        var i :| MatchAt(s, i);
        assert i >= 1 && MatchAt(t, i - 1);
      }
      if exists j :: MatchAt(t, j) {
        var j :| MatchAt(t, j);
        assert MatchAt(s, j + 1);
      }
    }
  }

  /** Text before the first separator is copied as it is. */
  lemma {:induction false} CopyPrefix(p: string, s: string)
    requires '-' !in p && '_' !in p
    ensures SnakeToCamelCase(p + s) == p + SnakeToCamelCase(s)
    decreases |p|
  {
    if |p| == 0 {
      assert p + s == s;
    } else if |p + s| < 2 {
      assert s == [] && p + s == p;
    } else {
      var q := p + s;
      var t := p[1..];
      assert p[0] in p;
      assert q[0] == p[0] && !IsSeparator(q[0]);
      assert !MatchAt(q, 0);
      assert SnakeToCamelCase(q) == [q[0]] + SnakeToCamelCase(q[1..]);
      assert q[1..] == t + s;
      assert forall c :: c in t ==> c in p;
      CopyPrefix(t, s);
      assert p == [p[0]] + t;
    }
  }

  /** A separator followed by a letter becomes that letter in upper case. */
  lemma MatchFirst(c: char, s: string)
    requires IsSeparator(c) && |s| >= 1 && IsAsciiLetter(s[0])
    ensures SnakeToCamelCase([c] + s) == [UpperChar(s[0])] + SnakeToCamelCase(s[1..])
  {
    assert MatchAt([c] + s, 0);
    assert ([c] + s)[2..] == s[1..];
  }

  /** Lower-casing a literal, one character at a time. */
  lemma LowerLiteral(s: string, l: string)
    requires |s| == |l| && forall i :: 0 <= i < |s| ==> LowerChar(s[i]) == l[i]
    ensures Lower(s) == l
  {
  }

  /** Camel-casing `head_tail` for words without separators. */
  lemma CamelTwoWords(head: string, tail: string)
    requires '-' !in head && '_' !in head && '-' !in tail && '_' !in tail
    requires |tail| >= 1 && IsAsciiLower(tail[0])
    ensures SnakeToCamelCase(head + "_" + tail) == head + [UpperChar(tail[0])] + tail[1..]
  {
    var rest := ['_'] + tail;
    var word := [UpperChar(tail[0])] + tail[1..];
    assert head + "_" + tail == head + rest;
    CopyPrefix(head, rest);
    CamelSecondWord(tail);
    assert SnakeToCamelCase(head + rest) == head + word;
    assert head + word == head + [UpperChar(tail[0])] + tail[1..];
  }

  /** `_word` for a word without separators: the word with its first letter upper-cased. */
  lemma CamelSecondWord(tail: string)
    requires '-' !in tail && '_' !in tail
    requires |tail| >= 1 && IsAsciiLower(tail[0])
    ensures SnakeToCamelCase(['_'] + tail) == [UpperChar(tail[0])] + tail[1..]
  {
    var t := tail[1..];
    MatchFirst('_', tail);
    assert '-' !in t && '_' !in t by {
      assert forall x :: x in t ==> x in tail;
    }
    NoSeparatorUnchanged(t);
  }

  /** The four wire names the gateway handles, lower-cased and camel-cased. */
  lemma PresenceName()
    ensures SnakeToCamelCase(Lower("PRESENCE")) == "presence"
  {
    LowerLiteral("PRESENCE", "presence");
    NoSeparatorUnchanged("presence");
  }

  lemma BannerUpdateName()
    ensures SnakeToCamelCase(Lower("BANNER_UPDATE")) == "bannerUpdate"
  {
    LowerLiteral("BANNER_UPDATE", "banner_update");
    assert "banner_update" == "banner" + "_" + "update";
    CamelTwoWords("banner", "update");
  }

  lemma ProfileUpdateName()
    ensures SnakeToCamelCase(Lower("PROFILE_UPDATE")) == "profileUpdate"
  {
    LowerLiteral("PROFILE_UPDATE", "profile_update");
    assert "profile_update" == "profile" + "_" + "update";
    CamelTwoWords("profile", "update");
  }

  lemma TotalViewingName()
    ensures SnakeToCamelCase(Lower("TOTAL_VIEWING")) == "totalViewing"
  {
    LowerLiteral("TOTAL_VIEWING", "total_viewing");
    assert "total_viewing" == "total" + "_" + "viewing";
    CamelTwoWords("total", "viewing");
  }

  /** Of two adjacent separators only the second starts a match. */
  lemma DoubleSeparatorExample()
    ensures SnakeToCamelCase("a__b") == "a_B"
  {
  }

  /** A separator followed by a digit is kept. */
  lemma SeparatorDigitExample()
    ensures SnakeToCamelCase("a_1") == "a_1"
  {
  }
}

=== FILE: values.dfy ===
/**
 * JavaScript values as the library receives them from `JSON.parse`, plus
 * `undefined`, which is what reading a missing property gives. Numbers are
 * restricted to integers.
 */
module Values {
  import opened Wrappers
  import opened Numeral
  import Strings

  datatype Value =
    | Undefined
    | Null
    | Bool(b: bool)
    | Number(n: int)
    | Str(s: string)
    | Arr(items: seq<Value>)
    | Obj(fields: map<string, Value>)

  /** What reading a property of `undefined` or `null` throws. */
  datatype TypeError = TypeError

  /** JavaScript truthiness: `undefined`, `null`, `false`, `0` and `""` are falsy. */
  predicate Truthy(v: Value) {
    match v
    case Undefined => false
    case Null => false
    case Bool(b) => b
    case Number(n) => n != 0
    case Str(s) => s != ""
    case Arr(_) => true
    case Obj(_) => true
  }

  /**
   * `v.name`: a TypeError on `undefined` and `null`, the field of an object
   * (or `undefined` when it has none), and `undefined` on the other values,
   * whose only properties (`length` and the like) the library never reads.
   */
  function Member(v: Value, name: string): (r: Result<Value, TypeError>)
    ensures r.Err? <==> v == Undefined || v == Null
    ensures v.Obj? ==> r == Ok(if name in v.fields then v.fields[name] else Undefined)
  {
    match v
    case Undefined => Err(TypeError)
    case Null => Err(TypeError)
    case Obj(m) => Ok(if name in m then m[name] else Undefined)
    case _ => Ok(Undefined)
  }

  /**
   * The own enumerable properties that `{...v}` copies: an object's fields,
   * a string's characters and an array's items under their decimal indices,
   * and nothing from `undefined`, `null`, a boolean or a number.
   */
  function Spread(v: Value): (r: map<string, Value>)
    ensures v.Obj? ==> r == v.fields
    ensures v.Str? ==> forall i :: 0 <= i < |v.s| ==> Show(i, 10) in r && r[Show(i, 10)] == Str([v.s[i]])
    ensures v.Arr? ==> forall i :: 0 <= i < |v.items| ==> Show(i, 10) in r && r[Show(i, 10)] == v.items[i]
    ensures !v.Obj? && !v.Str? && !v.Arr? ==> r == map[]
  {
    match v
    case Obj(m) => m
    case Str(s) => Indexed(seq(|s|, i requires 0 <= i < |s| => Str([s[i]])))
    case Arr(items) => Indexed(items)
    case _ => map[]
  }

  /** The items of `items` keyed by their decimal index. */
  function Indexed(items: seq<Value>): (r: map<string, Value>)
    ensures forall i :: 0 <= i < |items| ==> Show(i, 10) in r && r[Show(i, 10)] == items[i]
    ensures forall k :: k in r ==> exists i :: 0 <= i < |items| && k == Show(i, 10)
  {
    ShowInjective();
    map i | 0 <= i < |items| :: Show(i, 10) := items[i]
  }

  lemma ShowInjective()
    ensures forall i: nat, j: nat :: Show(i, 10) == Show(j, 10) ==> i == j
  {
    forall i: nat, j: nat | Show(i, 10) == Show(j, 10) ensures i == j {
      ShowParse(i, 10);
      ShowParse(j, 10);
    }
  }

  /**
   * `String(v)`: a string is itself, a number its decimal rendering, a plain
   * object `[object Object]`, and an array its items joined with `,`, where
   * `undefined` and `null` items contribute nothing.
   */
  function ToText(v: Value): (r: string)
    decreases v
  {
    match v
    case Undefined => "undefined"
    case Null => "null"
    case Bool(b) => if b then "true" else "false"
    case Number(n) => IntText(n)
    case Str(s) => s
    case Arr(items) =>
      Strings.Join(seq(|items|, i requires 0 <= i < |items| =>
        if items[i].Undefined? || items[i].Null? then "" else ToText(items[i])), ",")
    case Obj(_) => "[object Object]"
  }

  /** The text of a number reads back as that number, that of a string is the string, every object's is the same. */
  lemma ToTextRoundTrips(v: Value)
    ensures v.Number? ==> ParseInt(ToText(v)) == Int(v.n)
    ensures v.Str? ==> ToText(v) == v.s
    ensures v.Obj? ==> ToText(v) == ToText(Obj(map[]))
  {
    if v.Number? {
      ParseIntText(v.n);
    }
  }

  /** A one-item array renders as its item, except that `null` and `undefined` items render as nothing. */
  lemma SingletonArrayText(v: Value)
    ensures ToText(Arr([v])) == if v.Undefined? || v.Null? then "" else ToText(v)
  {
    var parts := seq(1, i requires 0 <= i < 1 => if [v][i].Undefined? || [v][i].Null? then "" else ToText([v][i]));
    assert parts == [if v.Undefined? || v.Null? then "" else ToText(v)];
  }

  /** `a || b`: `a` when truthy, else `b`. */
  function Or(a: Value, b: Value): (r: Value)
    ensures Truthy(a) ==> r == a
    ensures !Truthy(a) ==> r == b
  {
    if Truthy(a) then a else b
  }
}

=== FILE: wrappers.dfy ===
/** Failure-compatible wrappers shared by every module of the model. */
module Wrappers {

  /** A value that may be missing: JavaScript's `undefined` or `null`. */
  datatype Option<+T> = None | Some(value: T) {

    function GetOr(default: T): T {
      match this
      case Some(v) => v
      case None => default
    }
  }

  /** The outcome of an operation that may throw. */
  datatype Result<+T, +E> = Ok(value: T) | Err(error: E) {

    predicate IsFailure() {
      Err?
    }

    function PropagateFailure<U>(): Result<U, E>
      requires Err?
    {
      Err(error)
    }

    function Extract(): T
      requires Ok?
    {
      value
    }
  }
}
